=== FILE: README.md ===
# YTDL Telegram bot: a Dafny model of its download and delivery logic

This project models the decision logic of a Telegram bot that downloads
videos with an extractor (yt-dlp), cuts large files with a transcoder
(ffmpeg), uploads them to chats, and watches subscribed channels. Each
external effect becomes an input to a pure function:

- the extractor's per-route outcome is a function from route index to `Attempt`;
- the transcoder's exit status is `exitOk`, judged per command of the segment plan (its time window and output name), and its banner is `stderr`;
- the filesystem is the set of existing paths;
- a Telegram call is a `Result`, or for `tg_retry` a function from try index to outcome;
- the SQLite store is a record of a row sequence and two maps, with a `healthy` flag for a failing database;
- the clock is a `real`.

Modules follow the source files:

| module | file | models |
|---|---|---|
| `Text` | text.dfy | the Python string operations the code relies on: `in`, `lower`, `split`, `strip`, `int()`, `str(int)`, `float()`, `os.path.splitext` |
| `Config` | config.dfy | `get_proxy_list`, `is_user_allowed`, `check_disk_space`, the size limits |
| `Downloader` | downloader.dfy | the restriction classifier, the route failover shared by `download_content` and the info helpers, result-path post-processing |
| `Uploader` | uploader.dfy | `split_video` |
| `Retry` | retry.dfy | `tg_retry` |
| `Progress` | progress.dfy | the `update_status_msg` reporter as an explicit state record |
| `Delivery` | delivery.dfy | `handle_upload` |
| `Worker` | worker.dfy | one job of `process_queue`, and the queue drained job by job |
| `Playlist` | playlist.dfy | `process_playlist_queue` |
| `Store` | store.dfy | the subscription, processed-video and settings tables |
| `Subscription` | subscription.dfy | `_check_subscriptions`, `_check_channel`, `check_channel_now` |
| `Handlers` | handlers.dfy | the command and callback handlers' decisions |

Facts about the code that shape the model:

- `split_video` computes `size // limit + 1` parts (uploader.py:37).
- `split_video` runs one transcoder command per part, each cutting its own time window (uploader.py:60-76).
- Live channels are handled only by `get_live_info` and `get_stream_url`.
- The extractor's info dictionary can lack a key or hold `None` under it, and `info.get(key, default)` tells these apart. The model keeps the distinction (`Downloader.Field`) for every key whose `None` changes what happens next:
  - a playlist's `entries`: iterating `None` raises;
  - a listed entry's `title`: the playlist loop slices it before the entry's `try`;
  - a listed entry's `id`: SQLite binds it as `NULL`, so it is never found processed, and marking it silently stores nothing (`INSERT OR IGNORE`);
  - a channel's `id`: the subscription row's `NOT NULL` column rejects it (`INSERT OR REPLACE` aborts);
  - a download's `title`: appending the part counter to `None` raises in the upload.

The model has two switches, both the Python `int()` of a float:

- Task identifiers use `Worker.Truncate` (truncation toward zero) of the clock.
- `Worker.ProcessJob`, `Playlist.ProcessPlaylist` and `Handlers.AudioCallback` take an `asWritten` flag. It selects how the call site unpacks the downloader's result; see Findings.

## Model

| member | source | states |
|---|---|---|
| Config.ProxyListSpec | config.py:46-64 | The route list is never empty. It is `[Direct]` exactly when PROXY and PROXY_LIST yield no non-blank entry. Otherwise every route is a proxy, there are no duplicates, the routes are exactly the candidates, a non-empty PROXY comes first, and the stripped PROXY_LIST entries keep their first-occurrence order. |
| Config.ProxyAddressesSpec | config.py:49-62 | The collected addresses have no duplicates and are exactly the candidates. PROXY heads them when set. They are empty iff there are no candidates, and they are in first-occurrence order. |
| Config.AppendNewContents | config.py:58-62 | Appending stripped, non-blank, unseen items keeps the existing prefix and has no duplicates. Its members are the old ones plus the non-blank items. |
| Config.AppendNewOrder | config.py:58-62 | The appended list is in the order in which each item first occurs in the old list followed by the items. |
| Config.ParseAllSpec | config.py:74 | Parsing a list fails iff some item is not an integer. Otherwise item i parses to id i. |
| Config.UserAllowedSpec | config.py:66-78 | An empty ALLOWED_CHAT_IDS admits everyone, and so does a list with an unparseable item. Otherwise a chat is admitted iff some non-blank item parses to its id. |
| Config.CheckDiskSpace | config.py:90-104 | A non-positive quota gives `(True, 0)`. Otherwise the reported remainder is quota minus usage, and the check passes iff the estimate in GB fits the remainder. |
| Downloader.MatchesAnySpec | downloader.py:34 | The phrase scan is true iff some phrase occurs in the lower-cased message. |
| Downloader.RestrictionErrorSpec | downloader.py:15-37 | A message is restriction-class iff some lower-cased table phrase is a substring of the lower-cased message. |
| Downloader.PhraseMakesRestriction | downloader.py:15-37 | Any table phrase written verbatim into a message makes it restriction-class. |
| Downloader.ClassifierPositives | downloader.py:15-29 | The four restriction messages the unit tests list are all classified as restriction-class. |
| Downloader.ClassifierNegatives | downloader.py:31-37 | "Could not resolve host" and "HTTP Error 404: Not Found" are not restriction-class. |
| Downloader.CancellationNotRestriction | downloader.py:163-164 | None of the three cancellation messages is restriction-class, so a cancelled download is never retried on another route. |
| Downloader.NoRestrictionWithoutKeyLetters | downloader.py:15-29 | A message lacking the letters i, g, k and m in both cases, and lacking y or t, matches no table phrase. |
| Downloader.NoPhraseWithoutKeyLetters | downloader.py:15-29 | Every lower-cased table phrase contains i, g, k or m, or else both y and t. |
| Downloader.FailoverFromSpec | downloader.py:168-260 | From route k, the pass either succeeds at the first route that did not fail with a restriction-class error, or stops there on its non-restriction error, or exhausts the routes. Every earlier route failed with a restriction-class error. |
| Downloader.FailoverSpec | downloader.py:168-260 | The same for a whole route list, with the last route's error on exhaustion. |
| Downloader.FailoverFromStopsAt | downloader.py:255-260 | The first route whose attempt is not a restriction-class failure decides the pass. |
| Downloader.FailoverFromExhausted | downloader.py:255-257 | If every route fails with a restriction-class error, the pass reports the last route's error. |
| Downloader.FailoverFromLocal | downloader.py:168-260 | The pass depends only on attempts up to the deciding route. Attempts after it are never made. |
| Downloader.FirstExistingSpec | downloader.py:232-245 | The first existing candidate is found iff any candidate exists. It is the earliest one present. |
| Downloader.FinishSpec | downloader.py:223-245 | Audio gives the prepared stem with `.m4a`. A video keeps the prepared name when that file exists. Otherwise it takes the first of `.mp4`, `.mkv`, `.webm` that exists, or keeps the prepared name when none does. The thumbnail is the first of `.jpg`, `.jpeg`, `.webp` next to the result that exists, and there is none iff none exists. The title is `None` iff the extractor reported `None`, and "video" when the key is absent. |
| Downloader.DownloadContentDecided | downloader.py:220-260 | `download_content` returns the first non-skipped route's success, post-processed, or raises its error unchanged. |
| Downloader.DownloadContentOk | downloader.py:220-248 | A successful download comes from some route after which only restriction-class failures preceded it. |
| Downloader.DownloadContentExhausted | downloader.py:262-267 | On exhaustion, a sole direct route gives the "configure PROXY" message. Otherwise the message is "All N proxies failed" with N the route count and the last error. |
| Downloader.CancelledDownloadNotRetried | downloader.py:162-164 | When the hook finds the task cancelled, the first route that reports progress fails with "Download cancelled by user", which is raised as is and not retried on later routes. A route that reports progress first means nothing is downloaded. |
| Downloader.HookIdleWithoutCancel | downloader.py:162-166 | Without a task id, or with one that is not in the cancellation set, the hook leaves every route's outcome unchanged. |
| Downloader.ExtractDecided | downloader.py:77-82 | The raising info helpers return the first non-skipped route's converted result, or raise its error. |
| Downloader.ExtractExhausted | downloader.py:82 | If every route is skipped, the raising info helpers raise their fixed "Could not extract" message. |
| Downloader.ExtractOrDecided | downloader.py:148-152 | The non-raising helpers return the first non-skipped route's result, or the fallback on its error. |
| Downloader.ExtractOrExhausted | downloader.py:154 | If every route is skipped, the non-raising helpers return the fallback. |
| Downloader.LargestFormatSpec | downloader.py:61-66 | The running maximum bounds every format's size and is attained by some format unless it is 0. |
| Downloader.VideoSizeSpec | downloader.py:59-72 | The size estimate is the first non-zero of filesize, filesize_approx and the largest format size. The MiB figure is that estimate over 2^20. |
| Downloader.ChannelInfoSpec | downloader.py:105-109 | The name is blank only when channel and uploader are blank and the title is an empty string. The id is `None` iff `channel_id` is blank and `id` holds `None`. It is blank iff `channel_id` is blank and `id` is absent or empty. Otherwise it is `channel_id`. The URL falls back to the requested one. |
| Downloader.PresentSpec | downloader.py:140-141 | Dropping falsy entries never lengthens the list. The length is kept iff none is missing, and exactly the present values survive. |
| Downloader.VideosSpec | downloader.py:139-147 | Every listed video has a non-empty URL. An entry without one gets its `watch?v=` page. |
| Downloader.EntryFieldsSpec | downloader.py:143-145 | A listed video's id and title, and a playlist entry's title, are `None` iff the listing holds `None` under the key. An absent key gives `""` or "Unknown". Both read the same non-empty URL. |
| Downloader.PlaylistInfoSpec | downloader.py:290-296 | The summary raises iff the entries key holds `None`. A missing key gives count 0 and no entries. Otherwise the count is of the raw entries, bounds the entry list, and equals its length iff no entry is falsy. Every entry has a non-empty URL. |
| Downloader.NullEntriesRaise | downloader.py:270-301 | When the deciding route lists `entries: None`, `get_playlist_info` raises the TypeError instead of reporting an empty playlist, and `get_latest_videos` (downloader.py:140-152) gives `[]`. |
| Downloader.NotIterableNotRestriction | downloader.py:298-301 | The TypeError for iterating `None` is not restriction-class, so it is re-raised rather than retried on another route. |
| Downloader.IsPlaylistSpec | downloader.py:305-328 | A URL is a playlist iff some route, after only restriction-class failures, listed a non-empty entry list. |
| Downloader.FirstAcceptedSpec | downloader.py:335-359 | The scan returns the first successful, accepted attempt, skipping every error. |
| Downloader.LiveInfoSpec | downloader.py:330-359 | A channel is reported live iff some route reports it live, whatever the other routes raise. |
| Downloader.StreamUrlSpec | downloader.py:361-379 | Errors are skipped, and the first route that answers gives the stream URL, even when it has none. |
| Uploader.SizeLimitSpec | uploader.py:23-28 | The limit is the local one iff the API URL is non-empty and lacks `api.telegram.org`. Otherwise it is the standard one. |
| Uploader.PartCountSpec | uploader.py:37 | An oversized file gets at least two parts, the parts times the limit exceed the size, and one part fewer would not. |
| Uploader.FirstLineWithSpec | uploader.py:44-47 | The scan finds the first line mentioning the marker, and none iff no line does. |
| Uploader.FieldAfterFound | uploader.py:44-51 | There is a duration field iff some banner line mentions `Duration:`. |
| Uploader.DurationTextNoComma | uploader.py:46 | The extracted duration text contains no comma. |
| Uploader.SegmentPlanSpec | uploader.py:55-68 | The windows `split_video` runs start at 0, each is total/n long, each starts where the previous ends, the last ends at the total, and window i writes part i+1. |
| Uploader.MadeMembers | uploader.py:74-76 | A part number is kept iff it is in range and its part was produced. |
| Uploader.MadeIncreasing | uploader.py:60-76 | The kept part numbers are strictly increasing. |
| Uploader.NamesSpec | uploader.py:57-79 | For any plan whose command i writes part i+1: the kept names are at most one per command, all exist, and are in increasing part order. Part i is among them iff command i-1 succeeded and its output exists. |
| Uploader.SplitVideoWhole | uploader.py:30-33 | A file within the limit is returned whole, and so is one whose banner lacks a usable duration. |
| Uploader.SplitVideoOwnParts | uploader.py:33-81 | Every successful result of `split_video` is non-empty, and each name is the file itself or one of its existing part files. |
| Uploader.SplitVideoParts | uploader.py:53-81 | A cut file gives at least one and at most one name per window. The result is either the original file alone, or existing part files in strictly increasing part order. |
| Uploader.SplitVideoKeeps | uploader.py:60-81 | Part i of a cut file is in the result iff the command for window i of the plan exited cleanly and wrote its file. The result is the original file alone iff no window produced its part. |
| Uploader.PartNameInjective | uploader.py:62 | Different part numbers give different part names. |
| Uploader.SplitVideoExamples | uploader.py:23-62 | On the unit tests' scenario the public endpoint's limit applies, 120 MiB gives 3 parts, and they are named `dummy_part1.mp4` to `dummy_part3.mp4`. |
| Retry.RetryFromStopsAt | queue_processor.py:24-42 | The first try that is not retried ends the loop with its result after k+1 tries, having paused after each earlier try. |
| Retry.TgRetryStopsAt | queue_processor.py:24-42 | A success is returned. A Telegram error without "Flood control" is raised at once. Another error is raised only on the tenth try. |
| Retry.TgRetryExhausted | queue_processor.py:28-43 | Ten retried failures end in "Max retries exceeded", after ten tries. |
| Retry.TgRetryBounds | queue_processor.py:24-27 | The call is tried between one and ten times, and a success is the last try's value. |
| Retry.FloodWaitThenSuccess | queue_processor.py:28-31 | A RetryAfter(5) followed by a success returns it after two tries and one 5-second pause. |
| Progress.Step | queue_processor.py:147-167 | A non-forced update within 20 s has no effect. A due update creates the message with its text and the current time when there is none yet. With a message, a due update with a different text edits it and records the time, and one with the same text does nothing. The creation text never changes. A call that does not get through changes nothing. The cancel button carries `cancel:` and the task id. |
| Progress.ReplayKeepsCreationText | queue_processor.py:157-165 | After any run of updates the stored text is the first creation's text, or none if nothing was created. |
| Progress.ReplayLastEditBounded | queue_processor.py:160-165 | The last edit time never passes the latest clock reading. |
| Delivery.Caption | queue_processor.py:80-82 | A caption starts with the title and gains a part counter iff there is more than one part. |
| Delivery.Cleanup | queue_processor.py:114-118 | Cleanup removes exactly the original and the parts, and nothing else. |
| Delivery.HandleUpload | queue_processor.py:45-124 | An upload only ever removes files. When an exception escapes, no file is removed. |
| Delivery.NullTitleUpload | queue_processor.py:79-82 | With a `None` title and several parts, appending the first part counter raises. No part is sent, nothing is removed, and "Upload error" is posted, or the error escapes when that post fails. A single part is sent with no caption. |
| Delivery.UploadUsesPartList | queue_processor.py:72-118 | A video upload sends only files of its part list, and removes only the downloaded file and files of that list. |
| Delivery.SplitterFeedsUpload | queue_processor.py:72-118 | When the part list is `split_video`'s result, every file sent or removed is the downloaded file or one of its existing part files. |
| Delivery.PartsFromCompletes | queue_processor.py:79-108 | The part loop completes iff every part was sent or its failure reported. Otherwise it ends at the first part whose failure notice could not be sent, with that error. |
| Delivery.PartsFromReaches | queue_processor.py:79-108 | A part that the loop reaches is announced, sent with its caption and audio button, or reported as failed; earlier failures do not stop it. |
| Delivery.PartsFromSound | queue_processor.py:79-108 | Every event of the part loop belongs to some part: a successful send, a reported failure, or its progress line. |
| Delivery.NoTranscoderSendsWhole | queue_processor.py:72-75 | Without ffmpeg the file is sent whole under its plain title, then removed. |
| Delivery.VideoCleanup | queue_processor.py:66-124 | When every caption can be formed and every part is handled, the video path removes the original and the parts and ends with the clean-up report. Otherwise no file is removed. |
| Delivery.AudioPath | queue_processor.py:48-64 | A successful audio send removes the file. A failed one keeps it and posts the error, or raises when that notice fails. |
| Worker.Decode | queue_processor.py:133-141 | The decoded job keeps chat, URL and message. It is audio-only iff the height is -1, and the height is then 1080. A missing height gives 1080. |
| Worker.TaskIdDecodes | queue_processor.py:143 | A task id splits on `_` into three fields that parse back to chat, message (or "None") and seconds. |
| Worker.TaskIdInjective | queue_processor.py:143 | Different jobs or seconds give different task ids. |
| Worker.ProcessJob | queue_processor.py:143-221 | The task id is built from chat, message and the truncated clock. The first update is the forced "Processing" line with a cancel button, and every status update is forced. Files change only when an upload ran, and an upload only after a download. |
| Worker.PreflightSpec | queue_processor.py:172-191 | A job is fetched iff the disk check does not block and the task is not pre-cancelled. A pre-cancelled task is reported, discarded from the set, and not fetched. |
| Worker.DiskUsageIgnored | queue_processor.py:175-186 | With no quota, a failed probe or a zero estimate, disk usage never matters. |
| Worker.AsWrittenNeverUploads | queue_processor.py:203-210 | With the call site as written, no job ever uploads: a successful download ends in "Download failed" with the unpack error, and no file is touched. |
| Worker.CorrectedUploads | queue_processor.py:203-214 | With the corrected call site, a successful download of a job that passed pre-flight is uploaded. The job's files are the upload's, it ends with "Task completed", and a failed error report escapes. |
| Worker.DrainSpec | queue_processor.py:130-221 | Jobs run in queue order, one outcome each. The worker stops only after a job whose error report escaped, and every earlier job completed normally. |
| Playlist.ProcessPlaylist | queue_processor.py:223-311 | The task id is `pl_` with chat and truncated clock, and the first status is "Getting playlist info". |
| Playlist.LoopSpec | queue_processor.py:273-302 | Entries start strictly in order. The loop ends at the end, at the first entry found cancelled (checked only before an entry), or at the first entry whose exception escaped. No earlier entry was cancelled or escaping. |
| Playlist.EntryAsWrittenSkips | queue_processor.py:289-302 | As written, an entry whose download succeeds is skipped with the unpacking error and nothing is uploaded. Its exception escapes only when the "skipped" message fails. |
| Playlist.EntryCorrectedUploads | queue_processor.py:289-302 | Corrected, a downloaded entry goes to the uploader under the playlist and entry titles, and the uploader's events follow the announcement. An upload that does not raise ends the entry without a "skipped" message. |
| Playlist.EntryFailureSkipped | queue_processor.py:299-302 | A failed download is reported as skipped and the entry does not escape, unless the "skipped" message itself fails. |
| Playlist.EntryNullTitleEscapes | queue_processor.py:277-281 | An entry listed with a `None` title raises while its announcement is formatted. Nothing is announced, downloaded or reported as skipped, and the exception leaves the loop. |
| Playlist.NullTitleEndsPlaylist | queue_processor.py:273-308 | Reaching an entry with a `None` title, uncancelled and after entries that stayed in the loop, ends the job there. No later entry starts, and the last report is the error instead of "complete". |
| Playlist.NothingToDo | queue_processor.py:256-270 | A failed listing or an empty playlist is reported and nothing is downloaded. |
| Playlist.PlaylistOrder | queue_processor.py:273-304 | Entries start from the first, in order. No entry starts after a cancellation seen at its pre-entry check. The run ends with "complete" naming every entry, or with the error report. A run that stops early with "complete" stopped at an entry whose pre-entry check saw the cancellation. |
| Playlist.PlaylistIdsAreDistinct | queue_processor.py:231 | A playlist task id never equals a single-video task id. |
| Store.Without | database.py:82-85 | Deleting a key removes exactly its rows and shortens the table iff one existed. |
| Store.WithoutKeepsUnique | database.py:82-85 | Deleting keeps the table's keys unique. |
| Store.AddSubscription | database.py:60-75 | The result is True iff the store works and the channel id is not `None`. The `NOT NULL` column rejects a `None` id. A False result changes nothing, and the other tables are never touched. |
| Store.AddSubscriptionSpec | database.py:65-68 | Keys stay unique. The added row is the only one with its key, which replaces name and quality. All other rows are unchanged. |
| Store.RemoveSubscription | database.py:77-91 | With a working store and an id, the result is True iff the pair existed. Afterwards the pair is absent and the other rows are unchanged. A `None` id matches no row, and a failed store returns False. |
| Store.AllAfterAdd | database.py:60-104 | A full scan after an add lists the new row last and otherwise exactly the earlier rows with another key. |
| Store.UserSubscriptions | database.py:106-120 | Exactly the rows of that chat, or none on failure. |
| Store.SubscriptionLifecycle | database.py:60-120 | Adding to a chat with no subscriptions lists exactly that row. Removing it returns True and leaves the chat with none. |
| Store.ProcessedAfterMark | database.py:122-149 | After marking, a video reads as processed iff it is the marked one with an id and a working store, or it was processed before. A `None` id never reads as processed. |
| Store.MarkVideoProcessed | database.py:135-149 | Marking succeeds iff the store works. Under `INSERT OR IGNORE` a `None` id skips the row without an error, so it succeeds and records nothing. Otherwise success records the id, keeps every earlier record, and ignores a repeat. A failure changes nothing. |
| Store.MarkIdempotent | database.py:140-143 | Marking twice equals marking once. Afterwards the video reads as processed iff it has an id. |
| Store.NullKeysMatchNothing | database.py:24-45 | A `None` key changes nothing. The subscription insert aborts on its `NOT NULL` column and returns False. The processed insert skips the row and returns True. The processed lookup and the delete match no row. |
| Store.UpdateUserSettings | database.py:189-218 | Other chats' settings and the other tables are unchanged. A failed store changes nothing. |
| Store.UpdateThenRead | database.py:199-211 | After an update, each field is the passed value when truthy, and otherwise what was read before, defaults included. |
| Subscription.InsertSpec | subscription.py:78-87 | A row for a known channel appends its subscriber to that group only. A new channel appends a new group. |
| Subscription.GroupRowsSpec | subscription.py:77-87 | Grouping gives one group per distinct channel in first-seen order. Each group's name is from its first row, and its subscribers are its rows in order. |
| Subscription.Fanout | subscription.py:116-136 | A video queues exactly one `(chat, url, None, quality)` job per subscriber whose notification succeeded. |
| Subscription.Fresh | subscription.py:104-108 | Fresh videos are listed videos whose id has not been processed. A video without an id is always fresh. |
| Subscription.FreshIds | subscription.py:104-113 | The fresh ids are exactly the listed ids minus the processed ones. |
| Subscription.FreshDistinct | subscription.py:107-113 | An id is fresh at most once, because its first occurrence marks it. |
| Subscription.CheckVideosSpec | subscription.py:104-136 | A channel check queues the fan-out of exactly the fresh videos, marks every listed id, and keeps earlier records and the other tables. |
| Subscription.RecheckQueuesUnnamed | subscription.py:104-113 | Checking the same listing again changes nothing. It queues only the videos without an id, which can never be marked, so a listing whose videos all have ids queues nothing. |
| Subscription.BrokenStoreRequeues | subscription.py:107-113 | With a failing store every listed video is queued again and nothing is recorded. |
| Subscription.CheckGroupsMarksAll | subscription.py:89-93 | A failing channel does not stop the rest: every channel whose listing succeeded has all its ids marked. |
| Subscription.CheckSubscriptionsSound | subscription.py:67-136 | Every queued job belongs to a subscription row: its chat, its quality, no reply message. |
| Subscription.CheckNowSpec | subscription.py:143-166 | A manual check queues one job per fresh video for the chat and returns their number. |
| Subscription.CheckNowStopsAt | subscription.py:150-169 | When the notification of the j-th fresh video fails, that error is raised instead of the count. The jobs of the fresh videos before it stay queued, and the ids up to and including it are marked. |
| Handlers.CommandsNameTheirHeight | handlers.py:96 | /1080, /720, /480, /360 and /240 give their heights, and only /1080 gives the default. |
| Handlers.MusicCommand | handlers.py:64-84 | An allowed `/music` with a URL queues an audio job (height -1). Otherwise nothing is queued. |
| Handlers.QualityCommand | handlers.py:86-110 | An allowed quality command with a URL queues the command's height. |
| Handlers.CommandJobsDecode | handlers.py:82-108 | A `/music` job decodes as audio at 1080, and a quality job as video at the command's height. |
| Handlers.OptionalIntRoundTrip | handlers.py:129-131 | A rendered integer argument parses back to itself. |
| Handlers.PlaylistCommand | handlers.py:112-155 | An allowed `/playlist` with a URL queues a playlist job at the optional height iff the status message, the lookup and the status edit all succeed. Otherwise the first of them that failed is reported and nothing is queued. |
| Handlers.MessageHandler | handlers.py:157-191 | An allowed URL is queued iff the "Analyzing URL" message was sent and, for a playlist, the status edit before the put succeeded. Otherwise the first failed send's error leaves the handler and nothing is queued. A playlist goes to the playlist queue at the stored resolution. Video mode queues the stored resolution. |
| Handlers.MessageModeDecodes | handlers.py:185-188 | A plain URL decodes as audio iff the stored mode is audio, or the stored resolution is the sentinel; otherwise it uses the stored resolution. |
| Handlers.Subscribe | handlers.py:194-245 | A subscription is saved iff the chat is allowed, a URL is given, the "Getting channel info" message was sent, the lookup succeeds with a channel id that is not `None`, and the store works. When that message fails, its error leaves the handler before any lookup. The quality is the optional argument. "Failed to save" is shown iff the lookup succeeded but the id is `None` or the store failed. Otherwise the store is untouched. |
| Handlers.SubscribeStores | handlers.py:212-231 | Keys stay unique. With a channel id, the pair has exactly the new row. With a `None` id, the store is unchanged. |
| Handlers.Unsubscribe | handlers.py:247-284 | An unauthorized chat is ignored. "Unsubscribed" iff the channel has an id and the pair existed, and only that pair's row is removed. |
| Handlers.Keyboard | handlers.py:314-338 | The mode button is alone on row 1. Video mode adds two resolution rows; any other mode has only row 1. |
| Handlers.KeyboardResolutions | handlers.py:326-336 | The resolution rows hold 3 and 2 buttons carrying `set_res:<r>` in order. A button is checked iff it is the current resolution. |
| Handlers.ResField | handlers.py:366 | The resolution field is the text between the first and second colon. |
| Handlers.SettingsCallback | handlers.py:353-371 | Only `set_mode` and `set_res:` presses act. The mode flips between video and audio, any other press changes nothing, and subscriptions and processed ids are untouched. |
| Handlers.ResolutionButtonRoundTrip | handlers.py:365-367 | Pressing `set_res:<r>` stores r and keeps the mode. |
| Handlers.ToggleTwice | handlers.py:359-362 | Pressing `set_mode` twice restores the settings. |
| Handlers.CancelCallback | handlers.py:380-390 | Only `cancel:` data acts, adding the id that follows the prefix. |
| Handlers.CancelRoundTrip | handlers.py:386-390 | A cancel button adds exactly its task id, and a job with that id is then never fetched. |
| Handlers.AudioCallback | handlers.py:397-464 | An unauthorized chat gets nothing. Only `audio:` data acts, and the URL is what follows the prefix. Files only disappear, and a failure restores the same button data for a retry. |
| Handlers.AudioButtonRoundTrip | handlers.py:409-412 | An audio button's data yields exactly its URL. |
| Handlers.AudioAsWrittenNeverDelivers | handlers.py:436 | As written, an audio button never delivers audio. |
| Handlers.AudioCorrectedDelivers | handlers.py:436-452 | Corrected, a successful download and send removes the downloaded file and reports success. |
| Text.ContainsIsSubstring | downloader.py:34 | The Python `in` scan is true iff the needle occurs somewhere. |
| Text.SplitJoin | config.py:59 | Splitting on a character and joining back gives the original. |
| Text.ParseIntRoundTrip | handlers.py:366 | `int(str(i)) == i`. |
| Text.SplitExtOfJoin | downloader.py:227-228 | `splitext` undoes appending an extension to a path with a stem. |

## Left out

- Telegram I/O: the message texts, emoji and Markdown; the multipart uploads `upload_video_streaming` and `upload_audio_streaming` (uploader.py:84-179). Only their success or failure enters the model, and only for the calls whose failure changes what is queued, stored, sent or removed. Replies sent after the decision (the queue-depth and "Subscribed" texts) are left out.
- The extractor's option dictionaries, format strings and progress percentages. A route attempt is an abstract success or error.
- The transcoder's execution and `check_ffmpeg`. They become the per-part exit flags, the banner text and a boolean.
- `init_db`, SQLite itself, and `cleanup_old_processed` (database.py:151-166), which depends on SQLite's clock.
- asyncio: `run_in_executor`, `run_coroutine_threadsafe`, queue blocking, the monitor's `start`, `stop` and `_monitor_loop` with their sleeps, and `gc.collect`. Each worker is a sequential function of its job.
- Progress callbacks from the download thread. Their cancellation effect is the `Failed("Download cancelled …")` attempt outcome.
- bot.py wiring and the `/start`, `/settings` and `/subscriptions` texts. `/subscriptions` is `Store.UserSubscriptions` plus formatting.
- `get_downloads_size_gb` and `clear_downloads`, which walk the filesystem. Usage is a parameter.
- Floats: durations, sizes in MiB and GB, and clock readings are `real`s. `float()` parsing covers plain decimals only, without exponents, `inf` or `nan`.
- Python `lower()` and `int()` are modelled for ASCII only. `int()` does not accept underscores or non-ASCII digits.
- The duration of a fetched video (`get_video_info`'s `duration`, `uploader`, `channel_id`): these fields are only logged or displayed.
- Downloader.Finish, Downloader.VideoInfoOf, Downloader.ChannelInfoOf, Downloader.PlaylistInfoOf, Downloader.GetLiveInfo: a display field present with the value `None` gets the default here, where Python would print `None`. The fields are the download's id, the probe's and the live stream's title, id and uploader, the channel name, and the playlist's title, id and uploader. They are only formatted into messages and captions, stored in nullable columns, or not read at all. The keys whose `None` changes control flow keep it; see `Downloader.Field`.
- Uploader.SplitVideo: the optional `max_size_bytes` argument is not modelled. The only caller (queue_processor.py:75) never passes it, so the limit always comes from the API URL.
- Downloader.ClassifierNegatives: proves the two listed negative messages only, not an arbitrary non-matching message; the general statement is `Downloader.RestrictionErrorSpec`.
- Subscription.CheckGroupsJobs: states only that each job names a subscriber of some group; the exact job list per channel is `Subscription.CheckVideosSpec`.
- Worker.ProcessQueue: states nothing on its own; it instantiates `Worker.DrainSpec`.

## Findings

| source | as written | input that shows it | evidently intended | confidence | as-written member | corrected member |
|---|---|---|---|---|---|---|
| downloader.py:248, queue_processor.py:204 | `download_content` returns four values and each caller unpacks three, so every successful download raises "too many values to unpack (expected 3)" and is reported as "Download failed" | any job whose first route succeeds, e.g. a direct route with `Succeeded(fetched)` | each caller takes the path and title (and ignores the id and thumbnail) and goes on to upload | not executed | Worker.AsWrittenNeverUploads | Worker.CorrectedUploads |
| queue_processor.py:291 | the playlist loop unpacks three of the four values, so every downloaded entry raises and is reported as skipped | any playlist entry whose download succeeds | the entry is uploaded under the playlist and entry titles | not executed | Playlist.EntryAsWrittenSkips | Playlist.EntryCorrectedUploads |
| handlers.py:436 | the audio button's call site unpacks three of four values, so the button never delivers audio | an `audio:<url>` press whose download succeeds | the audio is sent and the file removed | not executed | Handlers.AudioAsWrittenNeverDelivers | Handlers.AudioCorrectedDelivers |

=== FILE: config.dfy ===
/** Configuration decisions: the egress route list, the chat allow-list,
    the disk-quota rule and the two upload size ceilings. Environment
    variables are parameters; an unset variable is the empty string. */
module Config {
  import opened Wrappers
  import opened Text

  /** Upload ceiling of the public Bot API endpoint: 49 MiB. */
  const StandardApiLimit: nat := 50 * 1024 * 1024 - 1024 * 1024
  /** Upload ceiling of a self-hosted Bot API server: about 1.95 GB. */
  const LocalApiLimit: nat := 2000 * 1024 * 1024 - 1024 * 1024 * 50

  /** One egress route for the extractor: direct (Python `None`) or a proxy URL. */
  datatype Route = Direct | Via(address: string)

  /** The items of a comma-separated list, stripped, blanks dropped. */
  function NonBlank(items: seq<string>): seq<string>
    decreases |items|
  {
    if |items| == 0 then []
    else (if Strip(items[0]) != "" then [Strip(items[0])] else []) + NonBlank(items[1..])
  }

  /** Every route the configuration names, in the order it names them,
      duplicates included: PROXY first, then the PROXY_LIST items. */
  function Candidates(proxy: string, proxyList: string): seq<string> {
    (if proxy != "" then [proxy] else []) + NonBlank(Split(proxyList, ','))
  }

  /** Appends the stripped, non-blank `items` to `acc`, skipping any already there. */
  function AppendNew(acc: seq<string>, items: seq<string>): seq<string>
    decreases |items|
  {
    if |items| == 0 then acc
    else
      var p := Strip(items[0]);
      AppendNew(if p != "" && p !in acc then acc + [p] else acc, items[1..])
  }

  function Vias(addresses: seq<string>): seq<Route> {
    seq(|addresses|, i requires 0 <= i < |addresses| => Via(addresses[i]))
  }

  /** The proxy addresses `get_proxy_list` collects before falling back to a direct route. */
  function ProxyAddresses(proxy: string, proxyList: string): seq<string> {
    var head := if proxy != "" then [proxy] else [];
    if proxyList != "" then AppendNew(head, Split(proxyList, ',')) else head
  }

  /** `get_proxy_list`: the routes the downloader tries, in order. */
  function GetProxyList(proxy: string, proxyList: string): seq<Route> {
    var all := ProxyAddresses(proxy, proxyList);
    if all == [] then [Direct] else Vias(all)
  }

  /** `f` applied to each element of `xs`, in order. */
  function MapSeq<A, B>(f: A -> B, xs: seq<A>): (r: seq<B>)
    ensures |r| == |xs| && forall i :: 0 <= i < |xs| ==> r[i] == f(xs[i])
  {
    seq(|xs|, i requires 0 <= i < |xs| => f(xs[i]))
  }

  predicate NoDup<T(==)>(s: seq<T>) {
    forall i, j :: 0 <= i < j < |s| ==> s[i] != s[j]
  }

  /** Position of the first `x` in `s`. */
  function IndexOf<T(==)>(s: seq<T>, x: T): (k: nat)
    requires x in s
    ensures k < |s| && s[k] == x && x !in s[..k]
    decreases |s|
  {
    if s[0] == x then 0 else 1 + IndexOf(s[1..], x)
  }

  /** `r` lists elements of `c` in the order of their first occurrence in `c`. */
  ghost predicate InFirstOccurrenceOrder<T>(r: seq<T>, c: seq<T>) {
    && (forall i :: 0 <= i < |r| ==> r[i] in c)
    && forall i, j :: 0 <= i < j < |r| ==> IndexOf(c, r[i]) < IndexOf(c, r[j])
  }

  /** The first occurrence is where `x` sits with no earlier `x`. */
  lemma {:induction false} IndexOfIs<T>(s: seq<T>, x: T, k: nat)
    requires k < |s| && s[k] == x && x !in s[..k]
    ensures IndexOf(s, x) == k
    decreases k
  {
    if k > 0 {
      assert s[..k][0] == s[0];
      assert s[1..][..k - 1] == s[1..k];
      assert forall y :: y in s[1..k] ==> y in s[..k];
      IndexOfIs(s[1..], x, k - 1);
    }
  }

  lemma IndexOfAppend<T>(a: seq<T>, b: seq<T>, x: T)
    requires x in a + b
    ensures x in a ==> IndexOf(a + b, x) == IndexOf(a, x) < |a|
    ensures x !in a ==> x in b && IndexOf(a + b, x) == |a| + IndexOf(b, x)
  {
    if x in a {
      var m := IndexOf(a, x);
      assert (a + b)[..m] == a[..m];
      IndexOfIs(a + b, x, m);
    } else {
      var j :| 0 <= j < |a + b| && (a + b)[j] == x;
      assert b[j - |a|] == x;
      var m := IndexOf(b, x);
      assert (a + b)[..|a| + m] == a + b[..m];
      IndexOfIs(a + b, x, |a| + m);
    }
  }

  /** Dropping a repeated `p` from `acc + [p] + rest` shifts the positions
      after `acc` down by one and leaves those inside `acc` alone. */
  lemma ShiftIndex(acc: seq<string>, p: string, rest: seq<string>, x: string)
    requires p in acc && x in acc + rest
    ensures x in acc ==> IndexOf(acc + [p] + rest, x) == IndexOf(acc + rest, x) < |acc|
    ensures x !in acc ==> IndexOf(acc + [p] + rest, x) == IndexOf(acc + rest, x) + 1 && IndexOf(acc + rest, x) >= |acc|
  {
    assert acc + [p] + rest == acc + ([p] + rest);
    IndexOfAppend(acc, rest, x);
    IndexOfAppend(acc, [p] + rest, x);
    if x !in acc {
      assert ([p] + rest)[1..] == rest;
    }
  }

  /** Appending only unseen items keeps the result duplicate-free, keeps
      `acc` as a prefix and collects exactly the non-blank stripped items. */
  lemma {:induction false} AppendNewContents(acc: seq<string>, items: seq<string>)
    requires NoDup(acc)
    ensures var r := AppendNew(acc, items);
      && NoDup(r)
      && |acc| <= |r| && r[..|acc|] == acc
      && (forall x :: x in r <==> x in acc || x in NonBlank(items))
      && (|NonBlank(items)| > 0 ==> |r| > 0)
      && |r| <= |acc| + |NonBlank(items)|
    decreases |items|
  {
    if |items| > 0 {
      var p := Strip(items[0]);
      var r := AppendNew(acc, items);
      if p != "" && p !in acc {
        var acc' := acc + [p];
        AppendNewContents(acc', items[1..]);
        assert r[..|acc'|][..|acc|] == r[..|acc|];
      } else {
        AppendNewContents(acc, items[1..]);
      }
    }
  }

  /** The appended routes follow the order of first occurrence in `acc`
      followed by the non-blank stripped items. */
  lemma {:induction false} AppendNewOrder(acc: seq<string>, items: seq<string>)
    requires NoDup(acc)
    ensures InFirstOccurrenceOrder(AppendNew(acc, items), acc + NonBlank(items))
    decreases |items|
  {
    if |items| == 0 {
      assert acc + NonBlank(items) == acc;
      OrderOfNoDup(acc);
    } else {
      var p := Strip(items[0]);
      var rest := NonBlank(items[1..]);
      if p != "" && p !in acc {
        AppendNewOrder(acc + [p], items[1..]);
        assert acc + [p] + rest == acc + NonBlank(items);
      } else if p == "" {
        AppendNewOrder(acc, items[1..]);
        assert acc + rest == acc + NonBlank(items);
      } else {
        AppendNewOrder(acc, items[1..]);
        assert acc + NonBlank(items) == acc + [p] + rest;
        OrderSkipsRepeat(acc, p, rest, AppendNew(acc, items[1..]));
      }
    }
  }

  /** A duplicate-free sequence is in first-occurrence order of itself. */
  lemma OrderOfNoDup<T>(s: seq<T>)
    requires NoDup(s)
    ensures InFirstOccurrenceOrder(s, s)
  {
    forall i, j | 0 <= i < j < |s|
      ensures IndexOf(s, s[i]) < IndexOf(s, s[j])
    {
      IndexOfNoDup(s, i);
      IndexOfNoDup(s, j);
    }
  }

  /** Order relative to `acc + rest` carries over to `acc + [p] + rest`
      when `p` is already in `acc`. */
  lemma OrderSkipsRepeat(acc: seq<string>, p: string, rest: seq<string>, r: seq<string>)
    requires p in acc
    requires InFirstOccurrenceOrder(r, acc + rest)
    ensures InFirstOccurrenceOrder(r, acc + [p] + rest)
  {
    var c := acc + [p] + rest;
    forall i | 0 <= i < |r|
      ensures r[i] in c
    {
      assert r[i] in acc + rest;
    }
    forall i, j | 0 <= i < j < |r|
      ensures IndexOf(c, r[i]) < IndexOf(c, r[j])
    {
      ShiftIndex(acc, p, rest, r[i]);
      ShiftIndex(acc, p, rest, r[j]);
    }
  }

  lemma IndexOfNoDup<T>(s: seq<T>, i: int)
    requires NoDup(s) && 0 <= i < |s|
    ensures IndexOf(s, s[i]) == i
  {
    IndexOfIs(s, s[i], i);
  }

  /** The route list is never empty, is exactly `[Direct]` when neither
      PROXY nor PROXY_LIST names a route, puts a non-empty PROXY first,
      holds no duplicate, and otherwise lists exactly the configured routes
      in the order of their first mention. */
  lemma ProxyListSpec(proxy: string, proxyList: string)
    ensures var routes := GetProxyList(proxy, proxyList);
      var c := Candidates(proxy, proxyList);
      && |routes| >= 1
      && (routes == [Direct] <==> c == [])
      && (c != [] ==>
            && (forall i :: 0 <= i < |routes| ==> routes[i].Via?)
            && NoDup(routes)
            && (forall a :: Via(a) in routes <==> a in c)
            && (proxy != "" ==> routes[0] == Via(proxy))
            && InFirstOccurrenceOrder(Addresses(routes), c))
  {
    var all := ProxyAddresses(proxy, proxyList);
    var c := Candidates(proxy, proxyList);
    ProxyAddressesSpec(proxy, proxyList);
    if all != [] {
      var routes := Vias(all);
      assert Addresses(routes) == all;
      forall a
        ensures Via(a) in routes <==> a in all
      {
        if a in all {
          var i :| 0 <= i < |all| && all[i] == a;
          assert routes[i] == Via(a);
        }
      }
      assert c != [] by {
        assert all[0] in c;
      }
    } else {
      assert |c| == 0;
    }
  }

  lemma ProxyAddressesSpec(proxy: string, proxyList: string)
    ensures var all := ProxyAddresses(proxy, proxyList);
      var c := Candidates(proxy, proxyList);
      && NoDup(all)
      && (forall x :: x in all <==> x in c)
      && (proxy != "" ==> |all| > 0 && all[0] == proxy)
      && (|all| == 0 <==> |c| == 0)
      && InFirstOccurrenceOrder(all, c)
  {
    var head := if proxy != "" then [proxy] else [];
    var items := Split(proxyList, ',');
    var c := Candidates(proxy, proxyList);
    assert c == head + NonBlank(items);
    if proxyList == "" {
      assert items == [""];
      assert NonBlank(items) == [] + NonBlank(items[1..]);
      assert c == head;
      OrderOfNoDup(head);
    } else {
      AppendNewContents(head, items);
      AppendNewOrder(head, items);
      var all := AppendNew(head, items);
      if proxy != "" {
        assert all[..1] == [proxy];
      }
    }
  }

  /** The proxy addresses of `routes` (Direct contributes an empty string). */
  function Addresses(routes: seq<Route>): seq<string> {
    seq(|routes|, i requires 0 <= i < |routes| => if routes[i].Via? then routes[i].address else "")
  }

  /** Parses every item, failing as a whole when one item fails. */
  function ParseAll(items: seq<string>): Option<seq<int>>
    decreases |items|
  {
    if |items| == 0 then Some([])
    else
      match ParseInt(items[0])
      case None => None
      case Some(v) =>
        match ParseAll(items[1..])
        case None => None
        case Some(vs) => Some([v] + vs)
  }

  lemma {:induction false} ParseAllSpec(items: seq<string>)
    ensures ParseAll(items).None? <==> exists i :: 0 <= i < |items| && ParseInt(items[i]).None?
    ensures ParseAll(items).Some? ==>
      var ids := ParseAll(items).value;
      |ids| == |items| && forall i :: 0 <= i < |items| ==> ParseInt(items[i]) == Some(ids[i])
    decreases |items|
  {
    if |items| > 0 {
      ParseAllSpec(items[1..]);
      if ParseInt(items[0]).Some? && ParseAll(items[1..]).Some? {
        var ids := ParseAll(items).value;
        forall i | 0 <= i < |items|
          ensures ParseInt(items[i]) == Some(ids[i])
        {
          if i > 0 {
            assert items[1..][i - 1] == items[i];
          }
        }
      } else if ParseInt(items[0]).Some? {
        var i :| 0 <= i < |items[1..]| && ParseInt(items[1..][i]).None?;
        assert ParseInt(items[i + 1]).None?;
      }
      if exists i :: 0 <= i < |items| && ParseInt(items[i]).None? {
        var i :| 0 <= i < |items| && ParseInt(items[i]).None?;
        if i > 0 {
          assert items[1..][i - 1] == items[i];
        }
      }
    }
  }

  /** The stripped, non-blank items of ALLOWED_CHAT_IDS. */
  function AllowListItems(allowedChatIds: string): seq<string> {
    NonBlank(Split(allowedChatIds, ','))
  }

  /** `is_user_allowed`: an empty ALLOWED_CHAT_IDS admits everyone; so does
      a list with an item that is not an integer (the error is logged). */
  function IsUserAllowed(chatId: int, allowedChatIds: string): bool {
    if allowedChatIds == "" then true
    else
      match ParseAll(AllowListItems(allowedChatIds))
      case None => true
      case Some(ids) => chatId in ids
  }

  /** With no allow-list everyone is allowed; with an unparseable item
      everyone is allowed; otherwise exactly the listed ids are. */
  lemma UserAllowedSpec(chatId: int, allowedChatIds: string)
    ensures allowedChatIds == "" ==> IsUserAllowed(chatId, allowedChatIds)
    ensures (exists i :: 0 <= i < |AllowListItems(allowedChatIds)| && ParseInt(AllowListItems(allowedChatIds)[i]).None?)
      ==> IsUserAllowed(chatId, allowedChatIds)
    ensures allowedChatIds != "" && (forall i :: 0 <= i < |AllowListItems(allowedChatIds)| ==> ParseInt(AllowListItems(allowedChatIds)[i]).Some?)
      ==> (IsUserAllowed(chatId, allowedChatIds) <==>
           exists i :: 0 <= i < |AllowListItems(allowedChatIds)| && ParseInt(AllowListItems(allowedChatIds)[i]) == Some(chatId))
  {
    var items := AllowListItems(allowedChatIds);
    ParseAllSpec(items);
    if ParseAll(items).Some? {
      var ids := ParseAll(items).value;
      if exists i :: 0 <= i < |items| && ParseInt(items[i]) == Some(chatId) {
        var i :| 0 <= i < |items| && ParseInt(items[i]) == Some(chatId);
        assert ids[i] == chatId;
      }
      if chatId in ids {
        var i :| 0 <= i < |ids| && ids[i] == chatId;
        assert ParseInt(items[i]) == Some(chatId);
      }
    }
  }

  /** Result of `check_disk_space`: may we download, and the headroom in GB. */
  datatype DiskCheck = DiskCheck(allowed: bool, remainingGb: real)

  /** `check_disk_space`: with no quota (MAX_DISK_GB <= 0) always allowed
      with headroom 0; otherwise the estimate (MB) must fit under the quota
      together with what the download folder already holds. */
  function CheckDiskSpace(maxDiskGb: real, usageGb: real, estimatedMb: real): (r: DiskCheck)
    ensures maxDiskGb <= 0.0 ==> r == DiskCheck(true, 0.0)
    ensures maxDiskGb > 0.0 ==> r.remainingGb + usageGb == maxDiskGb
    ensures r.allowed <==> maxDiskGb <= 0.0 || estimatedMb / 1024.0 <= r.remainingGb
  {
    if maxDiskGb <= 0.0 then DiskCheck(true, 0.0)
    else
      var projected := usageGb + estimatedMb / 1024.0;
      if projected > maxDiskGb then DiskCheck(false, maxDiskGb - usageGb)
      else DiskCheck(true, maxDiskGb - usageGb)
  }
}

=== FILE: delivery.dfy ===
/** `handle_upload`: deliver a downloaded file to the chat, as audio or
    as one or more video parts, then remove the local files. Every call to
    Telegram and to the splitter is an input; the files on disk are a set
    of paths. */
module Delivery {
  import opened Wrappers
  import opened Text
  import Retry
  import Uploader

  /** The status lines the upload reports (their wording is left out). */
  datatype Status = UploadingAudio | CheckingSize | UploadingPart(part: nat, total: nat) | CleaningUp

  /** What the upload does towards the chat, in order. */
  datatype Event =
    | Reported(status: Status)
    | AudioSent(path: string, title: Option<string>)
    | VideoSent(path: string, caption: Option<string>, buttonData: string)
    | PartFailed(part: nat, error: string)
    | UploadError(error: string)

  /** The outcome of every external call the upload can make: the API
      base URL (which picks the streaming or the retried path), whether the
      transcoder is installed, what the splitter returns, the audio send,
      the per-part streaming uploads and retried video sends, the per-part
      retried failure notices and the last-resort error message. */
  datatype World = World(
    apiUrl: string,
    ffmpeg: bool,
    split: Result<seq<string>>,
    audioSend: Result<()>,
    streamed: nat -> Result<()>,
    videoTries: nat -> (nat -> Retry.Outcome<()>),
    noticeTries: nat -> (nat -> Retry.Outcome<()>),
    errorNotice: Result<()>)

  /** The events, the files left on disk, and the exception that escapes
      the upload when even the error message cannot be sent. */
  datatype Delivery = Delivery(events: seq<Event>, files: set<string>, raised: Option<string>)

  /** The callback data of the "Download Audio" button under each part. */
  function AudioButton(url: string): string {
    "audio:" + url
  }

  /** The caption of part `i` (0-based) of `n`: the title, with a part
      counter only when there is more than one part. */
  function Caption(title: string, i: nat, n: nat): (c: string)
    ensures StartsWith(c, title)
    ensures c == title <==> n <= 1
  {
    if n > 1 then title + " (Part " + NatToString(i + 1) + "/" + NatToString(n) + ")" else title
  }

  /** The caption sent with part `i` of `n`: none for a `None` title. */
  function PartCaption(title: Option<string>, i: nat, n: nat): Option<string> {
    if title.Some? then Some(Caption(title.value, i, n)) else None
  }

  /** What Python raises when the part counter is appended to a `None`
      title. */
  const NoneConcat := "unsupported operand type(s) for +=: 'NoneType' and 'str'"

  /** The upload of part `k`: streamed once to a local API server, or sent
      through the retry wrapper to the public one. */
  function PartSend(w: World, k: nat): Result<()> {
    if Uploader.IsLocalApi(w.apiUrl) then w.streamed(k) else Retry.TgRetry(w.videoTries(k)).result
  }

  /** The retried failure notice for part `k`. */
  function Notice(w: World, k: nat): Result<()> {
    Retry.TgRetry(w.noticeTries(k)).result
  }

  /** Part `k` leaves the loop running: it was sent, or its failure was
      reported. */
  predicate Handled(w: World, k: nat) {
    PartSend(w, k).Ok? || Notice(w, k).Ok?
  }

  function When(reporting: bool, s: Status): seq<Event> {
    if reporting then [Reported(s)] else []
  }

  /** The events of the part loop from part `k` on, and the exception that
      ends it early (a failure notice that could not be sent). */
  function PartsFrom(k: nat, parts: seq<string>, title: Option<string>, url: string, reporting: bool, w: World): (seq<Event>, Option<string>)
    requires k <= |parts|
    decreases |parts| - k
  {
    if k == |parts| then ([], None)
    else
      var status := When(reporting, UploadingPart(k + 1, |parts|));
      match PartSend(w, k)
      case Ok(_) =>
        var (rest, escaped) := PartsFrom(k + 1, parts, title, url, reporting, w);
        (status + [VideoSent(parts[k], PartCaption(title, k, |parts|), AudioButton(url))] + rest, escaped)
      case Err(e) =>
        match Notice(w, k)
        case Ok(_) =>
          var (rest, escaped) := PartsFrom(k + 1, parts, title, url, reporting, w);
          (status + [PartFailed(k + 1, e)] + rest, escaped)
        case Err(e2) => (status, Some(e2))
  }

  /** The outer handler: report the error without retrying; if that fails
      too, the exception leaves the upload. Nothing is removed. */
  function Fail(events: seq<Event>, error: string, files: set<string>, w: World): Delivery {
    match w.errorNotice
    case Ok(_) => Delivery(events + [UploadError(error)], files, None)
    case Err(e) => Delivery(events, files, Some(e))
  }

  /** The files left after the cleanup: the original and every part are
      removed when present. */
  function Cleanup(files: set<string>, filePath: string, parts: seq<string>): (left: set<string>)
    ensures left <= files
    ensures forall p :: p in left <==> p in files && p != filePath && p !in parts
  {
    files - {filePath} - (set p | p in parts)
  }

  /** The list of files to upload: the whole file when the transcoder is
      missing, otherwise what the splitter returns. */
  function PartList(filePath: string, w: World): Result<seq<string>> {
    if !w.ffmpeg then Ok([filePath]) else w.split
  }

  /** Every part's caption can be formed: the title is a text, or there is
      no part counter to append to it. */
  predicate Captionable(title: Option<string>, parts: seq<string>) {
    title.Some? || |parts| <= 1
  }

  /** `handle_upload`. The title is `None` when the extractor reported it
      so: a single part is then sent without a caption, while appending the
      part counter for several parts raises before the first is sent. */
  function HandleUpload(filePath: string, title: Option<string>, url: string, audioOnly: bool, reporting: bool, files: set<string>, w: World): (d: Delivery)
    ensures d.files <= files
    ensures d.raised.Some? ==> d.files == files
    ensures d.files != files ==> d.raised.None? && filePath !in d.files
  {
    if audioOnly then
      var status := When(reporting, UploadingAudio);
      match w.audioSend
      case Ok(_) => Delivery(status + [AudioSent(filePath, title)], files - {filePath}, None)
      case Err(e) => Fail(status, e, files, w)
    else
      var status := When(reporting, CheckingSize);
      match PartList(filePath, w)
      case Err(e) => Fail(status, e, files, w)
      case Ok(parts) =>
        if !Captionable(title, parts) then Fail(status, NoneConcat, files, w)
        else
          var (events, escaped) := PartsFrom(0, parts, title, url, reporting, w);
          match escaped
          case Some(e) => Fail(status + events, e, files, w)
          case None => Delivery(status + events + When(reporting, CleaningUp), Cleanup(files, filePath, parts), None)
  }

  /** The part loop runs to its end exactly when every part from `k` on
      was sent or had its failure reported; when it stops early, the
      exception is that of the first failure notice that could not be
      sent. */
  lemma {:induction false} PartsFromCompletes(k: nat, parts: seq<string>, title: Option<string>, url: string, reporting: bool, w: World)
    requires k <= |parts|
    ensures PartsFrom(k, parts, title, url, reporting, w).1.None? <==> forall j :: k <= j < |parts| ==> Handled(w, j)
    ensures PartsFrom(k, parts, title, url, reporting, w).1.Some? ==>
      exists j :: k <= j < |parts| && !Handled(w, j) && PartsFrom(k, parts, title, url, reporting, w).1 == Some(Notice(w, j).error)
        && forall i :: k <= i < j ==> Handled(w, i)
    decreases |parts| - k
  {
    if k < |parts| {
      PartsFromCompletes(k + 1, parts, title, url, reporting, w);
      if !Handled(w, k) {
        assert PartsFrom(k, parts, title, url, reporting, w).1 == Some(Notice(w, k).error);
      } else {
        var escaped := PartsFrom(k, parts, title, url, reporting, w).1;
        assert escaped == PartsFrom(k + 1, parts, title, url, reporting, w).1;
        if escaped.Some? {
          var j :| k + 1 <= j < |parts| && !Handled(w, j) && escaped == Some(Notice(w, j).error)
            && forall i :: k + 1 <= i < j ==> Handled(w, i);
          assert forall i :: k <= i < j ==> Handled(w, i);
        }
      }
    }
  }

  /** Failure isolation: once every earlier part was handled, part `j` is
      announced and then either sent with its caption and audio button, or
      reported as failed with its error. */
  lemma {:induction false} PartsFromReaches(k: nat, j: nat, parts: seq<string>, title: Option<string>, url: string, reporting: bool, w: World)
    requires k <= j < |parts|
    requires forall i :: k <= i < j ==> Handled(w, i)
    ensures var events := PartsFrom(k, parts, title, url, reporting, w).0;
      && (reporting ==> Reported(UploadingPart(j + 1, |parts|)) in events)
      && (PartSend(w, j).Ok? ==> VideoSent(parts[j], PartCaption(title, j, |parts|), AudioButton(url)) in events)
      && (PartSend(w, j).Err? && Notice(w, j).Ok? ==> PartFailed(j + 1, PartSend(w, j).error) in events)
    decreases j - k
  {
    var events := PartsFrom(k, parts, title, url, reporting, w).0;
    var status := When(reporting, UploadingPart(k + 1, |parts|));
    if Handled(w, k) {
      var rest := PartsFrom(k + 1, parts, title, url, reporting, w).0;
      var x := if PartSend(w, k).Ok? then VideoSent(parts[k], PartCaption(title, k, |parts|), AudioButton(url))
        else PartFailed(k + 1, PartSend(w, k).error);
      assert events == status + [x] + rest;
      if k < j {
        PartsFromReaches(k + 1, j, parts, title, url, reporting, w);
      }
    } else {
      assert events == status;
    }
  }

  /** Everything the part loop sends or reports about a part comes from
      that part's own outcome. */
  ghost predicate FromPart(ev: Event, k: nat, parts: seq<string>, title: Option<string>, url: string, w: World) {
    match ev
    case VideoSent(path, caption, button) =>
      exists j :: k <= j < |parts| && path == parts[j] && caption == PartCaption(title, j, |parts|)
        && button == AudioButton(url) && PartSend(w, j).Ok?
    case PartFailed(part, error) =>
      k + 1 <= part <= |parts| && PartSend(w, part - 1) == Err(error) && Notice(w, part - 1).Ok?
    case Reported(status) => status.UploadingPart? && k + 1 <= status.part <= |parts| && status.total == |parts|
    case _ => false
  }

  lemma {:induction false} PartsFromSound(k: nat, parts: seq<string>, title: Option<string>, url: string, reporting: bool, w: World)
    requires k <= |parts|
    ensures forall ev :: ev in PartsFrom(k, parts, title, url, reporting, w).0 ==> FromPart(ev, k, parts, title, url, w)
    decreases |parts| - k
  {
    if k < |parts| {
      PartsFromSound(k + 1, parts, title, url, reporting, w);
      var events := PartsFrom(k, parts, title, url, reporting, w).0;
      var rest := PartsFrom(k + 1, parts, title, url, reporting, w).0;
      forall ev | ev in events ensures FromPart(ev, k, parts, title, url, w) {
        if ev in rest {
          assert FromPart(ev, k + 1, parts, title, url, w);
          if ev.VideoSent? {
            var j :| k + 1 <= j < |parts| && ev.path == parts[j] && ev.caption == PartCaption(title, j, |parts|)
              && ev.buttonData == AudioButton(url) && PartSend(w, j).Ok?;
          }
        }
      }
    }
  }

  /** Without the transcoder the whole file is the only part: it is sent
      under the bare title, and then removed. */
  lemma NoTranscoderSendsWhole(filePath: string, title: Option<string>, url: string, files: set<string>, w: World)
    requires !w.ffmpeg && PartSend(w, 0).Ok?
    ensures HandleUpload(filePath, title, url, false, false, files, w)
      == Delivery([VideoSent(filePath, title, "audio:" + url)], files - {filePath}, None)
  {
    assert PartsFrom(1, [filePath], title, url, false, w) == ([], None);
    assert PartCaption(title, 0, 1) == title;
  }

  /** A video upload whose part loop ran to its end removes the original
      and every part and reports the cleanup last; one that stopped early,
      whose part list could not be made, or whose captions could not be
      formed, removes nothing. */
  lemma VideoCleanup(filePath: string, title: Option<string>, url: string, reporting: bool, files: set<string>, w: World)
    ensures var d := HandleUpload(filePath, title, url, false, reporting, files, w);
      match PartList(filePath, w)
      case Err(_) => d.files == files
      case Ok(parts) =>
        && (Captionable(title, parts) && (forall j :: 0 <= j < |parts| ==> Handled(w, j)) ==>
             d.raised.None? && d.files == Cleanup(files, filePath, parts)
             && (reporting ==> d.events[|d.events| - 1] == Reported(CleaningUp)))
        && (!Captionable(title, parts) || !(forall j :: 0 <= j < |parts| ==> Handled(w, j)) ==> d.files == files)
  {
    if PartList(filePath, w).Ok? {
      PartsFromCompletes(0, PartList(filePath, w).value, title, url, reporting, w);
    }
  }

  /** A `None` title with several parts: appending the first part counter
      raises, so no part is sent or announced, nothing is removed, and the
      error is reported (or escapes when that report fails). A single part
      is sent with no caption. */
  lemma NullTitleUpload(filePath: string, url: string, reporting: bool, files: set<string>, w: World)
    requires PartList(filePath, w).Ok?
    ensures var d := HandleUpload(filePath, None, url, false, reporting, files, w);
      var parts := PartList(filePath, w).value;
      && (|parts| > 1 ==>
            && d.files == files
            && d.events[..|When(reporting, CheckingSize)|] == When(reporting, CheckingSize)
            && (w.errorNotice.Ok? ==> d.events == When(reporting, CheckingSize) + [UploadError(NoneConcat)] && d.raised.None?)
            && (w.errorNotice.Err? ==> d.events == When(reporting, CheckingSize) && d.raised == Some(w.errorNotice.error)))
      && (|parts| == 1 && PartSend(w, 0).Ok? ==> VideoSent(parts[0], None, AudioButton(url)) in d.events)
  {
    var parts := PartList(filePath, w).value;
    if |parts| == 1 && PartSend(w, 0).Ok? {
      PartsFromReaches(0, 0, parts, None, url, reporting, w);
    }
  }

  /** A video upload sends only files of its part list, and removes only
      the downloaded file and files of its part list. */
  lemma UploadUsesPartList(filePath: string, title: Option<string>, url: string, reporting: bool, files: set<string>, w: World)
    ensures var d := HandleUpload(filePath, title, url, false, reporting, files, w);
      && (forall ev :: ev in d.events && ev.VideoSent? ==> PartList(filePath, w).Ok? && ev.path in PartList(filePath, w).value)
      && (forall p :: p in files && p !in d.files ==> p == filePath || (PartList(filePath, w).Ok? && p in PartList(filePath, w).value))
  {
    if PartList(filePath, w).Ok? && Captionable(title, PartList(filePath, w).value) {
      var parts := PartList(filePath, w).value;
      var events := PartsFrom(0, parts, title, url, reporting, w).0;
      var d := HandleUpload(filePath, title, url, false, reporting, files, w);
      PartsFromSound(0, parts, title, url, reporting, w);
      forall ev | ev in d.events && ev.VideoSent?
        ensures ev.path in parts
      {
        assert ev in events;
        assert FromPart(ev, 0, parts, title, url, w);
      }
    }
  }

  /** The upload and the splitter describe the same files: when the split
      outcome is `split_video`'s result on this file under the same API
      URL, every video the upload sends, and every file it removes, is the
      downloaded file or one of its existing part files. */
  lemma SplitterFeedsUpload(filePath: string, title: Option<string>, url: string, reporting: bool, files: set<string>, w: World,
                            size: nat, stderr: string, exitOk: Uploader.Cut -> bool)
    requires w.ffmpeg && w.split == Uploader.SplitVideo(filePath, w.apiUrl, size, stderr, exitOk, files)
    ensures var d := HandleUpload(filePath, title, url, false, reporting, files, w);
      && (forall ev :: ev in d.events && ev.VideoSent? ==> Uploader.OwnPart(filePath, ev.path, files))
      && (forall p :: p in files && p !in d.files ==> Uploader.OwnPart(filePath, p, files))
  {
    Uploader.SplitVideoOwnParts(filePath, w.apiUrl, size, stderr, exitOk, files);
    UploadUsesPartList(filePath, title, url, reporting, files, w);
    if w.split.Ok? {
      assert forall p :: p in w.split.value ==> Uploader.OwnPart(filePath, p, files);
    }
  }

  /** The audio path makes one send, with no retry: the file is removed
      exactly when it went through, and a failure is reported. */
  lemma AudioPath(filePath: string, title: Option<string>, url: string, reporting: bool, files: set<string>, w: World)
    ensures var d := HandleUpload(filePath, title, url, true, reporting, files, w);
      && (w.audioSend.Ok? ==> d.files == files - {filePath} && d.events[|d.events| - 1] == AudioSent(filePath, title))
      && (w.audioSend.Err? ==>
            && d.files == files
            && (w.errorNotice.Ok? ==> d.events[|d.events| - 1] == UploadError(w.audioSend.error))
            && (w.errorNotice.Err? ==> d.raised == Some(w.errorNotice.error)))
  {
  }
}

=== FILE: downloader.dfy ===
/** The extractor front end: the restriction-error classifier, route
    failover for downloads and for the metadata helpers, and the
    post-processing of what the extractor returns. The extractor itself
    is an oracle `attempt(k)`: what happens when route `k` is tried. */
module Downloader {
  import opened Wrappers
  import opened Text
  import opened Config

  /** Error phrases that mark a failure as tied to the route (region, age,
      privacy or availability blocks), so another route may succeed. */
  const RestrictionPhrases: seq<string> := [
    "Video unavailable",
    "is not available in your country",
    "not made this video available in your country",
    "available in your country",
    "geo",
    "blocked",
    "not available",
    "Sign in to confirm your age",
    "This video is not available",
    "Private video",
    "removed by the uploader",
    "uploader has not made this video available",
    "country"
  ]

  /** Messages the progress hooks raise to abort a download in flight. */
  const CancelledByUser := "Download cancelled by user"
  const WorkerCancelled := "Download cancelled"
  const PlaylistCancelled := "Cancelled"

  function MatchesAny(phrases: seq<string>, lowered: string): bool
    decreases |phrases|
  {
    |phrases| > 0 && (Contains(lowered, phrases[0]) || MatchesAny(phrases[1..], lowered))
  }

  /** `is_geo_restricted_error`. */
  predicate IsRestrictionError(message: string) {
    MatchesAny(Lowered(RestrictionPhrases), Lower(message))
  }

  function Lowered(phrases: seq<string>): (r: seq<string>)
    ensures |r| == |phrases| && forall i :: 0 <= i < |phrases| ==> r[i] == Lower(phrases[i])
  {
    seq(|phrases|, i requires 0 <= i < |phrases| => Lower(phrases[i]))
  }

  lemma {:induction false} MatchesAnySpec(phrases: seq<string>, lowered: string)
    ensures MatchesAny(phrases, lowered) <==>
      exists i :: 0 <= i < |phrases| && IsSubstring(phrases[i], lowered)
    decreases |phrases|
  {
    if |phrases| > 0 {
      MatchesAnySpec(phrases[1..], lowered);
      ContainsIsSubstring(lowered, phrases[0]);
      if exists i :: 0 <= i < |phrases| && IsSubstring(phrases[i], lowered) {
        var i :| 0 <= i < |phrases| && IsSubstring(phrases[i], lowered);
        if i > 0 {
          assert phrases[1..][i - 1] == phrases[i];
        }
      }
      if MatchesAny(phrases[1..], lowered) {
        var i :| 0 <= i < |phrases[1..]| && IsSubstring(phrases[1..][i], lowered);
        assert phrases[i + 1] == phrases[1..][i];
      }
    }
  }

  /** A message is restriction-class exactly when one of the table's
      phrases occurs in it, ignoring case. */
  lemma RestrictionErrorSpec(message: string)
    ensures IsRestrictionError(message) <==>
      exists i :: 0 <= i < |RestrictionPhrases| && IsSubstring(Lower(RestrictionPhrases[i]), Lower(message))
  {
    var lowered := Lowered(RestrictionPhrases);
    MatchesAnySpec(lowered, Lower(message));
    if IsRestrictionError(message) {
      var i :| 0 <= i < |lowered| && IsSubstring(lowered[i], Lower(message));
      assert IsSubstring(Lower(RestrictionPhrases[i]), Lower(message));
    }
    if exists i :: 0 <= i < |RestrictionPhrases| && IsSubstring(Lower(RestrictionPhrases[i]), Lower(message)) {
      var i :| 0 <= i < |RestrictionPhrases| && IsSubstring(Lower(RestrictionPhrases[i]), Lower(message));
      assert IsSubstring(lowered[i], Lower(message));
    }
  }

  /** A table phrase written verbatim into a message makes it restriction-class. */
  lemma PhraseMakesRestriction(message: string, i: nat, at: int)
    requires i < |RestrictionPhrases| && OccursAt(message, RestrictionPhrases[i], at)
    ensures IsRestrictionError(message)
  {
    LowerKeepsOccurrence(RestrictionPhrases[i], message, at);
    RestrictionErrorSpec(message);
  }

  /** The restriction-class cases the unit tests fix. */
  lemma ClassifierPositives()
    ensures IsRestrictionError("This video is not available in your country")
    ensures IsRestrictionError("The uploader has not made this video available in your country")
    ensures IsRestrictionError("Sign in to confirm your age")
    ensures IsRestrictionError("Private video")
  {
    NotAvailableHere();
    UploaderNotAvailableHere();
    AgeGate();
    PrivateVideo();
  }

  lemma NotAvailableHere()
    ensures IsRestrictionError("This video is not available in your country")
  {
    EndsInCountry("This video is not available in your country");
  }

  lemma UploaderNotAvailableHere()
    ensures IsRestrictionError("The uploader has not made this video available in your country")
  {
    EndsInCountry("The uploader has not made this video available in your country");
  }

  lemma AgeGate()
    ensures IsRestrictionError("Sign in to confirm your age")
  {
    PhraseMakesRestriction("Sign in to confirm your age", 7, 0);
  }

  lemma PrivateVideo()
    ensures IsRestrictionError("Private video")
  {
    PhraseMakesRestriction("Private video", 9, 0);
  }

  /** A message ending in "country" is restriction-class. */
  lemma EndsInCountry(message: string)
    requires |message| >= 7 && message[|message| - 7..] == "country"
    ensures IsRestrictionError(message)
  {
    PhraseMakesRestriction(message, 12, |message| - 7);
  }

  /** The negative cases the unit tests fix. */
  lemma ClassifierNegatives(message: string)
    requires message == "Could not resolve host" || message == "HTTP Error 404: Not Found"
    ensures !IsRestrictionError(message)
  {
    NegativesLackKeyLetters();
    NoRestrictionWithoutKeyLetters(message);
  }

  /** None of the three cancellation messages is restriction-class, so a
      cancelled download is never retried on another route. */
  lemma CancellationNotRestriction(message: string)
    requires message == CancelledByUser || message == WorkerCancelled || message == PlaylistCancelled
    ensures !IsRestrictionError(message)
  {
    CancellationsLackKeyLetters();
    NoRestrictionWithoutKeyLetters(message);
  }

  /** The letters every table phrase needs one of, in either case. */
  predicate IsKeyLetter(c: char) {
    c == 'i' || c == 'I' || c == 'g' || c == 'G' || c == 'k' || c == 'K' || c == 'm' || c == 'M'
  }

  predicate AvoidsKeyLetters(message: string) {
    forall j :: 0 <= j < |message| ==> !IsKeyLetter(message[j])
  }

  /** No character of `message` is the letter in either case. */
  predicate AvoidsLetter(message: string, lower: char, upper: char) {
    forall j :: 0 <= j < |message| ==> message[j] != lower && message[j] != upper
  }

  predicate LacksKeyLetters(message: string) {
    AvoidsKeyLetters(message) && (AvoidsLetter(message, 'y', 'Y') || AvoidsLetter(message, 't', 'T'))
  }

  /** Lower-casing cannot produce a letter the message lacks in both cases. */
  lemma LowerAvoids(message: string, lower: char, upper: char)
    requires 'a' <= lower <= 'z' && upper as int == lower as int - 32
    requires AvoidsLetter(message, lower, upper)
    ensures lower !in Lower(message)
  {
  }

  lemma NegativesLackKeyLetters()
    ensures AvoidsKeyLetters("Could not resolve host") && AvoidsLetter("Could not resolve host", 'y', 'Y')
    ensures AvoidsKeyLetters("HTTP Error 404: Not Found") && AvoidsLetter("HTTP Error 404: Not Found", 'y', 'Y')
  {
  }

  lemma CancellationsLackKeyLetters()
    ensures AvoidsKeyLetters(CancelledByUser) && AvoidsLetter(CancelledByUser, 't', 'T')
    ensures AvoidsKeyLetters(WorkerCancelled) && AvoidsLetter(WorkerCancelled, 't', 'T')
    ensures AvoidsKeyLetters(PlaylistCancelled) && AvoidsLetter(PlaylistCancelled, 't', 'T')
  {
    UserCancelLacksKeyLetters();
    WorkerCancelLacksKeyLetters();
    PlaylistCancelLacksKeyLetters();
  }

  lemma UserCancelLacksKeyLetters()
    ensures AvoidsKeyLetters(CancelledByUser) && AvoidsLetter(CancelledByUser, 't', 'T')
  {
  }

  lemma WorkerCancelLacksKeyLetters()
    ensures AvoidsKeyLetters(WorkerCancelled) && AvoidsLetter(WorkerCancelled, 't', 'T')
  {
  }

  lemma PlaylistCancelLacksKeyLetters()
    ensures AvoidsKeyLetters(PlaylistCancelled) && AvoidsLetter(PlaylistCancelled, 't', 'T')
  {
  }

  /** A message lacking the letters i, g, k and m, and lacking y or t, is
      never restriction-class: every table phrase needs one of those letters. */
  lemma NoRestrictionWithoutKeyLetters(message: string)
    requires LacksKeyLetters(message)
    ensures !IsRestrictionError(message)
  {
    var hay := Lower(message);
    LowerAvoids(message, 'i', 'I');
    LowerAvoids(message, 'g', 'G');
    LowerAvoids(message, 'k', 'K');
    LowerAvoids(message, 'm', 'M');
    if AvoidsLetter(message, 'y', 'Y') {
      LowerAvoids(message, 'y', 'Y');
    } else {
      LowerAvoids(message, 't', 'T');
    }
    NoPhraseWithoutKeyLetters(hay);
    RestrictionErrorSpec(message);
  }

  /** A key letter that the lower-cased phrase `i` contains; the last
      phrase, "country", needs both y and t instead. */
  lemma KeyLetterOf(i: nat) returns (c: char)
    requires i < |RestrictionPhrases| && i != 12
    ensures c in Lower(RestrictionPhrases[i]) && (c == 'i' || c == 'g' || c == 'k' || c == 'm')
  {
    if i < 7 {
      c := KeyLetterOfFirst(i);
    } else {
      c := KeyLetterOfRest(i);
    }
  }

  lemma KeyLetterOfFirst(i: nat) returns (c: char)
    requires i < 7
    ensures c in Lower(RestrictionPhrases[i]) && (c == 'i' || c == 'g' || c == 'k' || c == 'm')
  {
    var p := Lower(RestrictionPhrases[i]);
    if i == 4 {
      assert p[0] == 'g';
      c := 'g';
    } else if i == 5 {
      assert p[4] == 'k';
      c := 'k';
    } else {
      var k := [1, 0, 11, 3, 0, 0, 7][i];
      assert p[k] == 'i';
      c := 'i';
    }
  }

  lemma KeyLetterOfRest(i: nat) returns (c: char)
    requires 7 <= i < 12
    ensures c in Lower(RestrictionPhrases[i]) && (c == 'i' || c == 'g' || c == 'k' || c == 'm')
  {
    var p := Lower(RestrictionPhrases[i]);
    if i == 10 {
      assert p[2] == 'm';
      c := 'm';
    } else {
      var k := [1, 2, 2, 0, 24][i - 7];
      assert p[k] == 'i';
      c := 'i';
    }
  }

  /** Every table phrase, lower-cased, needs one of the key letters. */
  lemma NoPhraseWithoutKeyLetters(hay: string)
    requires 'i' !in hay && 'g' !in hay && 'k' !in hay && 'm' !in hay
    requires 'y' !in hay || 't' !in hay
    ensures forall i :: 0 <= i < |RestrictionPhrases| ==> !IsSubstring(Lower(RestrictionPhrases[i]), hay)
  {
    forall i | 0 <= i < |RestrictionPhrases|
      ensures !IsSubstring(Lower(RestrictionPhrases[i]), hay)
    {
      var p := Lower(RestrictionPhrases[i]);
      if i == 12 {
        assert p[6] == 'y' && p[4] == 't';
        SubstringCarriesChars(p, hay, 'y');
        SubstringCarriesChars(p, hay, 't');
      } else {
        var c := KeyLetterOf(i);
        SubstringCarriesChars(p, hay, c);
      }
    }
  }

  /** A letter among g, k, u and v that the lower-cased phrase `i` contains. */
  lemma RareLetterOf(i: nat) returns (c: char)
    requires i < |RestrictionPhrases|
    ensures c in Lower(RestrictionPhrases[i]) && (c == 'g' || c == 'k' || c == 'u' || c == 'v')
  {
    if i < 7 {
      c := RareLetterOfFirst(i);
    } else {
      c := RareLetterOfRest(i);
    }
  }

  lemma RareLetterOfFirst(i: nat) returns (c: char)
    requires i < 7
    ensures c in Lower(RestrictionPhrases[i]) && (c == 'g' || c == 'k' || c == 'u' || c == 'v')
  {
    var p := Lower(RestrictionPhrases[i]);
    if i == 4 {
      assert p[0] == 'g';
      c := 'g';
    } else if i == 5 {
      assert p[4] == 'k';
      c := 'k';
    } else {
      var k := [0, 8, 14, 1, 0, 0, 5][i];
      assert p[k] == 'v';
      c := 'v';
    }
  }

  lemma RareLetterOfRest(i: nat) returns (c: char)
    requires 7 <= i < |RestrictionPhrases|
    ensures c in Lower(RestrictionPhrases[i]) && (c == 'g' || c == 'k' || c == 'u' || c == 'v')
  {
    var p := Lower(RestrictionPhrases[i]);
    if i == 7 {
      assert p[2] == 'g';
      c := 'g';
    } else if i == 11 {
      assert RestrictionPhrases[11][0] == 'u';
      assert p[0] == 'u';
      c := 'u';
    } else if i == 12 {
      assert p[2] == 'u';
      c := 'u';
    } else {
      var k := [5, 3, 4][i - 8];
      assert p[k] == 'v';
      c := 'v';
    }
  }

  /** Every table phrase, lower-cased, contains g, k, u or v. */
  lemma NoPhraseWithoutRareLetters(hay: string)
    requires 'g' !in hay && 'k' !in hay && 'u' !in hay && 'v' !in hay
    ensures forall i :: 0 <= i < |RestrictionPhrases| ==> !IsSubstring(Lower(RestrictionPhrases[i]), hay)
  {
    forall i | 0 <= i < |RestrictionPhrases|
      ensures !IsSubstring(Lower(RestrictionPhrases[i]), hay)
    {
      var c := RareLetterOf(i);
      SubstringCarriesChars(Lower(RestrictionPhrases[i]), hay, c);
    }
  }

  /** What Python raises when a `for` loop meets `None` instead of a list. */
  const NotIterable := "'NoneType' object is not iterable"

  /** That error is not restriction-class, so it stops the route loop. */
  lemma NotIterableNotRestriction()
    ensures !IsRestrictionError(NotIterable)
  {
    assert AvoidsLetter(NotIterable, 'g', 'G') && AvoidsLetter(NotIterable, 'k', 'K');
    assert AvoidsLetter(NotIterable, 'u', 'U') && AvoidsLetter(NotIterable, 'v', 'V');
    LowerAvoids(NotIterable, 'g', 'G');
    LowerAvoids(NotIterable, 'k', 'K');
    LowerAvoids(NotIterable, 'u', 'U');
    LowerAvoids(NotIterable, 'v', 'V');
    NoPhraseWithoutRareLetters(Lower(NotIterable));
    RestrictionErrorSpec(NotIterable);
  }

  // ---------------------------------------------------------------------
  // Route failover

  /** What one extractor call through one route did. */
  datatype Attempt<T> = Succeeded(value: T) | Failed(message: string)

  /** How a pass over the routes ended: a success at route `at`, an error
      at route `at` that stopped the pass, or every route failed with a
      restriction-class error, the last one being `lastError`. */
  datatype Scan<T> = Found(value: T, at: nat) | Stopped(message: string, at: nat) | Exhausted(lastError: string)

  /** The attempt failed in a way that lets the next route be tried. */
  predicate Skippable<T>(a: Attempt<T>) {
    a.Failed? && IsRestrictionError(a.message)
  }

  /** The loop shared by the download and metadata helpers, from route `k`
      of `n` on: return on success, move on after a restriction-class
      error, stop on any other error. */
  function FailoverFrom<T>(n: nat, k: nat, attempt: nat -> Attempt<T>, lastError: string): Scan<T>
    requires k <= n
    decreases n - k
  {
    if k == n then Exhausted(lastError)
    else match attempt(k)
      case Succeeded(v) => Found(v, k)
      case Failed(m) => if IsRestrictionError(m) then FailoverFrom(n, k + 1, attempt, m) else Stopped(m, k)
  }

  /** A pass over all routes; before any attempt the last error is Python's `None`. */
  function Failover<T>(routes: seq<Route>, attempt: nat -> Attempt<T>): Scan<T> {
    FailoverFrom(|routes|, 0, attempt, "None")
  }

  /** Every route before the one that ended the pass was skipped over. */
  ghost predicate SkippedBefore<T>(attempt: nat -> Attempt<T>, k: nat, at: nat) {
    forall j :: k <= j < at ==> Skippable(attempt(j))
  }

  lemma {:induction false} FailoverFromSpec<T>(n: nat, k: nat, attempt: nat -> Attempt<T>, lastError: string)
    requires k <= n
    ensures match FailoverFrom(n, k, attempt, lastError)
      case Found(v, at) => k <= at < n && attempt(at) == Succeeded(v) && SkippedBefore(attempt, k, at)
      case Stopped(m, at) =>
        k <= at < n && attempt(at) == Failed(m) && !IsRestrictionError(m) && SkippedBefore(attempt, k, at)
      case Exhausted(e) =>
        SkippedBefore(attempt, k, n) && e == (if k == n then lastError else attempt(n - 1).message)
    decreases n - k
  {
    if k < n && Skippable(attempt(k)) {
      var m := attempt(k).message;
      FailoverFromSpec(n, k + 1, attempt, m);
      assert FailoverFrom(n, k, attempt, lastError) == FailoverFrom(n, k + 1, attempt, m);
      forall at | k + 1 <= at && SkippedBefore(attempt, k + 1, at)
        ensures SkippedBefore(attempt, k, at)
      {
      }
    }
  }

  /** The pass ends at the first route that does not fail with a
      restriction-class error; only when there is none are all routes used up. */
  lemma FailoverSpec<T>(routes: seq<Route>, attempt: nat -> Attempt<T>)
    ensures match Failover(routes, attempt)
      case Found(v, at) => at < |routes| && attempt(at) == Succeeded(v) && SkippedBefore(attempt, 0, at)
      case Stopped(m, at) =>
        at < |routes| && attempt(at) == Failed(m) && !IsRestrictionError(m) && SkippedBefore(attempt, 0, at)
      case Exhausted(e) =>
        SkippedBefore(attempt, 0, |routes|) && e == (if |routes| == 0 then "None" else attempt(|routes| - 1).message)
  {
    FailoverFromSpec(|routes|, 0, attempt, "None");
  }

  /** The outcome an attempt gives when it ends the pass at route `k`. */
  function Outcome<T>(a: Attempt<T>, k: nat): Scan<T> {
    match a
    case Succeeded(v) => Found(v, k)
    case Failed(m) => Stopped(m, k)
  }

  /** The first route whose attempt is not skippable ends the pass. */
  lemma {:induction false} FailoverFromStopsAt<T>(n: nat, j: nat, k: nat, attempt: nat -> Attempt<T>, lastError: string)
    requires j <= k < n && SkippedBefore(attempt, j, k) && !Skippable(attempt(k))
    ensures FailoverFrom(n, j, attempt, lastError) == Outcome(attempt(k), k)
    decreases k - j
  {
    if j < k {
      FailoverFromStopsAt(n, j + 1, k, attempt, attempt(j).message);
    }
  }

  /** When every route is skippable the pass ends with the last route's error. */
  lemma {:induction false} FailoverFromExhausted<T>(n: nat, j: nat, attempt: nat -> Attempt<T>, lastError: string)
    requires j <= n && SkippedBefore(attempt, j, n)
    ensures FailoverFrom(n, j, attempt, lastError) == Exhausted(if j == n then lastError else attempt(n - 1).message)
    decreases n - j
  {
    if j < n {
      FailoverFromExhausted(n, j + 1, attempt, attempt(j).message);
    }
  }

  /** Routes after the one that ends the pass are never tried: two
      extractors that agree on every route the first one reaches give the
      same outcome. */
  lemma {:induction false} FailoverFromLocal<T>(n: nat, k: nat, a1: nat -> Attempt<T>, a2: nat -> Attempt<T>, lastError: string)
    requires k <= n
    requires forall j :: k <= j < n && SkippedBefore(a1, k, j) ==> a1(j) == a2(j)
    ensures FailoverFrom(n, k, a1, lastError) == FailoverFrom(n, k, a2, lastError)
    decreases n - k
  {
    if k < n {
      assert SkippedBefore(a1, k, k);
      if Skippable(a1(k)) {
        forall j | k + 1 <= j < n && SkippedBefore(a1, k + 1, j)
          ensures a1(j) == a2(j)
        {
          assert SkippedBefore(a1, k, j);
        }
        FailoverFromLocal(n, k + 1, a1, a2, a1(k).message);
      }
    }
  }

  // ---------------------------------------------------------------------
  // download_content

  /** What a successful extractor call reports: the file name it prepared,
      the `title` field (absent, `None` or a text) and the `id` field, when
      present. */
  datatype Fetched = Fetched(preparedName: string, title: Field<string>, id: Option<string>)

  /** `download_content`'s result: the media path, title, id and thumbnail.
      The title is `None` when the extractor reported it as `None`. */
  datatype Download = Download(path: string, title: Option<string>, id: string, thumbnail: Option<string>)

  const ConfigureProxyHint := "Geo-restricted video. Please configure PROXY or PROXY_LIST in .env"

  /** The first of `base + exts[k]` that exists. */
  function FirstExisting(base: string, exts: seq<string>, files: set<string>): Option<string>
    decreases |exts|
  {
    if |exts| == 0 then None
    else if base + exts[0] in files then Some(base + exts[0])
    else FirstExisting(base, exts[1..], files)
  }

  lemma {:induction false} FirstExistingSpec(base: string, exts: seq<string>, files: set<string>)
    ensures FirstExisting(base, exts, files).None? <==> forall k :: 0 <= k < |exts| ==> base + exts[k] !in files
    ensures FirstExisting(base, exts, files).Some? ==>
      exists k :: 0 <= k < |exts| && FirstExisting(base, exts, files).value == base + exts[k] && base + exts[k] in files
        && forall j :: 0 <= j < k ==> base + exts[j] !in files
    decreases |exts|
  {
    if |exts| > 0 && base + exts[0] !in files {
      FirstExistingSpec(base, exts[1..], files);
      assert forall k :: 1 <= k < |exts| ==> exts[1..][k - 1] == exts[k];
      if FirstExisting(base, exts, files).Some? {
        var k :| 0 <= k < |exts[1..]| && FirstExisting(base, exts, files).value == base + exts[1..][k] && base + exts[1..][k] in files
          && forall j :: 0 <= j < k ==> base + exts[1..][j] !in files;
        assert forall j :: 1 <= j < k + 1 ==> exts[j] == exts[1..][j - 1];
        assert exts[k + 1] == exts[1..][k];
      }
    }
  }

  const VideoExtensions: seq<string> := [".mp4", ".mkv", ".webm"]
  const ThumbnailExtensions: seq<string> := [".jpg", ".jpeg", ".webp"]

  /** Where the media file ended up: audio always gets the `.m4a` extension
      of the audio extractor; video keeps the prepared name when that file
      exists, else the first container the merger may have used. */
  function MediaPath(prepared: string, audioOnly: bool, files: set<string>): string {
    if audioOnly then SplitExt(prepared).0 + ".m4a"
    else if prepared in files then prepared
    else FirstExisting(SplitExt(prepared).0, VideoExtensions, files).GetOr(prepared)
  }

  /** The post-processing of one successful attempt. */
  function Finish(fetched: Fetched, audioOnly: bool, files: set<string>): Download {
    var path := MediaPath(fetched.preparedName, audioOnly, files);
    Download(path, Get(fetched.title, "video"), fetched.id.GetOr(""),
             FirstExisting(SplitExt(path).0, ThumbnailExtensions, files))
  }

  /** `path` is `base + exts[k]` for the first `k` whose file exists. */
  ghost predicate FirstIn(base: string, exts: seq<string>, files: set<string>, path: string) {
    exists k :: 0 <= k < |exts| && path == base + exts[k] && path in files
      && forall j :: 0 <= j < k ==> base + exts[j] !in files
  }

  /** The audio result's extension is `.m4a` and its stem is the prepared
      name's; a video result is the prepared file when it exists, otherwise
      the first of mp4, mkv, webm that exists, otherwise the prepared name;
      the thumbnail is the first of jpg, jpeg, webp next to the result that
      exists, and there is none exactly when none of them does. The title
      is the reported one, "video" when absent, and `None` when reported
      as `None`. */
  lemma FinishSpec(fetched: Fetched, audioOnly: bool, files: set<string>)
    ensures var d := Finish(fetched, audioOnly, files);
      var root := SplitExt(fetched.preparedName).0;
      && (d.title.None? <==> fetched.title.Null?)
      && (fetched.title.Missing? ==> d.title == Some("video"))
      && (fetched.title.Given? ==> d.title == Some(fetched.title.value))
      && (audioOnly && HasStem(root) ==> SplitExt(d.path) == (root, ".m4a"))
      && (!audioOnly && fetched.preparedName in files ==> d.path == fetched.preparedName)
      && (!audioOnly && fetched.preparedName !in files && (exists k :: 0 <= k < |VideoExtensions| && root + VideoExtensions[k] in files) ==>
            FirstIn(root, VideoExtensions, files, d.path))
      && (!audioOnly && fetched.preparedName !in files && (forall k :: 0 <= k < |VideoExtensions| ==> root + VideoExtensions[k] !in files) ==>
            d.path == fetched.preparedName)
      && (d.thumbnail.Some? ==> FirstIn(SplitExt(d.path).0, ThumbnailExtensions, files, d.thumbnail.value))
      && (d.thumbnail.None? <==> forall k :: 0 <= k < |ThumbnailExtensions| ==> SplitExt(d.path).0 + ThumbnailExtensions[k] !in files)
  {
    var root := SplitExt(fetched.preparedName).0;
    if audioOnly && HasStem(root) {
      SplitExtOfJoin(root, ".m4a");
    }
    if !audioOnly {
      FinishVideo(fetched, files);
    }
    FinishThumbnail(fetched, audioOnly, files);
  }

  lemma FinishVideo(fetched: Fetched, files: set<string>)
    ensures var d := Finish(fetched, false, files);
      var root := SplitExt(fetched.preparedName).0;
      && (fetched.preparedName in files ==> d.path == fetched.preparedName)
      && (fetched.preparedName !in files && (exists k :: 0 <= k < |VideoExtensions| && root + VideoExtensions[k] in files) ==>
            FirstIn(root, VideoExtensions, files, d.path))
      && (fetched.preparedName !in files && (forall k :: 0 <= k < |VideoExtensions| ==> root + VideoExtensions[k] !in files) ==>
            d.path == fetched.preparedName)
  {
    FirstExistingSpec(SplitExt(fetched.preparedName).0, VideoExtensions, files);
  }

  lemma FinishThumbnail(fetched: Fetched, audioOnly: bool, files: set<string>)
    ensures var d := Finish(fetched, audioOnly, files);
      && (d.thumbnail.Some? ==> FirstIn(SplitExt(d.path).0, ThumbnailExtensions, files, d.thumbnail.value))
      && (d.thumbnail.None? <==> forall k :: 0 <= k < |ThumbnailExtensions| ==> SplitExt(d.path).0 + ThumbnailExtensions[k] !in files)
  {
    var d := Finish(fetched, audioOnly, files);
    FirstExistingSpec(SplitExt(d.path).0, ThumbnailExtensions, files);
  }

  /** The error raised when every route failed with a restriction-class
      error: a hint to configure proxies when there were none, otherwise a
      summary with the route count and the last error. */
  function ExhaustionError(routes: seq<Route>, lastError: string): string {
    if |routes| == 1 && routes[0] == Direct then
      if IsRestrictionError(lastError) then ConfigureProxyHint else "Download failed: " + lastError
    else "All " + IntToString(|routes|) + " proxies failed. Last error: " + lastError
  }

  /** `download_content`: route failover around one extractor download. */
  function DownloadContent(routes: seq<Route>, attempt: nat -> Attempt<Fetched>, audioOnly: bool, files: set<string>): Result<Download> {
    match Failover(routes, attempt)
    case Found(fetched, _) => Ok(Finish(fetched, audioOnly, files))
    case Stopped(m, _) => Err(m)
    case Exhausted(e) => Err(ExhaustionError(routes, e))
  }

  /** The download's outcome is decided by the first route whose attempt
      is not a restriction-class failure: its success gives the result, any
      other error is raised unchanged. */
  lemma DownloadContentDecided(routes: seq<Route>, attempt: nat -> Attempt<Fetched>, audioOnly: bool, files: set<string>, k: nat)
    requires k < |routes| && SkippedBefore(attempt, 0, k) && !Skippable(attempt(k))
    ensures DownloadContent(routes, attempt, audioOnly, files) ==
      match attempt(k)
      case Succeeded(v) => Ok(Finish(v, audioOnly, files))
      case Failed(m) => Err(m)
  {
    FailoverFromStopsAt(|routes|, 0, k, attempt, "None");
  }

  /** A download only succeeds through a route that succeeded after every
      earlier route failed with a restriction-class error. */
  lemma DownloadContentOk(routes: seq<Route>, attempt: nat -> Attempt<Fetched>, audioOnly: bool, files: set<string>)
    ensures DownloadContent(routes, attempt, audioOnly, files).Ok? ==>
      exists k :: 0 <= k < |routes| && SkippedBefore(attempt, 0, k) && attempt(k).Succeeded?
        && DownloadContent(routes, attempt, audioOnly, files).value == Finish(attempt(k).value, audioOnly, files)
  {
    FailoverSpec(routes, attempt);
  }

  /** When every route fails with a restriction-class error, the
      direct-only configuration asks for proxies (its generic "Download
      failed" message is unreachable) and a proxy list reports its size and
      the last error. */
  lemma DownloadContentExhausted(routes: seq<Route>, attempt: nat -> Attempt<Fetched>, audioOnly: bool, files: set<string>)
    requires |routes| > 0 && SkippedBefore(attempt, 0, |routes|)
    ensures routes == [Direct] ==> DownloadContent(routes, attempt, audioOnly, files) == Err(ConfigureProxyHint)
    ensures routes != [Direct] ==>
      DownloadContent(routes, attempt, audioOnly, files) ==
      Err("All " + IntToString(|routes|) + " proxies failed. Last error: " + attempt(|routes| - 1).message)
  {
    FailoverFromExhausted(|routes|, 0, attempt, "None");
    assert Skippable(attempt(|routes| - 1));
  }

  /** The progress hook's check: the task has an identifier that the
      cancellation set holds, and then the hook aborts with `CancelledByUser`. */
  predicate ProgressHookAborts(taskId: Option<string>, cancelled: set<string>) {
    taskId.Some? && taskId.value != "" && cancelled != {} && taskId.value in cancelled
  }

  /** The routes' outcomes as the progress hook leaves them: when the hook
      aborts, a route whose download gets as far as reporting progress
      (`reaches`) fails with the hook's exception; other routes end as the
      extractor left them. */
  function Hooked(attempt: nat -> Attempt<Fetched>, reaches: nat -> bool, taskId: Option<string>, cancelled: set<string>): nat -> Attempt<Fetched> {
    (k: nat) => if ProgressHookAborts(taskId, cancelled) && reaches(k) then Failed(CancelledByUser) else attempt(k)
  }

  /** A download aborted by the progress hook is raised as is, not retried
      on the remaining routes; when the first route already reports
      progress, a cancelled task never downloads anything. */
  lemma CancelledDownloadNotRetried(routes: seq<Route>, attempt: nat -> Attempt<Fetched>, reaches: nat -> bool,
                                    taskId: Option<string>, cancelled: set<string>, audioOnly: bool, files: set<string>, k: nat)
    requires ProgressHookAborts(taskId, cancelled)
    requires k < |routes| && SkippedBefore(Hooked(attempt, reaches, taskId, cancelled), 0, k) && reaches(k)
    ensures DownloadContent(routes, Hooked(attempt, reaches, taskId, cancelled), audioOnly, files) == Err(CancelledByUser)
    ensures reaches(0) ==> DownloadContent(routes, Hooked(attempt, reaches, taskId, cancelled), audioOnly, files) == Err(CancelledByUser)
  {
    var hooked := Hooked(attempt, reaches, taskId, cancelled);
    CancellationNotRestriction(CancelledByUser);
    DownloadContentDecided(routes, hooked, audioOnly, files, k);
  }

  /** Without a cancelled task identifier the hook changes nothing. */
  lemma HookIdleWithoutCancel(attempt: nat -> Attempt<Fetched>, reaches: nat -> bool, taskId: Option<string>, cancelled: set<string>, k: nat)
    requires taskId.None? || taskId == Some("") || taskId.value !in cancelled
    ensures Hooked(attempt, reaches, taskId, cancelled)(k) == attempt(k)
  {
  }

  // ---------------------------------------------------------------------
  // Metadata helpers

  /** The metadata helpers that raise: the converted first success, the
      first error of another class unchanged, or `exhausted` once every
      route failed with a restriction-class error. */
  function Extract<T, R>(routes: seq<Route>, attempt: nat -> Attempt<T>, convert: T -> R, exhausted: string): Result<R> {
    match Failover(routes, attempt)
    case Found(v, _) => Ok(convert(v))
    case Stopped(m, _) => Err(m)
    case Exhausted(_) => Err(exhausted)
  }

  /** The metadata helpers that never raise: any failure gives `fallback`. */
  function ExtractOr<T, R>(routes: seq<Route>, attempt: nat -> Attempt<T>, convert: T -> R, fallback: R): R {
    match Failover(routes, attempt)
    case Found(v, _) => convert(v)
    case Stopped(_, _) => fallback
    case Exhausted(_) => fallback
  }

  lemma ExtractDecided<T, R>(routes: seq<Route>, attempt: nat -> Attempt<T>, convert: T -> R, exhausted: string, k: nat)
    requires k < |routes| && SkippedBefore(attempt, 0, k) && !Skippable(attempt(k))
    ensures Extract(routes, attempt, convert, exhausted) ==
      match attempt(k)
      case Succeeded(v) => Ok(convert(v))
      case Failed(m) => Err(m)
  {
    FailoverFromStopsAt(|routes|, 0, k, attempt, "None");
  }

  lemma ExtractExhausted<T, R>(routes: seq<Route>, attempt: nat -> Attempt<T>, convert: T -> R, exhausted: string)
    requires SkippedBefore(attempt, 0, |routes|)
    ensures Extract(routes, attempt, convert, exhausted) == Err(exhausted)
  {
    FailoverFromExhausted(|routes|, 0, attempt, "None");
  }

  lemma ExtractOrDecided<T, R>(routes: seq<Route>, attempt: nat -> Attempt<T>, convert: T -> R, fallback: R, k: nat)
    requires k < |routes| && SkippedBefore(attempt, 0, k) && !Skippable(attempt(k))
    ensures ExtractOr(routes, attempt, convert, fallback) ==
      match attempt(k)
      case Succeeded(v) => convert(v)
      case Failed(_) => fallback
  {
    FailoverFromStopsAt(|routes|, 0, k, attempt, "None");
  }

  lemma ExtractOrExhausted<T, R>(routes: seq<Route>, attempt: nat -> Attempt<T>, convert: T -> R, fallback: R)
    requires SkippedBefore(attempt, 0, |routes|)
    ensures ExtractOr(routes, attempt, convert, fallback) == fallback
  {
    FailoverFromExhausted(|routes|, 0, attempt, "None");
  }

  /** Python's `a or b` for an optional string: `a` when present and non-empty. */
  function OrElse(a: Option<string>, b: string): string {
    if a.Some? && a.value != "" then a.value else b
  }

  /** A size field of a format; 0 stands for absent. */
  datatype Format = Format(filesize: nat, filesizeApprox: nat)

  /** What a metadata probe of one video reports (sizes: 0 for absent). */
  datatype Probe = Probe(title: Option<string>, id: Option<string>, filesize: nat, filesizeApprox: nat,
                         formats: seq<Format>, isLive: bool)

  datatype VideoInfo = VideoInfo(title: string, id: string, filesizeMb: real, isLive: bool)

  function FormatSize(f: Format): nat {
    if f.filesize > 0 then f.filesize else f.filesizeApprox
  }

  /** The running maximum over the formats, starting from 0. */
  function LargestFormat(formats: seq<Format>): nat
    decreases |formats|
  {
    if |formats| == 0 then 0
    else
      var rest := LargestFormat(formats[..|formats| - 1]);
      var last := FormatSize(formats[|formats| - 1]);
      if last > rest then last else rest
  }

  lemma {:induction false} LargestFormatSpec(formats: seq<Format>)
    ensures forall f :: f in formats ==> FormatSize(f) <= LargestFormat(formats)
    ensures LargestFormat(formats) == 0 || exists f :: f in formats && FormatSize(f) == LargestFormat(formats)
    decreases |formats|
  {
    if |formats| > 0 {
      var init := formats[..|formats| - 1];
      LargestFormatSpec(init);
      assert formats == init + [formats[|formats| - 1]];
    }
  }

  /** The byte estimate: the video's own size, else its approximate size,
      else the largest size among its formats. */
  function EstimatedBytes(p: Probe): nat {
    var own := if p.filesize > 0 then p.filesize else p.filesizeApprox;
    if own == 0 then LargestFormat(p.formats) else own
  }

  function VideoInfoOf(p: Probe): VideoInfo {
    VideoInfo(p.title.GetOr("Unknown"), p.id.GetOr(""), EstimatedBytes(p) as real / 1048576.0, p.isLive)
  }

  /** `get_video_info`. */
  function GetVideoInfo(routes: seq<Route>, attempt: nat -> Attempt<Probe>): Result<VideoInfo> {
    Extract(routes, attempt, VideoInfoOf, "Could not extract video info")
  }

  /** The reported size in MiB is the byte estimate scaled, and the
      estimate is the first non-zero of the video's size, its approximate
      size and the largest format size, which bounds every format's size. */
  lemma VideoSizeSpec(p: Probe)
    ensures VideoInfoOf(p).filesizeMb * 1048576.0 == EstimatedBytes(p) as real
    ensures p.filesize > 0 ==> EstimatedBytes(p) == p.filesize
    ensures p.filesize == 0 && p.filesizeApprox > 0 ==> EstimatedBytes(p) == p.filesizeApprox
    ensures p.filesize == 0 && p.filesizeApprox == 0 ==>
      (forall f :: f in p.formats ==> FormatSize(f) <= EstimatedBytes(p))
      && (EstimatedBytes(p) == 0 || exists f :: f in p.formats && FormatSize(f) == EstimatedBytes(p))
  {
    LargestFormatSpec(p.formats);
  }

  /** A key of the extractor's info dictionary: absent, present with the
      value `None`, or present with a value; `info.get(key, default)` gives
      the default only in the first case. */
  datatype Field<T> = Missing | Null | Given(value: T)

  /** `info.get(key, default)` on a text key: the default for an absent
      key, and Python's `None` (here `None`) for a key holding `None`. */
  function Get(f: Field<string>, default: string): (r: Option<string>)
    ensures r.None? <==> f.Null?
    ensures f.Missing? ==> r == Some(default)
  {
    match f
    case Missing => Some(default)
    case Null => None
    case Given(v) => Some(v)
  }

  /** What a flat listing of a channel or playlist reports. The keys that
      `get(key, default)` reads keep `None` apart from an absent key; the
      ones read only through `or` chains are `None` when absent, `None` or
      empty alike. */
  datatype Entry = Entry(id: Field<string>, url: Option<string>, title: Field<string>)
  datatype Listing = Listing(channelId: Option<string>, id: Field<string>, channel: Option<string>,
                             uploader: Option<string>, title: Option<string>, webpageUrl: Option<string>,
                             entries: Field<seq<Option<Entry>>>)

  /** The channel identifier is `None` when the extractor reported it so;
      the store rejects such a row. */
  datatype ChannelInfo = ChannelInfo(channelId: Option<string>, name: string, url: string)

  function ChannelInfoOf(l: Listing, channelUrl: string): ChannelInfo {
    ChannelInfo(if OrElse(l.channelId, "") != "" then l.channelId else Get(l.id, ""),
                OrElse(l.channel, OrElse(l.uploader, l.title.GetOr("Unknown"))),
                l.webpageUrl.GetOr(channelUrl))
  }

  /** `get_channel_info`. */
  function GetChannelInfo(routes: seq<Route>, attempt: nat -> Attempt<Listing>, channelUrl: string): Result<ChannelInfo> {
    Extract(routes, attempt, (l: Listing) => ChannelInfoOf(l, channelUrl), "Could not extract channel info")
  }

  /** The channel name is blank only when the channel and uploader fields
      are blank and the title is present but empty; the identifier is blank
      only when `channel_id` is blank and `id` is absent or empty, and it is
      `None` exactly when `channel_id` is blank and `id` holds `None`; the
      URL falls back to the one asked for. */
  lemma ChannelInfoSpec(l: Listing, channelUrl: string)
    ensures ChannelInfoOf(l, channelUrl).name == "" <==>
      OrElse(l.channel, "") == "" && OrElse(l.uploader, "") == "" && l.title == Some("")
    ensures ChannelInfoOf(l, channelUrl).channelId == Some("") <==>
      OrElse(l.channelId, "") == "" && (l.id.Missing? || l.id == Given(""))
    ensures ChannelInfoOf(l, channelUrl).channelId.None? <==> OrElse(l.channelId, "") == "" && l.id.Null?
    ensures OrElse(l.channelId, "") != "" ==> ChannelInfoOf(l, channelUrl).channelId == l.channelId
    ensures l.webpageUrl.None? ==> ChannelInfoOf(l, channelUrl).url == channelUrl
  {
  }

  /** The entries that are present, in order (Python's `if entry`). */
  function Present<T>(xs: seq<Option<T>>): seq<T>
    decreases |xs|
  {
    if |xs| == 0 then []
    else Present(xs[..|xs| - 1]) + (if xs[|xs| - 1].Some? then [xs[|xs| - 1].value] else [])
  }

  /** Filtering keeps every present item, in order, and nothing else. */
  lemma {:induction false} PresentSpec<T>(xs: seq<Option<T>>)
    ensures |Present(xs)| <= |xs|
    ensures |Present(xs)| == |xs| <==> forall k :: 0 <= k < |xs| ==> xs[k].Some?
    ensures forall x :: x in Present(xs) <==> Some(x) in xs
    decreases |xs|
  {
    if |xs| > 0 {
      var init := xs[..|xs| - 1];
      PresentSpec(init);
      assert xs == init + [xs[|xs| - 1]];
      if xs[|xs| - 1].None? {
        assert !(forall k :: 0 <= k < |xs| ==> xs[k].Some?);
      }
    }
  }

  lemma {:induction false} PresentAppend<T>(xs: seq<Option<T>>, ys: seq<Option<T>>)
    ensures Present(xs + ys) == Present(xs) + Present(ys)
    decreases |ys|
  {
    if |ys| == 0 {
      assert xs + ys == xs;
    } else {
      var init := ys[..|ys| - 1];
      assert (xs + ys)[..|xs + ys| - 1] == xs + init;
      assert (xs + ys)[|xs + ys| - 1] == ys[|ys| - 1];
      PresentAppend(xs, init);
    }
  }

  /** The watch page of a video id read by `entry.get('id')`: an absent id
      and a `None` one both render as `None`. */
  function WatchUrl(id: Field<string>): string {
    "https://www.youtube.com/watch?v=" + (match id case Given(v) => v case _ => "None")
  }

  /** A listed video; its id and title are `None` when the listing held
      `None` under the key. */
  datatype Video = Video(id: Option<string>, title: Option<string>, url: string)

  function VideoOf(e: Entry): Video {
    Video(Get(e.id, ""), Get(e.title, "Unknown"), OrElse(e.url, WatchUrl(e.id)))
  }

  function Videos(entries: seq<Option<Entry>>): seq<Video> {
    var present := Present(entries);
    seq(|present|, i requires 0 <= i < |present| => VideoOf(present[i]))
  }

  /** A listed video and a playlist entry read `None` exactly where the
      listing holds `None`, and the defaults where the key is absent; both
      get the same non-empty URL. */
  lemma EntryFieldsSpec(e: Entry)
    ensures VideoOf(e).id.None? <==> e.id.Null?
    ensures VideoOf(e).title.None? <==> e.title.Null?
    ensures PlaylistEntryOf(e).title.None? <==> e.title.Null?
    ensures e.id.Missing? ==> VideoOf(e).id == Some("")
    ensures e.title.Missing? ==> VideoOf(e).title == Some("Unknown") && PlaylistEntryOf(e).title == Some("Unknown")
    ensures VideoOf(e).url == PlaylistEntryOf(e).url && VideoOf(e).url != ""
  {
  }

  /** `info.get('entries', [])` walked by a `for` loop: a missing key is
      the empty list, a `None` value raises. */
  function EntriesOf(l: Listing): Result<seq<Option<Entry>>> {
    match l.entries
    case Missing => Ok([])
    case Null => Err(NotIterable)
    case Given(es) => Ok(es)
  }

  /** Route `k`'s call followed by a conversion inside the same `try`: an
      exception the conversion raises is handled like the extractor's own. */
  function Within<T, R>(attempt: nat -> Attempt<T>, convert: T -> Result<R>): nat -> Attempt<R> {
    (k: nat) =>
      match attempt(k)
      case Failed(m) => Failed(m)
      case Succeeded(v) =>
        match convert(v)
        case Ok(r) => Succeeded(r)
        case Err(m) => Failed(m)
  }

  /** The videos of one listing, built inside the route's `try`. */
  function ListVideos(l: Listing): Result<seq<Video>> {
    match EntriesOf(l)
    case Ok(es) => Ok(Videos(es))
    case Err(e) => Err(e)
  }

  /** `get_latest_videos`: any failure gives the empty list. */
  function GetLatestVideos(routes: seq<Route>, attempt: nat -> Attempt<Listing>): seq<Video> {
    ExtractOr(routes, Within(attempt, ListVideos), (v: seq<Video>) => v, [])
  }

  /** Every listed video has a URL: its own when non-empty, else its watch
      page; the listing never grows. */
  lemma VideosSpec(entries: seq<Option<Entry>>)
    ensures |Videos(entries)| <= |entries|
    ensures forall v :: v in Videos(entries) ==> v.url != ""
    ensures forall e :: Some(e) in entries && OrElse(e.url, "") == "" ==> VideoOf(e) in Videos(entries) && VideoOf(e).url == WatchUrl(e.id)
  {
    PresentSpec(entries);
    var present := Present(entries);
    forall e | Some(e) in entries
      ensures VideoOf(e) in Videos(entries)
    {
      var k :| 0 <= k < |present| && present[k] == e;
      assert Videos(entries)[k] == VideoOf(e);
    }
  }

  /** A playlist entry; its title is `None` when the listing held `None`
      under the key. */
  datatype PlaylistEntry = PlaylistEntry(url: string, title: Option<string>)
  datatype PlaylistInfo = PlaylistInfo(title: string, id: Option<string>, count: nat, uploader: string, entries: seq<PlaylistEntry>)

  function PlaylistEntryOf(e: Entry): PlaylistEntry {
    PlaylistEntry(OrElse(e.url, WatchUrl(e.id)), Get(e.title, "Unknown"))
  }

  /** The playlist summary of a listing whose entry list is `raw`. */
  function PlaylistInfoOf(l: Listing, raw: seq<Option<Entry>>): PlaylistInfo {
    var present := Present(raw);
    PlaylistInfo(l.title.GetOr("Playlist"), Get(l.id, ""), |raw|, l.uploader.GetOr("Unknown"),
                 seq(|present|, i requires 0 <= i < |present| => PlaylistEntryOf(present[i])))
  }

  /** The summary built inside the route's `try`: a `None` entry list
      raises while the entries are collected. */
  function ListPlaylist(l: Listing): Result<PlaylistInfo> {
    match EntriesOf(l)
    case Ok(raw) => Ok(PlaylistInfoOf(l, raw))
    case Err(e) => Err(e)
  }

  /** `get_playlist_info`. */
  function GetPlaylistInfo(routes: seq<Route>, attempt: nat -> Attempt<Listing>): Result<PlaylistInfo> {
    Extract(routes, Within(attempt, ListPlaylist), (p: PlaylistInfo) => p, "Could not extract playlist info")
  }

  /** The count is of the raw entries, missing ones included, so it bounds
      the entries list and equals its length exactly when none is missing;
      every entry has a non-empty URL. A missing entry list is empty, and a
      `None` one raises. */
  lemma PlaylistInfoSpec(l: Listing)
    ensures ListPlaylist(l).Err? <==> l.entries.Null?
    ensures l.entries.Missing? ==> ListPlaylist(l).value.count == 0 && ListPlaylist(l).value.entries == []
    ensures l.entries.Given? ==>
      var info := ListPlaylist(l).value;
      && |info.entries| <= info.count == |l.entries.value|
      && (|info.entries| == info.count <==> forall k :: 0 <= k < |l.entries.value| ==> l.entries.value[k].Some?)
      && forall e :: e in info.entries ==> e.url != ""
  {
    if l.entries.Given? {
      PresentSpec(l.entries.value);
    }
  }

  /** When the route that decides the pass lists the key `entries` with
      the value `None`, the playlist lookup raises Python's `TypeError`
      and the latest-videos lookup gives up with the empty list. */
  lemma NullEntriesRaise(routes: seq<Route>, attempt: nat -> Attempt<Listing>, k: nat)
    requires k < |routes| && SkippedBefore(attempt, 0, k)
    requires attempt(k).Succeeded? && attempt(k).value.entries.Null?
    ensures GetPlaylistInfo(routes, attempt) == Err(NotIterable)
    ensures GetLatestVideos(routes, attempt) == []
  {
    NotIterableNotRestriction();
    assert SkippedBefore(Within(attempt, ListPlaylist), 0, k);
    assert SkippedBefore(Within(attempt, ListVideos), 0, k);
    ExtractDecided(routes, Within(attempt, ListPlaylist), (p: PlaylistInfo) => p, "Could not extract playlist info", k);
    ExtractOrDecided(routes, Within(attempt, ListVideos), (v: seq<Video>) => v, [], k);
  }

  /** `'entries' in info and bool(info.get('entries'))`. */
  function HasEntries(l: Listing): bool {
    l.entries.Given? && |l.entries.value| > 0
  }

  /** `is_playlist`: any failure counts as "not a playlist". */
  function IsPlaylist(routes: seq<Route>, attempt: nat -> Attempt<Listing>): bool {
    ExtractOr(routes, attempt, HasEntries, false)
  }

  /** A URL is a playlist only if some route listed a non-empty entry list
      after every earlier route failed with a restriction-class error. */
  lemma IsPlaylistSpec(routes: seq<Route>, attempt: nat -> Attempt<Listing>)
    ensures IsPlaylist(routes, attempt) <==>
      exists k :: 0 <= k < |routes| && SkippedBefore(attempt, 0, k) && attempt(k).Succeeded? && HasEntries(attempt(k).value)
  {
    FailoverSpec(routes, attempt);
    if exists k :: 0 <= k < |routes| && SkippedBefore(attempt, 0, k) && attempt(k).Succeeded? && HasEntries(attempt(k).value) {
      var k :| 0 <= k < |routes| && SkippedBefore(attempt, 0, k) && attempt(k).Succeeded? && HasEntries(attempt(k).value);
      ExtractOrDecided(routes, attempt, HasEntries, false, k);
    }
  }

  /** The first route whose call succeeds with a value `accept` takes; all
      errors and rejected values move on to the next route. */
  function FirstAccepted<T>(n: nat, k: nat, attempt: nat -> Attempt<T>, accept: T -> bool): Option<T>
    requires k <= n
    decreases n - k
  {
    if k == n then None
    else if attempt(k).Succeeded? && accept(attempt(k).value) then Some(attempt(k).value)
    else FirstAccepted(n, k + 1, attempt, accept)
  }

  predicate Accepted<T>(a: Attempt<T>, accept: T -> bool) {
    a.Succeeded? && accept(a.value)
  }

  lemma {:induction false} FirstAcceptedSpec<T>(n: nat, k: nat, attempt: nat -> Attempt<T>, accept: T -> bool)
    requires k <= n
    ensures FirstAccepted(n, k, attempt, accept).None? <==> forall j :: k <= j < n ==> !Accepted(attempt(j), accept)
    ensures FirstAccepted(n, k, attempt, accept).Some? ==>
      exists j :: k <= j < n && attempt(j) == Succeeded(FirstAccepted(n, k, attempt, accept).value) && Accepted(attempt(j), accept)
        && forall i :: k <= i < j ==> !Accepted(attempt(i), accept)
    decreases n - k
  {
    if k < n && !Accepted(attempt(k), accept) {
      FirstAcceptedSpec(n, k + 1, attempt, accept);
    }
  }

  datatype LiveProbe = LiveProbe(isLive: bool, id: Option<string>, title: Option<string>,
                                 webpageUrl: Option<string>, uploader: Option<string>)
  datatype LiveInfo = LiveInfo(id: string, title: string, url: string, uploader: string)

  function LiveUrl(channelId: string): string {
    "https://www.youtube.com/channel/" + channelId + "/live"
  }

  /** `get_live_info`: the first route reporting a live stream. */
  function GetLiveInfo(channelId: string, routes: seq<Route>, attempt: nat -> Attempt<LiveProbe>): Option<LiveInfo> {
    match FirstAccepted(|routes|, 0, attempt, (p: LiveProbe) => p.isLive)
    case Some(p) => Some(LiveInfo(p.id.GetOr(""), p.title.GetOr("Live Stream"), p.webpageUrl.GetOr(LiveUrl(channelId)),
                                  p.uploader.GetOr("Unknown")))
    case None => None
  }

  /** A channel is reported live exactly when some route reports it live,
      whatever errors the other routes raise. */
  lemma LiveInfoSpec(channelId: string, routes: seq<Route>, attempt: nat -> Attempt<LiveProbe>)
    ensures GetLiveInfo(channelId, routes, attempt).Some? <==>
      exists j :: 0 <= j < |routes| && attempt(j).Succeeded? && attempt(j).value.isLive
  {
    FirstAcceptedSpec(|routes|, 0, attempt, (p: LiveProbe) => p.isLive);
  }

  /** `get_stream_url`: the `url` field of the first route that answers. */
  function GetStreamUrl(routes: seq<Route>, attempt: nat -> Attempt<Option<string>>): Option<string> {
    match FirstAccepted(|routes|, 0, attempt, (u: Option<string>) => true)
    case Some(u) => u
    case None => None
  }

  /** Errors are skipped; the first answer decides, even when it has no URL. */
  lemma StreamUrlSpec(routes: seq<Route>, attempt: nat -> Attempt<Option<string>>, k: nat)
    requires k < |routes| && attempt(k).Succeeded? && forall j :: 0 <= j < k ==> attempt(j).Failed?
    ensures GetStreamUrl(routes, attempt) == attempt(k).value
  {
    FirstAcceptedSpec(|routes|, 0, attempt, (u: Option<string>) => true);
  }
}

=== FILE: handlers.dfy ===
/** The bot's command and button handlers, reduced to what they decide:
    which job goes to which queue, which subscription or setting changes,
    and what the buttons they draw carry. Telegram replies are left out;
    the allow-list verdict, listings and transfer outcomes are inputs. */
module Handlers {
  import opened Wrappers
  import opened Text
  import Config
  import Downloader
  import Store
  import Worker
  import Progress
  import Delivery

  // ---------------------------------------------------------------------
  // Download commands

  const DefaultHeight: int := 1080

  /** The heights on offer, in the order the settings keyboard shows them. */
  const Resolutions: seq<int> := [1080, 720, 480, 360, 240]

  /** The quality commands and the heights they request. */
  const QualityMap: map<string, int> := map["/1080" := 1080, "/720" := 720, "/480" := 480, "/360" := 360, "/240" := 240]

  /** The height a quality command asks for: its lower-cased first token
      looked up in the map, 1080 for anything else. */
  function CommandHeight(command: string): (h: int)
    ensures h in QualityMap.Values
    ensures Lower(command) in QualityMap ==> h == QualityMap[Lower(command)]
    ensures Lower(command) !in QualityMap ==> h == DefaultHeight
  {
    assert QualityMap["/1080"] == 1080;
    var key := Lower(command);
    if key in QualityMap then QualityMap[key] else DefaultHeight
  }

  /** Lower-casing leaves a string without capitals as it is. */
  lemma LowerKeeps(s: string)
    requires forall i :: 0 <= i < |s| ==> !('A' <= s[i] <= 'Z')
    ensures Lower(s) == s
  {
  }

  /** Each quality command requests the height it is named after, whatever
      its letter case. */
  lemma CommandsNameTheirHeight()
    ensures CommandHeight("/1080") == 1080 && CommandHeight("/720") == 720 && CommandHeight("/480") == 480
    ensures CommandHeight("/360") == 360 && CommandHeight("/240") == 240
    ensures forall c :: Lower(c) in QualityMap ==> CommandHeight(c) != DefaultHeight || Lower(c) == "/1080"
  {
    LowerKeeps("/1080");
    LowerKeeps("/720");
    LowerKeeps("/480");
    LowerKeeps("/360");
    LowerKeeps("/240");
  }

  /** The handlers' URL test. */
  predicate IsUrl(s: string) {
    StartsWith(s, "http://") || StartsWith(s, "https://")
  }

  /** What a download command does. */
  datatype Reply =
    | Unauthorized
    | Usage
    | InvalidUrl
    | Queued(job: Worker.Job)
    | PlaylistQueued(job: Worker.Job)
    | InfoFailed(error: string)
    | SendFailed(error: string)

  /** `/music <url>`: an audio job, marked by the audio sentinel. */
  function MusicCommand(chatId: int, messageId: int, args: seq<string>, allowed: bool): (r: Reply)
    ensures !allowed ==> r == Unauthorized
    ensures r.Queued? <==> allowed && |args| > 0 && IsUrl(args[0])
    ensures r.Queued? ==> r.job == Worker.Job(chatId, args[0], Some(messageId), Some(Worker.AudioSentinel))
  {
    if !allowed then Unauthorized
    else if |args| == 0 then Usage
    else if !IsUrl(args[0]) then InvalidUrl
    else Queued(Worker.Job(chatId, args[0], Some(messageId), Some(-1)))
  }

  /** `/1080`, `/720`, ... `<url>`: a video job at the command's height. */
  function QualityCommand(chatId: int, messageId: int, command: string, args: seq<string>, allowed: bool): (r: Reply)
    ensures !allowed ==> r == Unauthorized
    ensures r.Queued? <==> allowed && |args| > 0 && IsUrl(args[0])
    ensures r.Queued? ==> r.job == Worker.Job(chatId, args[0], Some(messageId), Some(CommandHeight(command)))
  {
    var height := CommandHeight(command);
    if !allowed then Unauthorized
    else if |args| == 0 then Usage
    else if !IsUrl(args[0]) then InvalidUrl
    else Queued(Worker.Job(chatId, args[0], Some(messageId), Some(height)))
  }

  /** The worker takes a `/music` job as audio at the default height and a
      quality command's job as video at the command's height. */
  lemma CommandJobsDecode(chatId: int, messageId: int, command: string, args: seq<string>, allowed: bool)
    ensures var r := MusicCommand(chatId, messageId, args, allowed);
      r.Queued? ==> Worker.Decode(r.job).audioOnly && Worker.Decode(r.job).height == Worker.DefaultHeight
    ensures var r := QualityCommand(chatId, messageId, command, args, allowed);
      r.Queued? ==> !Worker.Decode(r.job).audioOnly && Worker.Decode(r.job).height == CommandHeight(command)
  {
  }

  /** The optional numeric second argument; one that does not parse as an
      integer leaves the default. */
  function OptionalInt(args: seq<string>, default: int): (v: int)
    ensures |args| > 1 && ParseInt(args[1]).Some? ==> v == ParseInt(args[1]).value
    ensures |args| <= 1 || ParseInt(args[1]).None? ==> v == default
  {
    if |args| > 1 && ParseInt(args[1]).Some? then ParseInt(args[1]).value else default
  }

  /** A height written as an integer is read back as that height. */
  lemma OptionalIntRoundTrip(url: string, h: int, default: int)
    ensures OptionalInt([url, IntToString(h)], default) == h
  {
    ParseIntRoundTrip(h);
  }

  /** `/playlist <url> [height]`: inside one `try`, the "Getting playlist
      info" message is sent (`announce`), the listing is fetched (`info`)
      and the message is edited to show it (`found`). The first of these
      that fails is reported and nothing is queued; only when all three
      went through is the playlist job queued. */
  function PlaylistCommand(chatId: int, messageId: int, args: seq<string>, allowed: bool,
                           announce: Result<()>, info: Result<Downloader.PlaylistInfo>, found: Result<()>): (r: Reply)
    ensures !allowed ==> r == Unauthorized
    ensures r.PlaylistQueued? <==> allowed && |args| > 0 && IsUrl(args[0]) && announce.Ok? && info.Ok? && found.Ok?
    ensures r.PlaylistQueued? ==> r.job == Worker.Job(chatId, args[0], Some(messageId), Some(OptionalInt(args, DefaultHeight)))
    ensures r.InfoFailed? <==> allowed && |args| > 0 && IsUrl(args[0]) && (announce.Err? || info.Err? || found.Err?)
    ensures r.InfoFailed? ==>
      && (announce.Err? ==> r.error == announce.error)
      && (announce.Ok? && info.Err? ==> r.error == info.error)
      && (announce.Ok? && info.Ok? ==> r.error == found.error)
    ensures !r.Queued? && !r.SendFailed?
  {
    if !allowed then Unauthorized
    else if |args| == 0 then Usage
    else
      var height := OptionalInt(args, DefaultHeight);
      if !IsUrl(args[0]) then InvalidUrl
      else if announce.Err? then InfoFailed(announce.error)
      else
        match info
        case Err(e) => InfoFailed(e)
        case Ok(_) =>
          if found.Err? then InfoFailed(found.error)
          else PlaylistQueued(Worker.Job(chatId, args[0], Some(messageId), Some(height)))
  }

  /** A bare URL: playlists go to the playlist queue at the stored
      resolution; single videos go to the download queue, as audio in audio
      mode and at the stored resolution otherwise. The "Analyzing URL"
      message (`analyzing`) is sent first, and for a playlist the message is
      edited (`detected`) before the put; neither is guarded, so when one
      fails the exception leaves the handler and nothing is queued. */
  function MessageHandler(chatId: int, messageId: int, text: string, allowed: bool, analyzing: Result<()>,
                          isPlaylist: bool, detected: Result<()>, settings: Store.Settings): (r: Reply)
    ensures !allowed ==> r == Unauthorized
    ensures r.Queued? || r.PlaylistQueued? <==> allowed && IsUrl(text) && analyzing.Ok? && (isPlaylist ==> detected.Ok?)
    ensures r.PlaylistQueued? <==> allowed && IsUrl(text) && analyzing.Ok? && isPlaylist && detected.Ok?
    ensures r.SendFailed? <==> allowed && IsUrl(text) && (analyzing.Err? || (isPlaylist && detected.Err?))
    ensures r.SendFailed? ==> r.error == (if analyzing.Err? then analyzing.error else detected.error)
    ensures r.Queued? || r.PlaylistQueued? ==> r.job.chatId == chatId && r.job.url == text && r.job.messageId == Some(messageId)
    ensures r.PlaylistQueued? ==> r.job.maxHeight == Some(settings.resolution)
    ensures r.Queued? && settings.mode != "audio" ==> r.job.maxHeight == Some(settings.resolution)
  {
    if !allowed then Unauthorized
    else if !IsUrl(text) then InvalidUrl
    else if analyzing.Err? then SendFailed(analyzing.error)
    else if isPlaylist then
      if detected.Err? then SendFailed(detected.error)
      else PlaylistQueued(Worker.Job(chatId, text, Some(messageId), Some(settings.resolution)))
    else
      var height := if settings.mode == "audio" then Worker.AudioSentinel else settings.resolution;
      Queued(Worker.Job(chatId, text, Some(messageId), Some(height)))
  }

  /** A single video sent in audio mode reaches the worker as audio; in any
      other mode it is audio exactly when the stored resolution is the
      audio sentinel itself. */
  lemma MessageModeDecodes(chatId: int, messageId: int, text: string, isPlaylist: bool, detected: Result<()>,
                           settings: Store.Settings)
    requires IsUrl(text) && !isPlaylist
    ensures var r := MessageHandler(chatId, messageId, text, true, Ok(()), isPlaylist, detected, settings);
      && r.Queued?
      && (Worker.Decode(r.job).audioOnly <==> settings.mode == "audio" || settings.resolution == Worker.AudioSentinel)
      && (!Worker.Decode(r.job).audioOnly ==> Worker.Decode(r.job).height == settings.resolution)
  {
  }

  // ---------------------------------------------------------------------
  // Subscription commands

  datatype SubReply =
    | Silent
    | SubUnauthorized
    | SubUsage
    | Subscribed(channelName: string, quality: int)
    | SaveFailed
    | Unsubscribed(channelName: string)
    | NotFound
    | SubError(error: string)
    | SubRaised(error: string)

  /** `/subscribe <channel> [quality]`: send "Getting channel info"
      (`status`, outside the `try`, so its failure leaves the handler before
      anything is stored), resolve the channel, then add or replace the
      chat's subscription to it. A channel reported without an identifier
      cannot be stored, and the chat is told the save failed. */
  function Subscribe(chatId: int, args: seq<string>, allowed: bool, status: Result<()>, channel: Result<Downloader.ChannelInfo>,
                     st: Store.Store, healthy: bool): (r: (Store.Store, SubReply))
    ensures r.1.Subscribed? <==> allowed && |args| > 0 && status.Ok? && channel.Ok? && channel.value.channelId.Some? && healthy
    ensures r.1 == SaveFailed <==> allowed && |args| > 0 && status.Ok? && channel.Ok? && (channel.value.channelId.None? || !healthy)
    ensures r.1.SubRaised? <==> allowed && |args| > 0 && status.Err?
    ensures r.1.SubRaised? ==> r.1.error == status.error
    ensures r.1.Subscribed? ==> r.1 == Subscribed(channel.value.name, OptionalInt(args, DefaultHeight))
    ensures !r.1.Subscribed? ==> r.0 == st
  {
    if !allowed then (st, SubUnauthorized)
    else if |args| == 0 then (st, SubUsage)
    else if status.Err? then (st, SubRaised(status.error))
    else
      var quality := OptionalInt(args, DefaultHeight);
      match channel
      case Err(e) => (st, SubError(e))
      case Ok(info) =>
        var added := Store.AddSubscription(st, info.channelId, info.name, chatId, quality, healthy);
        if added.1 then (added.0, Subscribed(info.name, quality)) else (st, SaveFailed)
  }

  /** `/unsubscribe <channel>`: an unauthorised chat gets no answer; a
      channel reported without an identifier matches no subscription. */
  function Unsubscribe(chatId: int, args: seq<string>, allowed: bool, channel: Result<Downloader.ChannelInfo>,
                       st: Store.Store, healthy: bool): (r: (Store.Store, SubReply))
    ensures !allowed ==> r == (st, Silent)
    ensures r.1.Unsubscribed? <==> (allowed && |args| > 0 && channel.Ok? && healthy && channel.value.channelId.Some?
      && exists s :: s in st.subs && Store.HasKey(s, channel.value.channelId.value, chatId))
    ensures forall s :: s in r.0.subs <==> s in st.subs && !(r.1.Unsubscribed? && Store.HasKey(s, channel.value.channelId.value, chatId))
  {
    if !allowed then (st, Silent)
    else if |args| == 0 then (st, SubUsage)
    else
      match channel
      case Err(e) => (st, SubError(e))
      case Ok(info) =>
        var removed := Store.RemoveSubscription(st, info.channelId, chatId, healthy);
        (removed.0, if removed.1 then Unsubscribed(info.name) else NotFound)
  }

  /** After `/subscribe` the chat holds exactly one subscription to the
      channel, at the quality it asked for; a channel without an
      identifier leaves the store as it was. */
  lemma SubscribeStores(chatId: int, args: seq<string>, channel: Result<Downloader.ChannelInfo>, st: Store.Store)
    requires Store.UniqueKeys(st.subs)
    requires |args| > 0 && channel.Ok?
    ensures var after := Subscribe(chatId, args, true, Ok(()), channel, st, true).0;
      && Store.UniqueKeys(after.subs)
      && (channel.value.channelId.Some? ==>
            forall s :: s in after.subs && Store.HasKey(s, channel.value.channelId.value, chatId) <==>
              s == Store.Sub(channel.value.channelId.value, channel.value.name, chatId, OptionalInt(args, DefaultHeight)))
      && (channel.value.channelId.None? ==> after == st)
  {
    if channel.value.channelId.Some? {
      Store.AddSubscriptionSpec(st, channel.value.channelId.value, channel.value.name, chatId, OptionalInt(args, DefaultHeight));
    }
  }

  // ---------------------------------------------------------------------
  // Settings

  datatype Button = Button(caption: string, data: string)

  const Check := "✅ "

  function ResData(r: int): string {
    "set_res:" + IntToString(r)
  }

  function ResButton(r: int, current: int): Button {
    Button((if r == current then Check else "") + IntToString(r) + "p", ResData(r))
  }

  function ModeButton(mode: string): Button {
    Button("Mode: " + (if mode == "video" then "\U{1F3AC} Video" else "\U{1F3B5} Audio (M4A)"), "set_mode")
  }

  /** The settings keyboard: the mode button alone on the first row, then
      in video mode the resolutions in rows of three and two. */
  function Keyboard(s: Store.Settings): (kb: seq<seq<Button>>)
    ensures |kb| >= 1 && kb[0] == [ModeButton(s.mode)]
    ensures s.mode == "video" <==> |kb| == 3
    ensures s.mode != "video" ==> |kb| == 1
  {
    var buttons := if s.mode == "video" then seq(|Resolutions|, i requires 0 <= i < |Resolutions| => ResButton(Resolutions[i], s.resolution)) else [];
    [[ModeButton(s.mode)]] + (if buttons != [] then [buttons[..3], buttons[3..]] else [])
  }

  lemma {:induction false} IntTextIsNotChecked(r: int)
    ensures !StartsWith(IntToString(r) + "p", Check)
  {
    var n: nat := if r < 0 then -r else r;
    NatToStringDigits(n);
    var t := IntToString(r) + "p";
    if r < 0 {
      assert t[0] == '-';
    } else {
      assert t[0] == NatToString(n)[0];
    }
  }

  /** In video mode the resolution rows list every offered resolution in
      order, and exactly the one equal to the stored resolution is ticked. */
  lemma KeyboardResolutions(s: Store.Settings)
    requires s.mode == "video"
    ensures var kb := Keyboard(s);
      && |kb[1]| == 3 && |kb[2]| == 2
      && (forall i :: 0 <= i < |Resolutions| ==> (kb[1] + kb[2])[i].data == ResData(Resolutions[i]))
      && (forall i :: 0 <= i < |Resolutions| ==> (StartsWith((kb[1] + kb[2])[i].caption, Check) <==> Resolutions[i] == s.resolution))
  {
    var kb := Keyboard(s);
    var buttons := seq(|Resolutions|, i requires 0 <= i < |Resolutions| => ResButton(Resolutions[i], s.resolution));
    assert kb[1] + kb[2] == buttons;
    forall i | 0 <= i < |Resolutions|
      ensures StartsWith(buttons[i].caption, Check) <==> Resolutions[i] == s.resolution
    {
      IntTextIsNotChecked(Resolutions[i]);
      if Resolutions[i] == s.resolution {
        assert buttons[i].caption == Check + (IntToString(Resolutions[i]) + "p");
      }
    }
  }

  /** What a settings button press did. */
  datatype SettingsAnswer = ModeChanged(mode: string) | ResolutionSet(resolution: int) | NotSettings | Raised(error: string)

  const ValueError := "invalid literal for int()"

  /** The field after the first ':' of a `set_res:` press. */
  function ResField(data: string): (f: string)
    requires StartsWith(data, "set_res:")
    ensures data == "set_res:" + data[8..] ==> f == Split(data[8..], ':')[0]
  {
    assert data == "set_res" + [':'] + data[8..];
    SplitAfterSep("set_res", data[8..], ':');
    Split(data, ':')[1]
  }

  /** The mode a toggle switches to. */
  function Toggled(mode: string): string {
    if mode == "video" then "audio" else "video"
  }

  /** `set_mode` flips video and audio; `set_res:<n>` stores `n`; any other
      press is ignored. A field that is not an integer raises. */
  function SettingsCallback(chatId: int, data: string, st: Store.Store, healthy: bool): (r: (Store.Store, SettingsAnswer))
    ensures r.1.NotSettings? <==> data != "set_mode" && !StartsWith(data, "set_res:")
    ensures r.1.ModeChanged? ==> r.1.mode == Toggled(Store.UserSettings(st, chatId, healthy).mode) && r.1.mode != Store.UserSettings(st, chatId, healthy).mode
    ensures !r.1.ModeChanged? && !r.1.ResolutionSet? ==> r.0 == st
    ensures r.0.subs == st.subs && r.0.processed == st.processed
  {
    if data == "set_mode" then
      var next := Toggled(Store.UserSettings(st, chatId, healthy).mode);
      (Store.UpdateUserSettings(st, chatId, Some(next), None, healthy).0, ModeChanged(next))
    else if StartsWith(data, "set_res:") then
      match ParseInt(ResField(data))
      case None => (st, Raised(ValueError))
      case Some(v) => (Store.UpdateUserSettings(st, chatId, None, Some(v), healthy).0, ResolutionSet(v))
    else (st, NotSettings)
  }

  /** Pressing a resolution button stores that resolution and keeps the
      mode. */
  lemma ResolutionButtonRoundTrip(chatId: int, r: int, st: Store.Store)
    requires r != 0
    ensures var after := SettingsCallback(chatId, ResData(r), st, true);
      && after.1 == ResolutionSet(r)
      && Store.UserSettings(after.0, chatId, true).resolution == r
      && Store.UserSettings(after.0, chatId, true).mode == Store.UserSettings(st, chatId, true).mode
  {
    var data := ResData(r);
    var n: nat := if r < 0 then -r else r;
    NatToStringDigits(n);
    SplitWithoutSep(IntToString(r), ':');
    assert data[8..] == IntToString(r);
    ParseIntRoundTrip(r);
    Store.UpdateThenRead(st, chatId, None, Some(r));
  }

  /** Two mode presses restore a mode that was video or audio, and leave
      the resolution alone. */
  lemma ToggleTwice(chatId: int, st: Store.Store)
    requires Store.UserSettings(st, chatId, true).mode in {"video", "audio"}
    ensures var once := SettingsCallback(chatId, "set_mode", st, true).0;
      var twice := SettingsCallback(chatId, "set_mode", once, true).0;
      && Store.UserSettings(twice, chatId, true) == Store.UserSettings(st, chatId, true)
  {
    var before := Store.UserSettings(st, chatId, true);
    var once := SettingsCallback(chatId, "set_mode", st, true).0;
    Store.UpdateThenRead(st, chatId, Some(Toggled(before.mode)), None);
    Store.UpdateThenRead(once, chatId, Some(Toggled(Toggled(before.mode))), None);
  }

  // ---------------------------------------------------------------------
  // Buttons on sent messages

  /** A cancel press marks the task named after the prefix. */
  function CancelCallback(data: string, cancelled: set<string>): (r: set<string>)
    ensures !StartsWith(data, "cancel:") ==> r == cancelled
    ensures StartsWith(data, "cancel:") ==> exists id :: data == Progress.CancelData(id) && r == cancelled + {id}
  {
    if StartsWith(data, "cancel:") then
      assert data == Progress.CancelData(data[7..]);
      cancelled + {data[7..]}
    else cancelled
  }

  /** The cancel button of a progress message marks exactly its task, and
      a job whose task is marked before it starts is never downloaded. */
  lemma CancelRoundTrip(taskId: string, cancelled: set<string>, job: Worker.Job, w: Worker.JobWorld, asWritten: bool)
    ensures CancelCallback(Progress.CancelData(taskId), cancelled) == cancelled + {taskId}
    ensures Worker.TaskId(job.chatId, job.messageId, Worker.Truncate(w.now)) == taskId ==>
      !Worker.ProcessJob(job, w.(cancelled := CancelCallback(Progress.CancelData(taskId), cancelled)), asWritten).fetched
  {
    assert Progress.CancelData(taskId)[7..] == taskId;
    Worker.PreflightSpec(job, w.(cancelled := CancelCallback(Progress.CancelData(taskId), cancelled)), asWritten);
  }

  /** Everything an audio button press meets. */
  datatype AudioWorld = AudioWorld(
    routes: seq<Config.Route>,
    attempt: nat -> Downloader.Attempt<Downloader.Fetched>,
    files: set<string>,
    upload: Result<()>,
    finish: Result<()>,
    notice: Result<()>)

  /** What the press did: `retry` is the data of the retry button put back
      on the message, absent when even the failure notice raised. */
  datatype AudioOutcome =
    | AudioUnauthorized
    | NotAudio
    | AudioDone(url: string, files: set<string>)
    | AudioFailed(url: string, error: string, retry: Option<string>, files: set<string>)

  function AudioFail(url: string, error: string, files: set<string>, w: AudioWorld): AudioOutcome {
    AudioFailed(url, error, if w.notice.Ok? then Some(Delivery.AudioButton(url)) else None, files)
  }

  /** The audio button: download the prefixed URL as audio, send it,
      delete it; any failure puts back a retry button. `asWritten` selects
      the call site's unpacking as written or corrected. */
  function AudioCallback(data: string, allowed: bool, w: AudioWorld, asWritten: bool): (r: AudioOutcome)
    ensures !allowed ==> r == AudioUnauthorized
    ensures r.NotAudio? <==> allowed && !StartsWith(data, "audio:")
    ensures r.AudioDone? || r.AudioFailed? ==> r.url == data[6..] && r.files <= w.files
    ensures r.AudioFailed? && r.retry.Some? ==> r.retry.value == data
  {
    if !allowed then AudioUnauthorized
    else if !StartsWith(data, "audio:") then NotAudio
    else
      var url := data[6..];
      assert Delivery.AudioButton(url) == data;
      match Worker.Unpack(asWritten, Downloader.DownloadContent(w.routes, w.attempt, true, w.files))
      case Err(e) => AudioFail(url, e, w.files, w)
      case Ok(dl) =>
        match w.upload
        case Err(e) => AudioFail(url, e, w.files, w)
        case Ok(_) =>
          var left := w.files - {dl.path};
          match w.finish
          case Err(e) => AudioFail(url, e, left, w)
          case Ok(_) => AudioDone(url, left)
  }

  /** The audio button under a sent video downloads that video's URL. */
  lemma AudioButtonRoundTrip(url: string, w: AudioWorld, asWritten: bool)
    ensures var r := AudioCallback(Delivery.AudioButton(url), true, w, asWritten);
      (r.AudioDone? || r.AudioFailed?) && r.url == url
  {
    assert Delivery.AudioButton(url)[6..] == url;
  }

  /** As written, the press unpacks three values from a four-value result,
      so no audio is ever sent. */
  lemma AudioAsWrittenNeverDelivers(data: string, w: AudioWorld)
    requires StartsWith(data, "audio:")
    ensures !AudioCallback(data, true, w, true).AudioDone?
  {
  }

  /** Corrected, a download and upload that go through delete the file and
      report success. */
  lemma AudioCorrectedDelivers(data: string, w: AudioWorld)
    requires StartsWith(data, "audio:")
    ensures var d := Downloader.DownloadContent(w.routes, w.attempt, true, w.files);
      d.Ok? && w.upload.Ok? && w.finish.Ok? ==>
        AudioCallback(data, true, w, false) == AudioDone(data[6..], w.files - {d.value.path})
  {
  }
}

=== FILE: playlist.dfy ===
/** `process_playlist_queue`: one playlist job, handled strictly one entry
    at a time (download, upload, delete) to bound the disk space in use.
    The listing, the cancellation set as seen before each entry and every
    per-entry external outcome are inputs. */
module Playlist {
  import opened Wrappers
  import opened Text
  import Config
  import Downloader
  import Delivery
  import Worker

  /** The playlist reporter's status lines (their wording is left out). */
  datatype Status =
    | GettingInfo
    | InfoFailed(error: string)
    | NoVideos
    | Found(title: string, total: nat)
    | PlaylistCancelled
    | ProcessingEntry(index: nat, total: nat, title: string)
    | Uploading(stage: Delivery.Status)
    | Complete(total: nat)
    | Failed(error: string)

  datatype Event =
    | StatusUpdate(status: Status)
    | Chat(message: Delivery.Event)
    | Skipped(title: string, error: string)

  /** What one entry did, and the exception that escapes it when even the
      unretried "skipped" message fails. */
  datatype EntryRun = EntryRun(events: seq<Event>, escaped: Option<string>)

  /** How the entry loop ended. */
  datatype Stop = Finished | CancelledBefore(index: nat) | Escaped(error: string)

  datatype LoopRun = LoopRun(events: seq<Event>, started: seq<nat>, stop: Stop)

  /** Everything outside the worker that one playlist job meets. Entry
      outcomes are indexed by the entry's position. */
  datatype PlaylistWorld = PlaylistWorld(
    now: real,
    info: Result<Downloader.PlaylistInfo>,
    cancelled: nat -> set<string>,
    routes: seq<Config.Route>,
    attempt: nat -> (nat -> Downloader.Attempt<Downloader.Fetched>),
    files: nat -> set<string>,
    upload: nat -> Delivery.World,
    skipNotice: nat -> Result<()>)

  datatype Outcome = Outcome(taskId: string, events: seq<Event>, started: seq<nat>)

  /** The playlist task identifier `pl_chat_seconds`. */
  function PlaylistTaskId(chatId: int, seconds: int): string {
    "pl_" + IntToString(chatId) + "_" + IntToString(seconds)
  }

  /** Python `s[:n]`. */
  function Prefix(s: string, n: nat): (p: string)
    ensures |p| <= n && StartsWith(s, p)
    ensures |s| <= n ==> p == s
  {
    if |s| <= n then s else s[..n]
  }

  /** The upload title: the playlist's title above the entry's. It is an
      f-string, so a `None` entry title prints as "None" and the result is
      never `None`. */
  function UploadTitle(playlistTitle: string, title: Option<string>): Option<string> {
    Some("\U{1F4CB} " + playlistTitle + "\n\n" + title.GetOr("None"))
  }

  function LiftEvent(ev: Delivery.Event): Event {
    if ev.Reported? then StatusUpdate(Uploading(ev.status)) else Chat(ev)
  }

  /** The handler around one entry: post the unretried "skipped" message;
      if that fails the exception leaves the loop. */
  function Skip(events: seq<Event>, title: string, error: string, notice: Result<()>): EntryRun {
    match notice
    case Ok(_) => EntryRun(events + [Skipped(Prefix(title, 30), error)], None)
    case Err(e) => EntryRun(events, Some(e))
  }

  /** Slicing `None`, as `v_title[:30]` does for an entry listed with a
      `None` title. */
  const NotSubscriptable := "'NoneType' object is not subscriptable"

  /** Entry `i` (0-based) of `total`: announce it, download it as video at
      the job's height, upload it under the combined title, and turn any
      failure into a "skipped" message. The announcement is formatted
      before the entry's `try`, so a `None` title raises out of the loop. */
  function RunEntry(i: nat, total: nat, entry: Downloader.PlaylistEntry, playlistTitle: string, w: PlaylistWorld, asWritten: bool): EntryRun {
    match entry.title
    case None => EntryRun([], Some(NotSubscriptable))
    case Some(title) =>
      var status := [StatusUpdate(ProcessingEntry(i + 1, total, Prefix(title, 30)))];
      match Worker.Unpack(asWritten, Downloader.DownloadContent(w.routes, w.attempt(i), false, w.files(i)))
      case Err(e) => Skip(status, title, e, w.skipNotice(i))
      case Ok(dl) =>
        var up := Delivery.HandleUpload(dl.path, UploadTitle(playlistTitle, dl.title), entry.url, false, true, w.files(i), w.upload(i));
        match up.raised
        case None => EntryRun(status + Config.MapSeq(LiftEvent, up.events), None)
        case Some(e) => Skip(status + Config.MapSeq(LiftEvent, up.events), title, e, w.skipNotice(i))
  }

  /** An entry listed with a `None` title raises while its announcement is
      formatted: nothing is announced, downloaded or reported as skipped,
      and the exception leaves the entry loop. */
  lemma EntryNullTitleEscapes(i: nat, total: nat, entry: Downloader.PlaylistEntry, playlistTitle: string, w: PlaylistWorld, asWritten: bool)
    requires entry.title.None?
    ensures RunEntry(i, total, entry, playlistTitle, w, asWritten) == EntryRun([], Some(NotSubscriptable))
  {
  }

  /** As written, an entry whose download succeeds is still skipped, with
      the unpacking error: nothing is uploaded, and the entry's exception
      escapes only when the "skipped" message itself fails. */
  lemma EntryAsWrittenSkips(i: nat, total: nat, entry: Downloader.PlaylistEntry, playlistTitle: string, w: PlaylistWorld)
    requires entry.title.Some?
    requires Downloader.DownloadContent(w.routes, w.attempt(i), false, w.files(i)).Ok?
    ensures var r := RunEntry(i, total, entry, playlistTitle, w, true);
      var announce := StatusUpdate(ProcessingEntry(i + 1, total, Prefix(entry.title.value, 30)));
      && (w.skipNotice(i).Ok? ==> r == EntryRun([announce, Skipped(Prefix(entry.title.value, 30), Worker.UnpackError)], None))
      && (w.skipNotice(i).Err? ==> r == EntryRun([announce], Some(w.skipNotice(i).error)))
  {
  }

  /** Corrected, a downloaded entry goes to the uploader under the
      playlist's and the entry's titles; the uploader's events follow the
      announcement, and an upload that does not raise ends the entry
      without a "skipped" message. */
  lemma EntryCorrectedUploads(i: nat, total: nat, entry: Downloader.PlaylistEntry, playlistTitle: string, w: PlaylistWorld)
    requires entry.title.Some?
    requires Downloader.DownloadContent(w.routes, w.attempt(i), false, w.files(i)).Ok?
    ensures var dl := Downloader.DownloadContent(w.routes, w.attempt(i), false, w.files(i)).value;
      var up := Delivery.HandleUpload(dl.path, UploadTitle(playlistTitle, dl.title), entry.url, false, true, w.files(i), w.upload(i));
      var r := RunEntry(i, total, entry, playlistTitle, w, false);
      var announce := StatusUpdate(ProcessingEntry(i + 1, total, Prefix(entry.title.value, 30)));
      && |r.events| >= 1 + |up.events|
      && r.events[..1 + |up.events|] == [announce] + Config.MapSeq(LiftEvent, up.events)
      && (up.raised.None? ==> r == EntryRun([announce] + Config.MapSeq(LiftEvent, up.events), None))
      && (up.raised.Some? && w.skipNotice(i).Ok? ==>
            r == EntryRun([announce] + Config.MapSeq(LiftEvent, up.events) + [Skipped(Prefix(entry.title.value, 30), up.raised.value)], None))
  {
    var dl := Downloader.DownloadContent(w.routes, w.attempt(i), false, w.files(i)).value;
    var up := Delivery.HandleUpload(dl.path, UploadTitle(playlistTitle, dl.title), entry.url, false, true, w.files(i), w.upload(i));
    var announce := StatusUpdate(ProcessingEntry(i + 1, total, Prefix(entry.title.value, 30)));
    var head := [announce] + Config.MapSeq(LiftEvent, up.events);
    assert (head + [Skipped(Prefix(entry.title.value, 30), up.raised.GetOr(""))])[..|head|] == head;
  }

  /** A failed download is reported as skipped and does not stop the
      playlist; only a "skipped" message that itself fails lets the
      exception escape. */
  lemma EntryFailureSkipped(i: nat, total: nat, entry: Downloader.PlaylistEntry, playlistTitle: string, w: PlaylistWorld, asWritten: bool)
    requires entry.title.Some?
    requires Downloader.DownloadContent(w.routes, w.attempt(i), false, w.files(i)).Err?
    ensures var r := RunEntry(i, total, entry, playlistTitle, w, asWritten);
      var e := Downloader.DownloadContent(w.routes, w.attempt(i), false, w.files(i)).error;
      var announce := StatusUpdate(ProcessingEntry(i + 1, total, Prefix(entry.title.value, 30)));
      && (w.skipNotice(i).Ok? ==> r == EntryRun([announce, Skipped(Prefix(entry.title.value, 30), e)], None))
      && (w.skipNotice(i).Err? ==> r == EntryRun([announce], Some(w.skipNotice(i).error)))
  {
  }

  /** The entry loop from entry `k` of `n` on: before each entry, a
      cancelled task ends the loop; each entry runs in turn; an escaping
      exception ends it too. */
  function Loop(k: nat, n: nat, cancelledAt: nat -> bool, run: nat -> EntryRun): (r: LoopRun)
    requires k <= n
    decreases n - k
  {
    if k == n then LoopRun([], [], Finished)
    else if cancelledAt(k) then LoopRun([StatusUpdate(PlaylistCancelled)], [], CancelledBefore(k))
    else
      var e := run(k);
      if e.escaped.Some? then LoopRun(e.events, [k], Escaped(e.escaped.value))
      else
        var rest := Loop(k + 1, n, cancelledAt, run);
        LoopRun(e.events + rest.events, [k] + rest.started, rest.stop)
  }

  /** Entries are started strictly in order, from `k` up to where the loop
      stopped: the end, the first entry found cancelled (checked only
      before an entry), or the first entry whose exception escaped. Every
      earlier entry was neither cancelled nor escaping, so a failed entry
      never stops the ones after it. */
  lemma {:induction false} LoopSpec(k: nat, n: nat, cancelledAt: nat -> bool, run: nat -> EntryRun)
    requires k <= n
    ensures var r := Loop(k, n, cancelledAt, run);
      && (forall i :: 0 <= i < |r.started| ==> r.started[i] == k + i)
      && k + |r.started| <= n
      && (forall j :: k <= j < k + |r.started| ==> !cancelledAt(j))
      && (match r.stop
          case Finished => k + |r.started| == n && forall j :: k <= j < n ==> run(j).escaped.None?
          case CancelledBefore(c) =>
            c == k + |r.started| && c < n && cancelledAt(c)
            && (forall j :: k <= j < c ==> run(j).escaped.None?)
          case Escaped(e) =>
            |r.started| > 0 && run(k + |r.started| - 1).escaped == Some(e)
            && forall j :: k <= j < k + |r.started| - 1 ==> run(j).escaped.None?)
    decreases n - k
  {
    if k < n && !cancelledAt(k) && run(k).escaped.None? {
      LoopSpec(k + 1, n, cancelledAt, run);
      var rest := Loop(k + 1, n, cancelledAt, run);
      assert forall i :: 1 <= i < |rest.started| + 1 ==> ([k] + rest.started)[i] == rest.started[i - 1];
    }
  }

  /** The cancellation check before entry `k`. */
  function CancelledAt(id: string, w: PlaylistWorld): nat -> bool {
    (k: nat) => id in w.cancelled(k)
  }

  /** The entries of a listing, each run in turn. */
  function Runner(info: Downloader.PlaylistInfo, w: PlaylistWorld, asWritten: bool): nat -> EntryRun {
    var total := |info.entries|;
    (k: nat) => if k < total then RunEntry(k, total, info.entries[k], info.title, w, asWritten) else EntryRun([], None)
  }

  /** One playlist job; `asWritten` selects the download call site's
      unpacking as written or corrected. */
  function ProcessPlaylist(chatId: int, url: string, w: PlaylistWorld, asWritten: bool): (o: Outcome)
    ensures o.taskId == PlaylistTaskId(chatId, Worker.Truncate(w.now))
    ensures |o.events| >= 2 && o.events[0] == StatusUpdate(GettingInfo)
  {
    var id := PlaylistTaskId(chatId, Worker.Truncate(w.now));
    var start := [StatusUpdate(GettingInfo)];
    match w.info
    case Err(e) => Outcome(id, start + [StatusUpdate(InfoFailed(e))], [])
    case Ok(info) =>
      var total := |info.entries|;
      if total == 0 then Outcome(id, start + [StatusUpdate(NoVideos)], [])
      else
        var loop := Loop(0, total, CancelledAt(id, w), Runner(info, w, asWritten));
        var found := [StatusUpdate(Found(info.title, total))];
        var tail := match loop.stop
          case Escaped(e) => [StatusUpdate(Failed(e))]
          case _ => [StatusUpdate(Complete(total))];
        Outcome(id, start + found + loop.events + tail, loop.started)
  }

  /** A listing that failed or has no entries ends the job after its
      report, before any download. */
  lemma NothingToDo(chatId: int, url: string, w: PlaylistWorld, asWritten: bool)
    requires w.info.Err? || |w.info.value.entries| == 0
    ensures var o := ProcessPlaylist(chatId, url, w, asWritten);
      && o.started == []
      && (w.info.Err? ==> o.events == [StatusUpdate(GettingInfo), StatusUpdate(InfoFailed(w.info.error))])
      && (w.info.Ok? ==> o.events == [StatusUpdate(GettingInfo), StatusUpdate(NoVideos)])
  {
  }

  /** The loop of a listed playlist: entries start in order from the first;
      a cancellation is noticed only before an entry and still ends with the
      "complete" report naming every entry; only an exception escaping an
      entry ends the job with the error report instead. */
  lemma PlaylistOrder(chatId: int, url: string, w: PlaylistWorld, asWritten: bool)
    requires w.info.Ok? && |w.info.value.entries| > 0
    ensures |ProcessPlaylist(chatId, url, w, asWritten).started| <= |w.info.value.entries|
    ensures var o := ProcessPlaylist(chatId, url, w, asWritten);
      forall i :: 0 <= i < |o.started| ==> o.started[i] == i
    ensures var o := ProcessPlaylist(chatId, url, w, asWritten);
      forall j :: 0 <= j < |o.started| ==> o.taskId !in w.cancelled(j)
    ensures var o := ProcessPlaylist(chatId, url, w, asWritten);
      o.events[|o.events| - 1] == StatusUpdate(Complete(|w.info.value.entries|)) || o.events[|o.events| - 1].status.Failed?
    ensures var o := ProcessPlaylist(chatId, url, w, asWritten);
      |o.started| < |w.info.value.entries| && o.events[|o.events| - 1] == StatusUpdate(Complete(|w.info.value.entries|)) ==>
        o.taskId in w.cancelled(|o.started|)
  {
    var info := w.info.value;
    var id := PlaylistTaskId(chatId, Worker.Truncate(w.now));
    LoopSpec(0, |info.entries|, CancelledAt(id, w), Runner(info, w, asWritten));
    var o := ProcessPlaylist(chatId, url, w, asWritten);
    forall j | 0 <= j < |o.started| ensures id !in w.cancelled(j) {
      assert !CancelledAt(id, w)(j);
    }
  }

  /** An entry listed with a `None` title, reached without a cancellation
      and after entries that all stayed in the loop, ends the job: no later
      entry starts, and the last report is the error, not "complete". */
  lemma NullTitleEndsPlaylist(chatId: int, url: string, w: PlaylistWorld, asWritten: bool, k: nat)
    requires w.info.Ok? && k < |w.info.value.entries| && w.info.value.entries[k].title.None?
    requires forall j :: 0 <= j <= k ==> PlaylistTaskId(chatId, Worker.Truncate(w.now)) !in w.cancelled(j)
    requires forall j :: 0 <= j < k ==> Runner(w.info.value, w, asWritten)(j).escaped.None?
    ensures var o := ProcessPlaylist(chatId, url, w, asWritten);
      && |o.started| == k + 1
      && o.events[|o.events| - 1] == StatusUpdate(Failed(NotSubscriptable))
  {
    var info := w.info.value;
    var id := PlaylistTaskId(chatId, Worker.Truncate(w.now));
    var n := |info.entries|;
    var run := Runner(info, w, asWritten);
    var cancelledAt := CancelledAt(id, w);
    LoopSpec(0, n, cancelledAt, run);
    EntryNullTitleEscapes(k, n, info.entries[k], info.title, w, asWritten);
    assert run(k).escaped == Some(NotSubscriptable);
    assert !cancelledAt(k);
  }

  /** Playlist and single-video task identifiers never collide, so a
      cancel button always names one kind of task. */
  lemma PlaylistIdsAreDistinct(chatId: int, seconds: int, c: int, m: Option<int>, s: int)
    ensures PlaylistTaskId(chatId, seconds) != Worker.TaskId(c, m, s)
  {
    var n: nat := if c < 0 then -c else c;
    NatToStringDigits(n);
    var first := IntToString(c);
    var id := Worker.TaskId(c, m, s);
    var parts := [first, Worker.MessageText(m), IntToString(s)];
    assert parts[1..] == [Worker.MessageText(m), IntToString(s)];
    assert id == first + ['_'] + Join(parts[1..], '_');
    if c < 0 {
      assert id[0] == '-';
    } else {
      assert id[0] == NatToString(n)[0];
    }
  }
}

=== FILE: progress.dfy ===
/** The rate-limited status reporter each job keeps: one status message,
    created by the first update that gets through and edited afterwards.
    The reporter's closure state becomes an explicit record; whether the
    (retried) Telegram call got through is an input. Status texts are a type
    parameter: only their equality matters here. */
module Progress {
  import opened Wrappers

  /** `shown` is the text the status message was created with (the edit
      result is never stored back, so it stays that); `lastEdit` is the
      clock reading of the last update that got through, 0 at first. */
  datatype Reporter<T> = Reporter(shown: Option<T>, lastEdit: real)

  /** What one update did towards Telegram. `cancelData` is the callback
      data of the cancel button attached, if any. */
  datatype Effect<T> =
    | Skipped
    | Created(text: T, cancelData: Option<string>)
    | Edited(text: T, cancelData: Option<string>)
    | Swallowed

  /** One update request. */
  datatype Update<T> = Update(text: T, force: bool, showCancel: bool, now: real, delivered: bool)

  const MinInterval: real := 20.0

  /** The callback data of the cancel button for a task. */
  function CancelData(taskId: string): string {
    "cancel:" + taskId
  }

  /** The keyboard sent with an update: the cancel button when asked for. */
  function Markup(showCancel: bool, taskId: string): Option<string> {
    if showCancel then Some(CancelData(taskId)) else None
  }

  /** The update passes the 20-second gate. */
  predicate Due<T>(r: Reporter<T>, u: Update<T>) {
    u.force || u.now - r.lastEdit >= MinInterval
  }

  /** `update_status_msg`: unforced updates within 20 seconds of the last
      one that got through are dropped; otherwise the message is created,
      or edited when the text differs from its creation text; a failed call
      is logged and leaves the state alone.

      So: rate-limited updates have no effect. A due update creates the
      message with its text when there is none yet; otherwise it edits the
      message when the text differs from the creation text, and does
      nothing when the text is the same. The creation text never changes,
      a call that does not get through changes nothing, and a cancel button
      carries the task's callback data. */
  function Step<T(==)>(r: Reporter<T>, u: Update<T>, taskId: string): (out: (Reporter<T>, Effect<T>))
    ensures var (r', e) := out;
      && (!Due(r, u) ==> r' == r && e == Skipped)
      && (Due(r, u) && r.shown.None? ==>
            out == (if u.delivered then (Reporter(Some(u.text), u.now), Created(u.text, Markup(u.showCancel, taskId))) else (r, Swallowed)))
      && (Due(r, u) && r.shown.Some? && r.shown.value != u.text ==>
            out == (if u.delivered then (Reporter(r.shown, u.now), Edited(u.text, Markup(u.showCancel, taskId))) else (r, Swallowed)))
      && (r.shown == Some(u.text) ==> r' == r && e == Skipped)
      && (!u.delivered ==> r' == r)
      && (r.shown.Some? ==> r'.shown == r.shown)
      && (r.shown.None? && r'.shown.Some? ==> r'.shown == Some(u.text) && e.Created?)
      && (e.Edited? ==> r.shown.Some? && r.shown.value != u.text && e.text == u.text)
      && (r' != r ==> u.delivered && r'.lastEdit == u.now && Due(r, u))
      && (r'.lastEdit != r.lastEdit ==> e.Created? || e.Edited?)
      && ((e.Created? || e.Edited?) ==> (e.cancelData.Some? <==> u.showCancel) && (u.showCancel ==> e.cancelData == Some("cancel:" + taskId)))
  {
    if !u.force && u.now - r.lastEdit < MinInterval then (r, Skipped)
    else
      var markup := Markup(u.showCancel, taskId);
      match r.shown
      case Some(t) =>
        if t == u.text then (r, Skipped)
        else if u.delivered then (Reporter(r.shown, u.now), Edited(u.text, markup))
        else (r, Swallowed)
      case None =>
        if u.delivered then (Reporter(Some(u.text), u.now), Created(u.text, markup))
        else (r, Swallowed)
  }

  /** A run of updates from the initial state. */
  function Replay<T(==)>(r: Reporter<T>, updates: seq<Update<T>>, taskId: string): Reporter<T>
    decreases |updates|
  {
    if |updates| == 0 then r
    else Replay(Step(r, updates[0], taskId).0, updates[1..], taskId)
  }

  /** The index of the first update that creates the message from a
      state without one, if any. */
  function FirstCreation<T(==)>(r: Reporter<T>, updates: seq<Update<T>>, taskId: string): Option<nat>
    decreases |updates|
  {
    if |updates| == 0 || r.shown.Some? then None
    else
      var r' := Step(r, updates[0], taskId).0;
      if r'.shown.Some? then Some(0)
      else match FirstCreation(r', updates[1..], taskId)
        case Some(k) => Some(k + 1)
        case None => None
  }

  /** Over any run, a message once created keeps its creation text; a
      run that starts without one ends with the text of the first update
      that got through, or still without one. */
  lemma {:induction false} ReplayKeepsCreationText<T>(r: Reporter<T>, updates: seq<Update<T>>, taskId: string)
    ensures r.shown.Some? ==> Replay(r, updates, taskId).shown == r.shown
    ensures r.shown.None? ==>
      match FirstCreation(r, updates, taskId)
      case Some(k) => k < |updates| && Replay(r, updates, taskId).shown == Some(updates[k].text)
      case None => Replay(r, updates, taskId).shown.None?
    decreases |updates|
  {
    if |updates| > 0 {
      var r' := Step(r, updates[0], taskId).0;
      ReplayKeepsCreationText(r', updates[1..], taskId);
      if r.shown.None? && r'.shown.None? {
        match FirstCreation(r', updates[1..], taskId)
        case Some(k) =>
          assert updates[1..][k] == updates[k + 1];
        case None =>
      }
    }
  }

  /** Updates whose clock readings never go backwards keep `lastEdit` no
      later than the latest reading. */
  lemma {:induction false} ReplayLastEditBounded<T>(r: Reporter<T>, updates: seq<Update<T>>, taskId: string, horizon: real)
    requires r.lastEdit <= horizon
    requires forall k :: 0 <= k < |updates| ==> updates[k].now <= horizon
    ensures Replay(r, updates, taskId).lastEdit <= horizon
    decreases |updates|
  {
    if |updates| > 0 {
      ReplayLastEditBounded(Step(r, updates[0], taskId).0, updates[1..], taskId, horizon);
    }
  }
}

=== FILE: retry.dfy ===
/** The bounded retry wrapper around Telegram API calls. The call is an
    oracle: `call(j)` is what the `j`-th try (0-based) does. Waiting is
    recorded as the list of sleeps in seconds instead of being performed. */
module Retry {
  import opened Wrappers
  import opened Text

  /** What one try of the wrapped call does. `RetryAfter` is the flood
      wait the API asks for; `TelegramError` any other API error; `OtherError`
      any other exception. */
  datatype Outcome<T> = Returned(value: T) | RetryAfter(seconds: nat) | TelegramError(message: string) | OtherError(message: string)

  const MaxTries: nat := 10
  const MaxTriesMessage := "Max retries exceeded for Telegram API call"

  /** The wrapper's run: what it returned or raised, how many tries it
      made, and the sleeps between them. */
  datatype Run<T> = Run(result: Result<T>, tries: nat, sleeps: seq<nat>)

  /** The try `j` failed in a way the wrapper retries after a pause. */
  predicate Retryable<T>(o: Outcome<T>, j: nat) {
    match o
    case Returned(_) => false
    case RetryAfter(_) => true
    case TelegramError(m) => Contains(m, "Flood control")
    case OtherError(_) => j < MaxTries - 1
  }

  /** The pause after a retried failure: the requested wait, 5 seconds for
      a flood message, 2 seconds otherwise. */
  function Pause<T>(o: Outcome<T>): nat {
    match o
    case RetryAfter(s) => s
    case TelegramError(_) => 5
    case _ => 2
  }

  function RetryFrom<T>(j: nat, call: nat -> Outcome<T>, sleeps: seq<nat>): Run<T>
    requires j <= MaxTries
    decreases MaxTries - j
  {
    if j == MaxTries then Run(Err(MaxTriesMessage), j, sleeps)
    else
      var o := call(j);
      if Retryable(o, j) then RetryFrom(j + 1, call, sleeps + [Pause(o)])
      else match o
        case Returned(v) => Run(Ok(v), j + 1, sleeps)
        case TelegramError(m) => Run(Err(m), j + 1, sleeps)
        case OtherError(m) => Run(Err(m), j + 1, sleeps)
        case RetryAfter(_) => Run(Err(MaxTriesMessage), j + 1, sleeps)
  }

  /** `tg_retry`. */
  function TgRetry<T>(call: nat -> Outcome<T>): Run<T> {
    RetryFrom(0, call, [])
  }

  /** Every try before `k` was retried. */
  ghost predicate RetriedBefore<T>(call: nat -> Outcome<T>, k: nat) {
    forall j :: 0 <= j < k ==> Retryable(call(j), j)
  }

  /** The pauses taken after the first `k` tries. */
  function Pauses<T>(call: nat -> Outcome<T>, k: nat): (p: seq<nat>)
    ensures |p| == k
    decreases k
  {
    if k == 0 then [] else Pauses(call, k - 1) + [Pause(call(k - 1))]
  }

  /** The outcome of a try that ends the run. */
  function Final<T>(o: Outcome<T>): Result<T> {
    match o
    case Returned(v) => Ok(v)
    case TelegramError(m) => Err(m)
    case OtherError(m) => Err(m)
    case RetryAfter(_) => Err(MaxTriesMessage)
  }

  lemma {:induction false} RetryFromStopsAt<T>(j: nat, k: nat, call: nat -> Outcome<T>)
    requires j <= k < MaxTries && RetriedBefore(call, k) && !Retryable(call(k), k)
    ensures RetryFrom(j, call, Pauses(call, j)) == Run(Final(call(k)), k + 1, Pauses(call, k))
    decreases k - j
  {
    if j < k {
      assert Pauses(call, j) + [Pause(call(j))] == Pauses(call, j + 1);
      RetryFromStopsAt(j + 1, k, call);
    }
  }

  lemma {:induction false} RetryFromExhausted<T>(j: nat, call: nat -> Outcome<T>)
    requires j <= MaxTries && RetriedBefore(call, MaxTries)
    ensures RetryFrom(j, call, Pauses(call, j)) == Run(Err(MaxTriesMessage), MaxTries, Pauses(call, MaxTries))
    decreases MaxTries - j
  {
    if j < MaxTries {
      assert Pauses(call, j) + [Pause(call(j))] == Pauses(call, j + 1);
      RetryFromExhausted(j + 1, call);
    }
  }

  /** The first try that is not retried ends the run after `k + 1` tries
      with the pauses of the earlier ones: a return gives the value, a
      non-flood API error is raised at once, another exception is raised
      as is on the tenth try. */
  lemma TgRetryStopsAt<T>(call: nat -> Outcome<T>, k: nat)
    requires k < MaxTries && RetriedBefore(call, k) && !Retryable(call(k), k)
    ensures TgRetry(call) == Run(Final(call(k)), k + 1, Pauses(call, k))
    ensures call(k).Returned? ==> TgRetry(call).result == Ok(call(k).value)
    ensures call(k).TelegramError? ==> TgRetry(call).result == Err(call(k).message) && !Contains(call(k).message, "Flood control")
    ensures call(k).OtherError? ==> TgRetry(call).result == Err(call(k).message) && k == MaxTries - 1
  {
    RetryFromStopsAt(0, k, call);
  }

  /** Ten retried failures in a row exhaust the wrapper: it gives up with
      its own message after ten tries and ten pauses. */
  lemma TgRetryExhausted<T>(call: nat -> Outcome<T>)
    requires RetriedBefore(call, MaxTries)
    ensures TgRetry(call) == Run(Err(MaxTriesMessage), MaxTries, Pauses(call, MaxTries))
  {
    RetryFromExhausted(0, call);
  }

  /** However the calls behave, the wrapper makes between one and ten
      tries, and it returns a value only from a try that returned it. */
  lemma {:induction false} RetryFromBounds<T>(j: nat, call: nat -> Outcome<T>, sleeps: seq<nat>)
    requires j <= MaxTries
    ensures var r := RetryFrom(j, call, sleeps);
      && (j < MaxTries ==> j + 1 <= r.tries) && r.tries <= MaxTries
      && (r.result.Ok? ==> 1 <= r.tries && call(r.tries - 1) == Returned(r.result.value))
    decreases MaxTries - j
  {
    if j < MaxTries && Retryable(call(j), j) {
      RetryFromBounds(j + 1, call, sleeps + [Pause(call(j))]);
    }
  }

  lemma TgRetryBounds<T>(call: nat -> Outcome<T>)
    ensures 1 <= TgRetry(call).tries <= MaxTries
    ensures TgRetry(call).result.Ok? ==> call(TgRetry(call).tries - 1) == Returned(TgRetry(call).result.value)
  {
    RetryFromBounds(0, call, []);
  }

  /** A flood wait of five seconds followed by success returns the value
      after two tries and one five-second pause. */
  lemma FloodWaitThenSuccess<T>(call: nat -> Outcome<T>, v: T)
    requires call(0) == RetryAfter(5) && call(1) == Returned(v)
    ensures TgRetry(call) == Run(Ok(v), 2, [5])
  {
    TgRetryStopsAt(call, 1);
  }
}

=== FILE: store.dfy ===
/** The SQLite store of subscriptions, processed videos and per-chat
    settings, as plain values. Every operation takes `healthy`: when the
    database cannot be used the operation logs, changes nothing and returns
    its failure value instead of raising. A text parameter may be Python's
    `None`, bound as SQL `NULL`: a `NOT NULL` column rejects it (an error
    under `OR REPLACE`, since the column has no default; a silently skipped
    row under `OR IGNORE`), and a `= ?` comparison with it matches no row. */
module Store {
  import opened Wrappers

  /** A subscription row. Rows are kept in row-id order: that is the order
      a full scan returns them in. */
  datatype Sub = Sub(channelId: string, channelName: string, chatId: int, maxQuality: int)

  datatype Processed = Processed(channelId: string, title: Option<string>)

  datatype Settings = Settings(mode: string, resolution: int)

  datatype Store = Store(subs: seq<Sub>, processed: map<string, Processed>, settings: map<int, Settings>)

  const DefaultSettings := Settings("video", 1080)

  /** The table's uniqueness constraint on (channel, chat). */
  predicate UniqueKeys(subs: seq<Sub>) {
    forall i, j :: 0 <= i < j < |subs| ==> !(subs[i].channelId == subs[j].channelId && subs[i].chatId == subs[j].chatId)
  }

  predicate HasKey(s: Sub, channelId: string, chatId: int) {
    s.channelId == channelId && s.chatId == chatId
  }

  /** The rows without the (channel, chat) key, in order. */
  function Without(subs: seq<Sub>, channelId: string, chatId: int): (r: seq<Sub>)
    ensures |r| <= |subs|
    ensures |r| < |subs| <==> exists s :: s in subs && HasKey(s, channelId, chatId)
    ensures forall s :: s in r <==> s in subs && !HasKey(s, channelId, chatId)
    decreases |subs|
  {
    if |subs| == 0 then []
    else (if HasKey(subs[0], channelId, chatId) then [] else [subs[0]]) + Without(subs[1..], channelId, chatId)
  }

  /** Removing rows keeps the remaining rows unique. */
  lemma {:induction false} WithoutKeepsUnique(subs: seq<Sub>, channelId: string, chatId: int)
    requires UniqueKeys(subs)
    ensures UniqueKeys(Without(subs, channelId, chatId))
    decreases |subs|
  {
    if |subs| > 0 {
      WithoutKeepsUnique(subs[1..], channelId, chatId);
      var rest := Without(subs[1..], channelId, chatId);
      var r := Without(subs, channelId, chatId);
      if !HasKey(subs[0], channelId, chatId) {
        assert r == [subs[0]] + rest;
        forall i, j | 0 <= i < j < |r|
          ensures !(r[i].channelId == r[j].channelId && r[i].chatId == r[j].chatId)
        {
          if i == 0 {
            assert r[j] == rest[j - 1] && r[j] in subs[1..];
            var k :| 0 <= k < |subs[1..]| && subs[1..][k] == r[j];
            assert subs[k + 1] == r[j];
          } else {
            assert r[i] == rest[i - 1] && r[j] == rest[j - 1];
          }
        }
      }
    }
  }

  /** `add_subscription`: insert, replacing the row with the same key; the
      replacement gets a fresh row id, so it moves to the end. A `None`
      channel violates `channel_id NOT NULL`, and the failure is returned. */
  function AddSubscription(st: Store, channelId: Option<string>, channelName: string, chatId: int, maxQuality: int, healthy: bool): (r: (Store, bool))
    ensures r.1 <==> healthy && channelId.Some?
    ensures !r.1 ==> r.0 == st
    ensures r.0.processed == st.processed && r.0.settings == st.settings
  {
    if !healthy || channelId.None? then (st, false)
    else (st.(subs := Without(st.subs, channelId.value, chatId) + [Sub(channelId.value, channelName, chatId, maxQuality)]), true)
  }

  /** After an add there is exactly one row with the key, carrying the new
      name and quality; every other row is kept; and keys stay unique. */
  lemma AddSubscriptionSpec(st: Store, channelId: string, channelName: string, chatId: int, maxQuality: int)
    requires UniqueKeys(st.subs)
    ensures var subs := AddSubscription(st, Some(channelId), channelName, chatId, maxQuality, true).0.subs;
      && UniqueKeys(subs)
      && (forall s :: s in subs && HasKey(s, channelId, chatId) <==> s == Sub(channelId, channelName, chatId, maxQuality))
      && (forall s :: !HasKey(s, channelId, chatId) ==> (s in subs <==> s in st.subs))
  {
    var rest := Without(st.subs, channelId, chatId);
    WithoutKeepsUnique(st.subs, channelId, chatId);
    var subs := rest + [Sub(channelId, channelName, chatId, maxQuality)];
    forall i, j | 0 <= i < j < |subs|
      ensures !(subs[i].channelId == subs[j].channelId && subs[i].chatId == subs[j].chatId)
    {
      if j == |rest| {
        assert subs[i] in rest;
      } else {
        assert subs[i] == rest[i] && subs[j] == rest[j];
      }
    }
  }

  /** `remove_subscription`: delete the row with the key and report whether
      one was deleted; `channel_id = NULL` matches no row. */
  function RemoveSubscription(st: Store, channelId: Option<string>, chatId: int, healthy: bool): (r: (Store, bool))
    ensures !healthy || channelId.None? ==> r == (st, false)
    ensures healthy && channelId.Some? ==> (r.1 <==> exists s :: s in st.subs && HasKey(s, channelId.value, chatId))
    ensures forall s :: s in r.0.subs <==> s in st.subs && (!healthy || channelId.None? || !HasKey(s, channelId.value, chatId))
    ensures r.0.processed == st.processed && r.0.settings == st.settings
  {
    if !healthy || channelId.None? then (st, false)
    else
      var rest := Without(st.subs, channelId.value, chatId);
      (st.(subs := rest), |rest| < |st.subs|)
  }

  /** `get_all_subscriptions`. */
  function AllSubscriptions(st: Store, healthy: bool): (rows: seq<Sub>)
    ensures healthy ==> rows == st.subs
    ensures !healthy ==> rows == []
  {
    if healthy then st.subs else []
  }

  /** A full scan after an add lists the new row last (its fresh row id
      puts it there), and otherwise exactly the earlier rows with another
      key. */
  lemma AllAfterAdd(st: Store, channelId: string, channelName: string, chatId: int, maxQuality: int)
    ensures var rows := AllSubscriptions(AddSubscription(st, Some(channelId), channelName, chatId, maxQuality, true).0, true);
      && |rows| > 0 && rows[|rows| - 1] == Sub(channelId, channelName, chatId, maxQuality)
      && forall s :: s in rows <==>
           s == Sub(channelId, channelName, chatId, maxQuality) || (s in AllSubscriptions(st, true) && !HasKey(s, channelId, chatId))
  {
  }

  /** The rows of one chat, in row order. */
  function ForChat(subs: seq<Sub>, chatId: int): (r: seq<Sub>)
    ensures forall s :: s in r <==> s in subs && s.chatId == chatId
    decreases |subs|
  {
    if |subs| == 0 then []
    else (if subs[0].chatId == chatId then [subs[0]] else []) + ForChat(subs[1..], chatId)
  }

  /** `get_user_subscriptions`: exactly the rows of the chat. */
  function UserSubscriptions(st: Store, chatId: int, healthy: bool): (rows: seq<Sub>)
    ensures forall s :: s in rows <==> healthy && s in st.subs && s.chatId == chatId
  {
    if healthy then ForChat(st.subs, chatId) else []
  }

  /** The subscription lifecycle: a chat with no subscriptions that adds
      one sees exactly that row; removing it reports success and leaves the
      chat with none again. */
  lemma {:induction false} SubscriptionLifecycle(st: Store, channelId: string, channelName: string, chatId: int, maxQuality: int)
    requires UniqueKeys(st.subs) && UserSubscriptions(st, chatId, true) == []
    ensures var added := AddSubscription(st, Some(channelId), channelName, chatId, maxQuality, true).0;
      var removed := RemoveSubscription(added, Some(channelId), chatId, true);
      && UserSubscriptions(added, chatId, true) == [Sub(channelId, channelName, chatId, maxQuality)]
      && removed.1
      && UserSubscriptions(removed.0, chatId, true) == []
  {
    var added := AddSubscription(st, Some(channelId), channelName, chatId, maxQuality, true).0;
    var row := Sub(channelId, channelName, chatId, maxQuality);
    var rest := Without(st.subs, channelId, chatId);
    assert forall s :: s in st.subs ==> s.chatId != chatId;
    ForChatNone(rest, chatId);
    ForChatAppend(rest, [row], chatId);
    assert UserSubscriptions(added, chatId, true) == [row];
    assert row in added.subs;
    var removed := RemoveSubscription(added, Some(channelId), chatId, true).0;
    forall s | s in removed.subs ensures s.chatId != chatId {
      assert s in added.subs && !HasKey(s, channelId, chatId);
      if s != row {
        assert s in rest;
      }
    }
    ForChatNone(removed.subs, chatId);
  }

  lemma {:induction false} ForChatNone(subs: seq<Sub>, chatId: int)
    requires forall s :: s in subs ==> s.chatId != chatId
    ensures ForChat(subs, chatId) == []
    decreases |subs|
  {
    if |subs| > 0 {
      assert forall s :: s in subs[1..] ==> s in subs;
      ForChatNone(subs[1..], chatId);
    }
  }

  lemma {:induction false} ForChatAppend(a: seq<Sub>, b: seq<Sub>, chatId: int)
    ensures ForChat(a + b, chatId) == ForChat(a, chatId) + ForChat(b, chatId)
    decreases |a|
  {
    if |a| > 0 {
      assert (a + b)[1..] == a[1..] + b;
      ForChatAppend(a[1..], b, chatId);
    } else {
      assert a + b == b;
    }
  }

  /** `is_video_processed`: `video_id = NULL` matches no row. */
  function IsVideoProcessed(st: Store, videoId: Option<string>, healthy: bool): (r: bool)
    ensures r <==> healthy && videoId.Some? && videoId.value in st.processed
  {
    healthy && videoId.Some? && videoId.value in st.processed
  }

  /** `mark_video_processed`: `INSERT OR IGNORE`, keeping an existing row
      as it is. The IGNORE rule also covers `video_id NOT NULL`: a `None` id
      skips the row without an error, so the call still reports success. */
  function MarkVideoProcessed(st: Store, videoId: Option<string>, channelId: string, title: Option<string>, healthy: bool): (r: (Store, bool))
    ensures r.1 <==> healthy
    ensures r.1 && videoId.Some? ==> videoId.value in r.0.processed && r.0.processed.Keys == st.processed.Keys + {videoId.value}
    ensures !r.1 || videoId.None? || videoId.value in st.processed ==> r.0 == st
    ensures forall v :: v in st.processed ==> v in r.0.processed && r.0.processed[v] == st.processed[v]
    ensures r.0.subs == st.subs && r.0.settings == st.settings
  {
    if !healthy then (st, false)
    else if videoId.None? || videoId.value in st.processed then (st, true)
    else (st.(processed := st.processed[videoId.value := Processed(channelId, title)]), true)
  }

  /** After marking, a video reads as processed exactly when it is the
      marked one (with an id, and the store worked) or it was processed
      before. */
  lemma ProcessedAfterMark(st: Store, videoId: Option<string>, channelId: string, title: Option<string>, healthy: bool, other: Option<string>)
    ensures IsVideoProcessed(MarkVideoProcessed(st, videoId, channelId, title, healthy).0, other, true) <==>
      (healthy && other.Some? && other == videoId) || IsVideoProcessed(st, other, true)
  {
  }

  /** Marking is idempotent, and afterwards a video with an id reads as
      processed; one without an id never does. */
  lemma MarkIdempotent(st: Store, videoId: Option<string>, channelId: string, title: Option<string>, channelId2: string, title2: Option<string>)
    ensures var once := MarkVideoProcessed(st, videoId, channelId, title, true).0;
      && MarkVideoProcessed(once, videoId, channelId2, title2, true).0 == once
      && (IsVideoProcessed(once, videoId, true) <==> videoId.Some?)
  {
  }

  /** A `None` key changes nothing. The subscription insert (`OR REPLACE`)
      aborts on its `NOT NULL` column and reports failure. The processed
      insert (`OR IGNORE`) skips the row and reports success. The lookup
      and the delete match no row. */
  lemma NullKeysMatchNothing(st: Store, channelName: string, chatId: int, maxQuality: int, channelId: string, title: Option<string>)
    ensures AddSubscription(st, None, channelName, chatId, maxQuality, true) == (st, false)
    ensures RemoveSubscription(st, None, chatId, true) == (st, false)
    ensures !IsVideoProcessed(st, None, true)
    ensures MarkVideoProcessed(st, None, channelId, title, true) == (st, true)
  {
  }

  /** Python truthiness of the optional arguments. */
  predicate TruthyText(s: Option<string>) {
    s.Some? && s.value != ""
  }

  predicate TruthyInt(i: Option<int>) {
    i.Some? && i.value != 0
  }

  /** `get_user_settings`: the stored row, else the defaults. */
  function UserSettings(st: Store, chatId: int, healthy: bool): (s: Settings)
    ensures healthy && chatId in st.settings ==> s == st.settings[chatId]
    ensures !healthy || chatId !in st.settings ==> s == DefaultSettings
  {
    if healthy && chatId in st.settings then st.settings[chatId] else DefaultSettings
  }

  /** `update_user_settings`: the first update inserts the given values,
      defaulting the falsy ones; later updates change only the fields given
      truthy values. */
  function UpdateUserSettings(st: Store, chatId: int, mode: Option<string>, resolution: Option<int>, healthy: bool): (r: (Store, bool))
    ensures r.1 == healthy
    ensures !healthy ==> r.0 == st
    ensures r.0.subs == st.subs && r.0.processed == st.processed
    ensures forall c :: c != chatId ==> (c in r.0.settings <==> c in st.settings) && (c in st.settings ==> r.0.settings[c] == st.settings[c])
  {
    if !healthy then (st, false)
    else
      var next :=
        if chatId !in st.settings then
          Settings(if TruthyText(mode) then mode.value else "video", if TruthyInt(resolution) then resolution.value else 1080)
        else
          var stored := st.settings[chatId];
          Settings(if TruthyText(mode) then mode.value else stored.mode, if TruthyInt(resolution) then resolution.value else stored.resolution);
      (st.(settings := st.settings[chatId := next]), true)
  }

  /** Reading after an update: a field given a truthy value reads back as
      that value; any other field reads as before, where a chat without a
      row reads the defaults before and after. */
  lemma {:induction false} UpdateThenRead(st: Store, chatId: int, mode: Option<string>, resolution: Option<int>)
    ensures var before := UserSettings(st, chatId, true);
      var after := UserSettings(UpdateUserSettings(st, chatId, mode, resolution, true).0, chatId, true);
      && after.mode == (if TruthyText(mode) then mode.value else before.mode)
      && after.resolution == (if TruthyInt(resolution) then resolution.value else before.resolution)
  {
    var r := UpdateUserSettings(st, chatId, mode, resolution, true).0;
    assert chatId in r.settings;
  }
}

=== FILE: subscription.dfy ===
/** The subscription monitor: group the stored subscriptions by channel,
    look at each channel's latest videos, mark the new ones processed and
    queue one job per subscriber that could be notified. Listings and
    notification outcomes are inputs; the store is threaded through. */
module Subscription {
  import opened Wrappers
  import Config
  import Store
  import Downloader
  import Worker

  datatype Subscriber = Subscriber(chatId: int, maxQuality: int)

  /** One channel with its display name and subscribers. */
  datatype Group = Group(channelId: string, name: string, subscribers: seq<Subscriber>)

  function SubscriberOf(row: Store.Sub): Subscriber {
    Subscriber(row.chatId, row.maxQuality)
  }

  function GroupId(g: Group): string {
    g.channelId
  }

  function RowId(row: Store.Sub): string {
    row.channelId
  }

  /** The channel of each group or row, in order. */
  function ChannelIds<T>(id: T -> string, xs: seq<T>): seq<string> {
    Config.MapSeq(id, xs)
  }

  /** The subscribers of channel `c`, in row order. */
  function SubscribersOf(rows: seq<Store.Sub>, c: string): seq<Subscriber>
    decreases |rows|
  {
    if |rows| == 0 then []
    else SubscribersOf(rows[..|rows| - 1], c) + (if rows[|rows| - 1].channelId == c then [SubscriberOf(rows[|rows| - 1])] else [])
  }

  /** One step of the grouping loop: add the row's subscriber to its
      channel's group, or open a group named after the row. */
  function Insert(groups: seq<Group>, row: Store.Sub): seq<Group>
    decreases |groups|
  {
    if |groups| == 0 then [Group(row.channelId, row.channelName, [SubscriberOf(row)])]
    else if groups[0].channelId == row.channelId then
      [groups[0].(subscribers := groups[0].subscribers + [SubscriberOf(row)])] + groups[1..]
    else [groups[0]] + Insert(groups[1..], row)
  }

  /** The grouping loop of `_check_subscriptions`. */
  function GroupRows(rows: seq<Store.Sub>): seq<Group>
    decreases |rows|
  {
    if |rows| == 0 then [] else Insert(GroupRows(rows[..|rows| - 1]), rows[|rows| - 1])
  }

  lemma {:induction false} InsertSpec(groups: seq<Group>, row: Store.Sub)
    requires Config.NoDup(ChannelIds(GroupId, groups))
    ensures row.channelId in ChannelIds(GroupId, groups) ==>
      var r := Insert(groups, row);
      |r| == |groups| && forall i :: 0 <= i < |groups| ==>
        r[i] == if groups[i].channelId == row.channelId then groups[i].(subscribers := groups[i].subscribers + [SubscriberOf(row)]) else groups[i]
    ensures row.channelId !in ChannelIds(GroupId, groups) ==>
      Insert(groups, row) == groups + [Group(row.channelId, row.channelName, [SubscriberOf(row)])]
    decreases |groups|
  {
    if |groups| > 0 {
      assert ChannelIds(GroupId, groups[1..]) == ChannelIds(GroupId, groups)[1..];
      InsertSpec(groups[1..], row);
      if groups[0].channelId == row.channelId {
        forall i | 1 <= i < |groups| ensures groups[i].channelId != row.channelId {
          assert ChannelIds(GroupId, groups)[0] != ChannelIds(GroupId, groups)[i];
        }
      } else if row.channelId !in ChannelIds(GroupId, groups) {
        assert [groups[0]] + groups[1..] == groups;
      }
    }
  }

  lemma {:induction false} SubscribersOfAbsent(rows: seq<Store.Sub>, c: string)
    requires c !in ChannelIds(RowId, rows)
    ensures SubscribersOf(rows, c) == []
    decreases |rows|
  {
    if |rows| > 0 {
      assert ChannelIds(RowId, rows[..|rows| - 1]) == ChannelIds(RowId, rows)[..|rows| - 1];
      SubscribersOfAbsent(rows[..|rows| - 1], c);
    }
  }

  /** The groups as the loop leaves them: one per distinct channel, in the
      order channels first appear in the rows; each named after the
      channel's first row and holding its subscribers in row order. */
  ghost predicate GroupsOf(rows: seq<Store.Sub>, g: seq<Group>) {
    && KeysOf(rows, g)
    && Config.InFirstOccurrenceOrder(ChannelIds(GroupId, g), ChannelIds(RowId, rows))
    && SubscribersMatch(rows, g)
    && NamesMatch(rows, g)
  }

  ghost predicate KeysOf(rows: seq<Store.Sub>, g: seq<Group>) {
    && Config.NoDup(ChannelIds(GroupId, g))
    && forall c :: c in ChannelIds(GroupId, g) <==> c in ChannelIds(RowId, rows)
  }

  ghost predicate SubscribersMatch(rows: seq<Store.Sub>, g: seq<Group>) {
    forall i :: 0 <= i < |g| ==> g[i].subscribers == SubscribersOf(rows, g[i].channelId)
  }

  ghost predicate NamesMatch(rows: seq<Store.Sub>, g: seq<Group>) {
    forall i :: 0 <= i < |g| && g[i].channelId in ChannelIds(RowId, rows) ==>
      g[i].name == rows[Config.IndexOf(ChannelIds(RowId, rows), g[i].channelId)].channelName
  }

  lemma StepKeys(front: seq<Store.Sub>, row: Store.Sub, g: seq<Group>)
    requires KeysOf(front, g)
    ensures KeysOf(front + [row], Insert(g, row))
  {
    InsertSpec(g, row);
    assert ChannelIds(RowId, front + [row]) == ChannelIds(RowId, front) + [row.channelId];
    var g' := Insert(g, row);
    if row.channelId in ChannelIds(GroupId, g) {
      assert ChannelIds(GroupId, g') == ChannelIds(GroupId, g);
    } else {
      assert ChannelIds(GroupId, g') == ChannelIds(GroupId, g) + [row.channelId];
    }
  }

  lemma StepOrder(front: seq<Store.Sub>, row: Store.Sub, g: seq<Group>)
    requires KeysOf(front, g) && Config.InFirstOccurrenceOrder(ChannelIds(GroupId, g), ChannelIds(RowId, front))
    ensures Config.InFirstOccurrenceOrder(ChannelIds(GroupId, Insert(g, row)), ChannelIds(RowId, front + [row]))
  {
    InsertSpec(g, row);
    assert ChannelIds(RowId, front + [row]) == ChannelIds(RowId, front) + [row.channelId];
    if row.channelId in ChannelIds(GroupId, g) {
      assert ChannelIds(GroupId, Insert(g, row)) == ChannelIds(GroupId, g);
      OrderAppend(ChannelIds(GroupId, g), ChannelIds(RowId, front), [row.channelId]);
    } else {
      assert ChannelIds(GroupId, Insert(g, row)) == ChannelIds(GroupId, g) + [row.channelId];
      OrderAppendNew(ChannelIds(GroupId, g), ChannelIds(RowId, front), row.channelId);
    }
  }

  /** Appending to the listing keeps the positions of what it held. */
  lemma OrderAppend(ks: seq<string>, cs: seq<string>, extra: seq<string>)
    requires forall c :: c in ks ==> c in cs
    requires Config.InFirstOccurrenceOrder(ks, cs)
    ensures Config.InFirstOccurrenceOrder(ks, cs + extra)
  {
    forall x | x in cs ensures Config.IndexOf(cs + extra, x) == Config.IndexOf(cs, x) {
      Config.IndexOfAppend(cs, extra, x);
    }
    forall i, j | 0 <= i < j < |ks| ensures Config.IndexOf(cs + extra, ks[i]) < Config.IndexOf(cs + extra, ks[j]) {
      assert ks[i] in ks && ks[j] in ks;
    }
  }

  /** A channel first seen in the new row goes last. */
  lemma OrderAppendNew(ks: seq<string>, cs: seq<string>, c: string)
    requires forall x :: x in ks <==> x in cs
    requires c !in cs
    requires Config.InFirstOccurrenceOrder(ks, cs)
    ensures Config.InFirstOccurrenceOrder(ks + [c], cs + [c])
  {
    OrderAppend(ks, cs, [c]);
    Config.IndexOfAppend(cs, [c], c);
    var ks' := ks + [c];
    forall i | 0 <= i < |ks| ensures Config.IndexOf(cs + [c], ks'[i]) < Config.IndexOf(cs + [c], c) {
      assert ks'[i] == ks[i] && ks[i] in ks;
      Config.IndexOfAppend(cs, [c], ks[i]);
    }
    forall i, j | 0 <= i < j < |ks'| ensures Config.IndexOf(cs + [c], ks'[i]) < Config.IndexOf(cs + [c], ks'[j]) {
      if j < |ks| {
        assert ks'[i] == ks[i] && ks'[j] == ks[j];
      }
    }
  }

  lemma StepSubscribers(front: seq<Store.Sub>, row: Store.Sub, g: seq<Group>)
    requires KeysOf(front, g) && SubscribersMatch(front, g)
    ensures SubscribersMatch(front + [row], Insert(g, row))
  {
    InsertSpec(g, row);
    var rows := front + [row];
    assert rows[..|rows| - 1] == front;
    if row.channelId !in ChannelIds(GroupId, g) {
      SubscribersOfAbsent(front, row.channelId);
    }
  }

  lemma StepNames(front: seq<Store.Sub>, row: Store.Sub, g: seq<Group>)
    requires KeysOf(front, g) && NamesMatch(front, g)
    ensures NamesMatch(front + [row], Insert(g, row))
  {
    InsertSpec(g, row);
    var rows := front + [row];
    var cs := ChannelIds(RowId, front);
    var cs' := ChannelIds(RowId, rows);
    assert cs' == cs + [row.channelId];
    var g' := Insert(g, row);
    forall i | 0 <= i < |g'| && g'[i].channelId in cs'
      ensures g'[i].name == rows[Config.IndexOf(cs', g'[i].channelId)].channelName
    {
      Config.IndexOfAppend(cs, [row.channelId], g'[i].channelId);
      if i < |g| {
        assert g'[i].channelId == g[i].channelId && g'[i].name == g[i].name;
        assert g[i].channelId in ChannelIds(GroupId, g);
      }
    }
  }

  lemma {:induction false} GroupRowsSpec(rows: seq<Store.Sub>)
    ensures GroupsOf(rows, GroupRows(rows))
    decreases |rows|
  {
    if |rows| > 0 {
      var front := rows[..|rows| - 1];
      var row := rows[|rows| - 1];
      GroupRowsSpec(front);
      assert rows == front + [row];
      StepKeys(front, row, GroupRows(front));
      StepOrder(front, row, GroupRows(front));
      StepSubscribers(front, row, GroupRows(front));
      StepNames(front, row, GroupRows(front));
    } else {
      assert ChannelIds(GroupId, GroupRows(rows)) == [];
    }
  }

  /** Every grouped subscriber comes from a row of its channel. */
  lemma {:induction false} SubscribersOfRows(rows: seq<Store.Sub>, c: string)
    ensures forall s :: s in SubscribersOf(rows, c) ==> exists row :: row in rows && row.channelId == c && s == SubscriberOf(row)
    decreases |rows|
  {
    if |rows| > 0 {
      SubscribersOfRows(rows[..|rows| - 1], c);
      assert forall row :: row in rows[..|rows| - 1] ==> row in rows;
    }
  }

  // ---------------------------------------------------------------------
  // _check_channel

  /** The job queued for a subscriber: no message to reply to, the
      subscriber's quality as the height. */
  function JobFor(s: Subscriber, v: Downloader.Video): Worker.Job {
    Worker.Job(s.chatId, v.url, None, Some(s.maxQuality))
  }

  /** The subscribers notified of `v`, each getting one job. */
  function Fanout(subs: seq<Subscriber>, v: Downloader.Video, notified: (int, Downloader.Video) -> bool): (jobs: seq<Worker.Job>)
    ensures forall j :: j in jobs <==> exists s :: s in subs && notified(s.chatId, v) && j == JobFor(s, v)
    decreases |subs|
  {
    if |subs| == 0 then []
    else (if notified(subs[0].chatId, v) then [JobFor(subs[0], v)] else []) + Fanout(subs[1..], v, notified)
  }

  function FanoutAll(vs: seq<Downloader.Video>, subs: seq<Subscriber>, notified: (int, Downloader.Video) -> bool): seq<Worker.Job>
    decreases |vs|
  {
    if |vs| == 0 then [] else Fanout(subs, vs[0], notified) + FanoutAll(vs[1..], subs, notified)
  }

  /** The video's id was recorded; a video without an id never is. */
  predicate Seen(v: Downloader.Video, seen: set<string>) {
    v.id.Some? && v.id.value in seen
  }

  /** The ids a video adds to the record: none when it has no id. */
  function IdOf(v: Downloader.Video): set<string> {
    if v.id.Some? then {v.id.value} else {}
  }

  /** Reference: the listed videos whose id was not seen before, each id
      once, in listing order; a video without an id is always new. */
  function Fresh(vs: seq<Downloader.Video>, seen: set<string>): (r: seq<Downloader.Video>)
    ensures forall v :: v in r ==> v in vs && !Seen(v, seen)
    decreases |vs|
  {
    if |vs| == 0 then []
    else if Seen(vs[0], seen) then Fresh(vs[1..], seen)
    else [vs[0]] + Fresh(vs[1..], seen + IdOf(vs[0]))
  }

  /** The ids of the listed videos that have one. */
  function Ids(vs: seq<Downloader.Video>): set<string> {
    set v | v in vs && v.id.Some? :: v.id.value
  }

  /** The listed videos without an id, in order. */
  function Unnamed(vs: seq<Downloader.Video>): (r: seq<Downloader.Video>)
    ensures forall v :: v in r <==> v in vs && v.id.None?
    decreases |vs|
  {
    if |vs| == 0 then []
    else (if vs[0].id.None? then [vs[0]] else []) + Unnamed(vs[1..])
  }

  datatype ChannelRun = ChannelRun(store: Store.Store, jobs: seq<Worker.Job>)

  /** The video loop of `_check_channel` from video `k` on. */
  function CheckVideos(k: nat, vs: seq<Downloader.Video>, channelId: string, subs: seq<Subscriber>,
                       st: Store.Store, healthy: bool, notified: (int, Downloader.Video) -> bool): ChannelRun
    requires k <= |vs|
    decreases |vs| - k
  {
    if k == |vs| then ChannelRun(st, [])
    else
      var v := vs[k];
      if Store.IsVideoProcessed(st, v.id, healthy) then CheckVideos(k + 1, vs, channelId, subs, st, healthy, notified)
      else
        var marked := Store.MarkVideoProcessed(st, v.id, channelId, v.title, healthy).0;
        var rest := CheckVideos(k + 1, vs, channelId, subs, marked, healthy, notified);
        ChannelRun(rest.store, Fanout(subs, v, notified) + rest.jobs)
  }

  /** With a working store, the channel check queues the fan-out of exactly
      the videos not yet processed (each id once, in listing order), and
      leaves every listed id processed and nothing else changed. */
  lemma {:induction false} CheckVideosSpec(k: nat, vs: seq<Downloader.Video>, channelId: string, subs: seq<Subscriber>,
                                           st: Store.Store, notified: (int, Downloader.Video) -> bool)
    requires k <= |vs|
    ensures var r := CheckVideos(k, vs, channelId, subs, st, true, notified);
      && r.jobs == FanoutAll(Fresh(vs[k..], st.processed.Keys), subs, notified)
      && r.store.processed.Keys == st.processed.Keys + Ids(vs[k..])
      && (forall v :: v in st.processed ==> r.store.processed[v] == st.processed[v])
      && r.store.subs == st.subs && r.store.settings == st.settings
  {
    CheckVideosQueues(k, vs, channelId, subs, st, notified);
    CheckVideosMarks(k, vs, channelId, subs, st, notified);
  }

  lemma {:induction false} CheckVideosQueues(k: nat, vs: seq<Downloader.Video>, channelId: string, subs: seq<Subscriber>,
                                             st: Store.Store, notified: (int, Downloader.Video) -> bool)
    requires k <= |vs|
    ensures CheckVideos(k, vs, channelId, subs, st, true, notified).jobs == FanoutAll(Fresh(vs[k..], st.processed.Keys), subs, notified)
    decreases |vs| - k
  {
    if k < |vs| {
      var v := vs[k];
      assert vs[k..] == [v] + vs[k + 1..];
      if Seen(v, st.processed.Keys) {
        CheckVideosQueues(k + 1, vs, channelId, subs, st, notified);
      } else {
        var marked := Store.MarkVideoProcessed(st, v.id, channelId, v.title, true).0;
        CheckVideosQueues(k + 1, vs, channelId, subs, marked, notified);
        assert marked.processed.Keys == st.processed.Keys + IdOf(v);
      }
    }
  }

  lemma IdsCons(v: Downloader.Video, vs: seq<Downloader.Video>)
    ensures Ids([v] + vs) == IdOf(v) + Ids(vs)
  {
    assert forall w :: w in [v] + vs <==> w == v || w in vs;
  }

  lemma {:induction false} CheckVideosMarks(k: nat, vs: seq<Downloader.Video>, channelId: string, subs: seq<Subscriber>,
                                            st: Store.Store, notified: (int, Downloader.Video) -> bool)
    requires k <= |vs|
    ensures var r := CheckVideos(k, vs, channelId, subs, st, true, notified);
      && r.store.processed.Keys == st.processed.Keys + Ids(vs[k..])
      && (forall v :: v in st.processed ==> r.store.processed[v] == st.processed[v])
      && r.store.subs == st.subs && r.store.settings == st.settings
    decreases |vs| - k
  {
    if k < |vs| {
      var v := vs[k];
      assert vs[k..] == [v] + vs[k + 1..];
      IdsCons(v, vs[k + 1..]);
      if Seen(v, st.processed.Keys) {
        CheckVideosMarks(k + 1, vs, channelId, subs, st, notified);
      } else {
        var marked := Store.MarkVideoProcessed(st, v.id, channelId, v.title, true).0;
        CheckVideosMarks(k + 1, vs, channelId, subs, marked, notified);
      }
    } else {
      assert vs[k..] == [];
    }
  }

  /** Re-checking a listing right after checking it changes nothing and
      queues only the videos without an id, which can never be marked; a
      listing whose videos all have ids queues nothing the second time. */
  lemma RecheckQueuesUnnamed(vs: seq<Downloader.Video>, channelId: string, subs: seq<Subscriber>,
                             st: Store.Store, notified: (int, Downloader.Video) -> bool)
    ensures var first := CheckVideos(0, vs, channelId, subs, st, true, notified);
      var second := CheckVideos(0, vs, channelId, subs, first.store, true, notified);
      && second.jobs == FanoutAll(Unnamed(vs), subs, notified)
      && second.store == first.store
      && ((forall i :: 0 <= i < |vs| ==> vs[i].id.Some?) ==> second.jobs == [])
  {
    var first := CheckVideos(0, vs, channelId, subs, st, true, notified);
    CheckVideosSpec(0, vs, channelId, subs, st, notified);
    CheckVideosSpec(0, vs, channelId, subs, first.store, notified);
    assert vs[0..] == vs;
    FreshAllSeen(vs, first.store.processed.Keys);
    var second := CheckVideos(0, vs, channelId, subs, first.store, true, notified);
    assert second.store.processed.Keys == first.store.processed.Keys;
    assert second.store.processed == first.store.processed;
    if forall i :: 0 <= i < |vs| ==> vs[i].id.Some? {
      UnnamedNone(vs);
    }
  }

  lemma {:induction false} UnnamedNone(vs: seq<Downloader.Video>)
    requires forall i :: 0 <= i < |vs| ==> vs[i].id.Some?
    ensures Unnamed(vs) == []
    decreases |vs|
  {
    if |vs| > 0 {
      UnnamedNone(vs[1..]);
    }
  }

  /** Once every listed id is recorded, only the videos without an id are
      new. */
  lemma {:induction false} FreshAllSeen(vs: seq<Downloader.Video>, seen: set<string>)
    requires Ids(vs) <= seen
    ensures Fresh(vs, seen) == Unnamed(vs)
    decreases |vs|
  {
    if |vs| > 0 {
      if vs[0].id.Some? {
        assert vs[0] in vs;
        assert vs[0].id.value in Ids(vs);
      }
      assert Ids(vs[1..]) <= Ids(vs) by {
        forall id | id in Ids(vs[1..]) ensures id in Ids(vs) {
          var v :| v in vs[1..] && v.id.Some? && v.id.value == id;
          assert v in vs;
        }
      }
      FreshAllSeen(vs[1..], seen);
      assert IdOf(vs[0]) <= seen;
      assert seen + IdOf(vs[0]) == seen;
    }
  }

  /** The reference keeps each id at most once. */
  lemma {:induction false} FreshDistinct(vs: seq<Downloader.Video>, seen: set<string>)
    ensures forall i, j :: 0 <= i < j < |Fresh(vs, seen)| && Fresh(vs, seen)[i].id.Some? ==>
      Fresh(vs, seen)[i].id != Fresh(vs, seen)[j].id
    decreases |vs|
  {
    if |vs| > 0 {
      if Seen(vs[0], seen) {
        FreshDistinct(vs[1..], seen);
      } else {
        var seen' := seen + IdOf(vs[0]);
        FreshDistinct(vs[1..], seen');
        var rest := Fresh(vs[1..], seen');
        var r := Fresh(vs, seen);
        assert r == [vs[0]] + rest;
        forall i, j | 0 <= i < j < |r| && r[i].id.Some? ensures r[i].id != r[j].id {
          if i == 0 {
            assert r[j] == rest[j - 1];
            assert rest[j - 1] in rest;
          } else {
            assert r[i] == rest[i - 1] && r[j] == rest[j - 1];
          }
        }
      }
    }
  }

  /** The reference keeps exactly the listed ids that were not seen. */
  lemma {:induction false} FreshIds(vs: seq<Downloader.Video>, seen: set<string>)
    ensures Ids(Fresh(vs, seen)) == Ids(vs) - seen
    decreases |vs|
  {
    if |vs| == 0 {
      assert Ids(vs) == {};
    } else {
      var v := vs[0];
      assert vs == [v] + vs[1..];
      IdsCons(v, vs[1..]);
      if Seen(v, seen) {
        FreshIds(vs[1..], seen);
      } else {
        FreshIds(vs[1..], seen + IdOf(v));
        IdsCons(v, Fresh(vs[1..], seen + IdOf(v)));
      }
    }
  }

  /** With a failing store nothing is marked, so every listed video fans
      out again on every check. */
  lemma {:induction false} BrokenStoreRequeues(k: nat, vs: seq<Downloader.Video>, channelId: string, subs: seq<Subscriber>,
                                               st: Store.Store, notified: (int, Downloader.Video) -> bool)
    requires k <= |vs|
    ensures CheckVideos(k, vs, channelId, subs, st, false, notified) == ChannelRun(st, FanoutAll(vs[k..], subs, notified))
    decreases |vs| - k
  {
    if k < |vs| {
      assert vs[k..] == [vs[k]] + vs[k + 1..];
      BrokenStoreRequeues(k + 1, vs, channelId, subs, st, notified);
    }
  }

  // ---------------------------------------------------------------------
  // _check_subscriptions

  datatype Check = Check(store: Store.Store, jobs: seq<Worker.Job>)

  /** The channel loop from group `k` on; a channel whose listing raised
      is logged and skipped. */
  function CheckGroups(k: nat, groups: seq<Group>, st: Store.Store, healthy: bool,
                       listing: string -> Result<seq<Downloader.Video>>, notified: (int, Downloader.Video) -> bool): Check
    requires k <= |groups|
    decreases |groups| - k
  {
    if k == |groups| then Check(st, [])
    else
      var g := groups[k];
      match listing(g.channelId)
      case Err(_) => CheckGroups(k + 1, groups, st, healthy, listing, notified)
      case Ok(vs) =>
        var r := CheckVideos(0, vs, g.channelId, g.subscribers, st, healthy, notified);
        var rest := CheckGroups(k + 1, groups, r.store, healthy, listing, notified);
        Check(rest.store, r.jobs + rest.jobs)
  }

  /** `_check_subscriptions`. */
  function CheckSubscriptions(st: Store.Store, healthy: bool, listing: string -> Result<seq<Downloader.Video>>,
                              notified: (int, Downloader.Video) -> bool): Check
  {
    var rows := Store.AllSubscriptions(st, healthy);
    if rows == [] then Check(st, [])
    else CheckGroups(0, GroupRows(rows), st, healthy, listing, notified)
  }

  /** A failing channel does not stop the others: with a working store,
      every video of every channel whose listing came back ends up marked,
      and marks are never lost. */
  lemma {:induction false} CheckGroupsMarksAll(k: nat, groups: seq<Group>, st: Store.Store,
                                               listing: string -> Result<seq<Downloader.Video>>, notified: (int, Downloader.Video) -> bool)
    requires k <= |groups|
    ensures st.processed.Keys <= CheckGroups(k, groups, st, true, listing, notified).store.processed.Keys
    ensures forall i :: k <= i < |groups| && listing(groups[i].channelId).Ok? ==>
      Ids(listing(groups[i].channelId).value) <= CheckGroups(k, groups, st, true, listing, notified).store.processed.Keys
    decreases |groups| - k
  {
    if k < |groups| {
      var g := groups[k];
      var result := CheckGroups(k, groups, st, true, listing, notified);
      if listing(g.channelId).Err? {
        CheckGroupsMarksAll(k + 1, groups, st, listing, notified);
        assert result == CheckGroups(k + 1, groups, st, true, listing, notified);
      } else {
        var vs := listing(g.channelId).value;
        var r := CheckVideos(0, vs, g.channelId, g.subscribers, st, true, notified);
        CheckVideosSpec(0, vs, g.channelId, g.subscribers, st, notified);
        assert vs[0..] == vs;
        assert st.processed.Keys <= r.store.processed.Keys && Ids(vs) <= r.store.processed.Keys;
        CheckGroupsMarksAll(k + 1, groups, r.store, listing, notified);
        assert result.store == CheckGroups(k + 1, groups, r.store, true, listing, notified).store;
      }
    }
  }

  /** Every job the channel check queues is one subscriber's job for one
      listed video that subscriber could be notified of. */
  lemma {:induction false} CheckVideosJobs(k: nat, vs: seq<Downloader.Video>, channelId: string, subs: seq<Subscriber>,
                                           st: Store.Store, healthy: bool, notified: (int, Downloader.Video) -> bool)
    requires k <= |vs|
    ensures forall j :: j in CheckVideos(k, vs, channelId, subs, st, healthy, notified).jobs ==>
      exists s, v :: s in subs && v in vs && notified(s.chatId, v) && j == JobFor(s, v)
    decreases |vs| - k
  {
    if k < |vs| {
      var v := vs[k];
      if Store.IsVideoProcessed(st, v.id, healthy) {
        CheckVideosJobs(k + 1, vs, channelId, subs, st, healthy, notified);
      } else {
        var marked := Store.MarkVideoProcessed(st, v.id, channelId, v.title, healthy).0;
        CheckVideosJobs(k + 1, vs, channelId, subs, marked, healthy, notified);
      }
    }
  }

  /** Every job of the channel loop belongs to a grouped subscriber. */
  lemma {:induction false} CheckGroupsJobs(k: nat, groups: seq<Group>, st: Store.Store, healthy: bool,
                                           listing: string -> Result<seq<Downloader.Video>>, notified: (int, Downloader.Video) -> bool)
    requires k <= |groups|
    ensures forall j :: j in CheckGroups(k, groups, st, healthy, listing, notified).jobs ==>
      exists i, s :: k <= i < |groups| && s in groups[i].subscribers && j == JobFor(s, Downloader.Video(None, None, j.url))
    decreases |groups| - k
  {
    if k < |groups| {
      var g := groups[k];
      if listing(g.channelId).Err? {
        CheckGroupsJobs(k + 1, groups, st, healthy, listing, notified);
      } else {
        var vs := listing(g.channelId).value;
        var r := CheckVideos(0, vs, g.channelId, g.subscribers, st, healthy, notified);
        CheckVideosJobs(0, vs, g.channelId, g.subscribers, st, healthy, notified);
        CheckGroupsJobs(k + 1, groups, r.store, healthy, listing, notified);
        var rest := CheckGroups(k + 1, groups, r.store, healthy, listing, notified);
        assert CheckGroups(k, groups, st, healthy, listing, notified).jobs == r.jobs + rest.jobs;
        forall j | j in r.jobs
          ensures exists i, s :: k <= i < |groups| && s in groups[i].subscribers && j == JobFor(s, Downloader.Video(None, None, j.url))
        {
          var s, v :| s in g.subscribers && v in vs && notified(s.chatId, v) && j == JobFor(s, v);
          assert j == JobFor(s, Downloader.Video(None, None, j.url));
        }
      }
    }
  }

  /** Every job the periodic check queues is for a stored subscription: it
      goes to that subscription's chat at its quality, replying to no
      message. */
  lemma CheckSubscriptionsSound(st: Store.Store, healthy: bool, listing: string -> Result<seq<Downloader.Video>>,
                                notified: (int, Downloader.Video) -> bool)
    ensures forall j :: j in CheckSubscriptions(st, healthy, listing, notified).jobs ==>
      exists row :: row in st.subs && j.chatId == row.chatId && j.maxHeight == Some(row.maxQuality) && j.messageId.None?
  {
    var rows := Store.AllSubscriptions(st, healthy);
    if rows != [] {
      var groups := GroupRows(rows);
      GroupRowsSpec(rows);
      CheckGroupsJobs(0, groups, st, healthy, listing, notified);
      forall j | j in CheckSubscriptions(st, healthy, listing, notified).jobs
        ensures exists row :: row in st.subs && j.chatId == row.chatId && j.maxHeight == Some(row.maxQuality) && j.messageId.None?
      {
        var i, s :| 0 <= i < |groups| && s in groups[i].subscribers && j == JobFor(s, Downloader.Video(None, None, j.url));
        SubscribersOfRows(rows, groups[i].channelId);
        var row :| row in rows && row.channelId == groups[i].channelId && s == SubscriberOf(row);
      }
    }
  }

  // ---------------------------------------------------------------------
  // check_channel_now

  /** The manual check: the store afterwards, the queued jobs, and the
      count of new videos or the notification error that was raised. */
  datatype NowRun = NowRun(store: Store.Store, jobs: seq<Worker.Job>, count: Result<nat>)

  function CheckNowFrom(k: nat, vs: seq<Downloader.Video>, channelId: string, chatId: int, maxQuality: int,
                        st: Store.Store, healthy: bool, notify: Downloader.Video -> Result<()>, count: nat): NowRun
    requires k <= |vs|
    decreases |vs| - k
  {
    if k == |vs| then NowRun(st, [], Ok(count))
    else
      var v := vs[k];
      if Store.IsVideoProcessed(st, v.id, healthy) then CheckNowFrom(k + 1, vs, channelId, chatId, maxQuality, st, healthy, notify, count)
      else
        var marked := Store.MarkVideoProcessed(st, v.id, channelId, v.title, healthy).0;
        match notify(v)
        case Err(e) => NowRun(marked, [], Err(e))
        case Ok(_) =>
          var rest := CheckNowFrom(k + 1, vs, channelId, chatId, maxQuality, marked, healthy, notify, count + 1);
          NowRun(rest.store, [JobFor(Subscriber(chatId, maxQuality), v)] + rest.jobs, rest.count)
  }

  /** `check_channel_now`. */
  function CheckChannelNow(vs: seq<Downloader.Video>, channelId: string, chatId: int, maxQuality: int,
                           st: Store.Store, healthy: bool, notify: Downloader.Video -> Result<()>): NowRun
  {
    CheckNowFrom(0, vs, channelId, chatId, maxQuality, st, healthy, notify, 0)
  }

  function JobsFor(vs: seq<Downloader.Video>, s: Subscriber): (jobs: seq<Worker.Job>)
    ensures |jobs| == |vs| && forall i :: 0 <= i < |vs| ==> jobs[i] == JobFor(s, vs[i])
  {
    seq(|vs|, i requires 0 <= i < |vs| => JobFor(s, vs[i]))
  }

  lemma JobsForCons(v: Downloader.Video, vs: seq<Downloader.Video>, s: Subscriber)
    ensures JobsFor([v] + vs, s) == [JobFor(s, v)] + JobsFor(vs, s)
  {
  }

  /** When every notification goes through and the store works, the
      manual check returns the number of new videos and queues one job for
      each, in listing order. */
  lemma CheckNowSpec(k: nat, vs: seq<Downloader.Video>, channelId: string, chatId: int, maxQuality: int,
                     st: Store.Store, notify: Downloader.Video -> Result<()>, count: nat)
    requires k <= |vs|
    requires forall v :: notify(v).Ok?
    ensures var r := CheckNowFrom(k, vs, channelId, chatId, maxQuality, st, true, notify, count);
      var novel := Fresh(vs[k..], st.processed.Keys);
      && r.jobs == JobsFor(novel, Subscriber(chatId, maxQuality))
      && r.count == Ok(count + |novel|)
  {
    CheckNowJobs(k, vs, channelId, chatId, maxQuality, st, notify, count);
    CheckNowCount(k, vs, channelId, chatId, maxQuality, st, notify, count);
  }

  lemma {:induction false} CheckNowJobs(k: nat, vs: seq<Downloader.Video>, channelId: string, chatId: int, maxQuality: int,
                                        st: Store.Store, notify: Downloader.Video -> Result<()>, count: nat)
    requires k <= |vs|
    requires forall v :: notify(v).Ok?
    ensures CheckNowFrom(k, vs, channelId, chatId, maxQuality, st, true, notify, count).jobs
      == JobsFor(Fresh(vs[k..], st.processed.Keys), Subscriber(chatId, maxQuality))
    decreases |vs| - k
  {
    if k < |vs| {
      var v := vs[k];
      assert vs[k..] == [v] + vs[k + 1..];
      if Seen(v, st.processed.Keys) {
        CheckNowJobs(k + 1, vs, channelId, chatId, maxQuality, st, notify, count);
      } else {
        var marked := Store.MarkVideoProcessed(st, v.id, channelId, v.title, true).0;
        CheckNowJobs(k + 1, vs, channelId, chatId, maxQuality, marked, notify, count + 1);
        assert marked.processed.Keys == st.processed.Keys + IdOf(v);
        JobsForCons(v, Fresh(vs[k + 1..], st.processed.Keys + IdOf(v)), Subscriber(chatId, maxQuality));
      }
    }
  }

  lemma {:induction false} CheckNowCount(k: nat, vs: seq<Downloader.Video>, channelId: string, chatId: int, maxQuality: int,
                                         st: Store.Store, notify: Downloader.Video -> Result<()>, count: nat)
    requires k <= |vs|
    requires forall v :: notify(v).Ok?
    ensures CheckNowFrom(k, vs, channelId, chatId, maxQuality, st, true, notify, count).count
      == Ok(count + |Fresh(vs[k..], st.processed.Keys)|)
    decreases |vs| - k
  {
    if k < |vs| {
      var v := vs[k];
      assert vs[k..] == [v] + vs[k + 1..];
      if Seen(v, st.processed.Keys) {
        CheckNowCount(k + 1, vs, channelId, chatId, maxQuality, st, notify, count);
      } else {
        var marked := Store.MarkVideoProcessed(st, v.id, channelId, v.title, true).0;
        assert notify(v).Ok?;
        assert CheckNowFrom(k, vs, channelId, chatId, maxQuality, st, true, notify, count).count
          == CheckNowFrom(k + 1, vs, channelId, chatId, maxQuality, marked, true, notify, count + 1).count;
        CheckNowCount(k + 1, vs, channelId, chatId, maxQuality, marked, notify, count + 1);
        assert marked.processed.Keys == st.processed.Keys + IdOf(v);
        assert Fresh(vs[k..], st.processed.Keys) == [v] + Fresh(vs[k + 1..], marked.processed.Keys);
      }
    }
  }

  /** The first notification among the new videos that fails is that of
      `novel[j]`. */
  predicate FailsFirstAt(novel: seq<Downloader.Video>, notify: Downloader.Video -> Result<()>, j: nat) {
    j < |novel| && notify(novel[j]).Err? && forall i :: 0 <= i < j ==> notify(novel[i]).Ok?
  }

  /** The reference list, one video at a time. */
  lemma FreshStep(vs: seq<Downloader.Video>, k: nat, seen: set<string>)
    requires k < |vs|
    ensures Seen(vs[k], seen) ==> Fresh(vs[k..], seen) == Fresh(vs[k + 1..], seen)
    ensures !Seen(vs[k], seen) ==> Fresh(vs[k..], seen) == [vs[k]] + Fresh(vs[k + 1..], seen + IdOf(vs[k]))
  {
    assert vs[k..] == [vs[k]] + vs[k + 1..];
    assert vs[k..][1..] == vs[k + 1..];
  }

  /** Past the first new video, the first failure moves one place down. */
  lemma FailsFirstTail(v: Downloader.Video, rest: seq<Downloader.Video>, notify: Downloader.Video -> Result<()>, j: nat)
    requires FailsFirstAt([v] + rest, notify, j) && j > 0
    ensures notify(v).Ok? && FailsFirstAt(rest, notify, j - 1)
  {
    assert ([v] + rest)[0] == v;
    assert forall i :: 0 <= i < |rest| ==> rest[i] == ([v] + rest)[i + 1];
  }

  /** A notification that cannot be sent ends the manual check: its video
      was already marked, the jobs of the new videos before it stay queued,
      and the error is raised in place of the count. */
  lemma CheckNowStopsAt(k: nat, vs: seq<Downloader.Video>, channelId: string, chatId: int, maxQuality: int,
                        st: Store.Store, notify: Downloader.Video -> Result<()>, count: nat, j: nat)
    requires k <= |vs|
    requires FailsFirstAt(Fresh(vs[k..], st.processed.Keys), notify, j)
    ensures var r := CheckNowFrom(k, vs, channelId, chatId, maxQuality, st, true, notify, count);
      var novel := Fresh(vs[k..], st.processed.Keys);
      && r.count == Err(notify(novel[j]).error)
      && r.jobs == JobsFor(novel[..j], Subscriber(chatId, maxQuality))
      && r.store.processed.Keys == st.processed.Keys + Ids(novel[..j + 1])
  {
    CheckNowStopsJobs(k, vs, channelId, chatId, maxQuality, st, notify, count, j);
    CheckNowStopsStore(k, vs, channelId, chatId, maxQuality, st, notify, count, j);
  }

  lemma {:induction false} CheckNowStopsJobs(k: nat, vs: seq<Downloader.Video>, channelId: string, chatId: int, maxQuality: int,
                                             st: Store.Store, notify: Downloader.Video -> Result<()>, count: nat, j: nat)
    requires k <= |vs|
    requires FailsFirstAt(Fresh(vs[k..], st.processed.Keys), notify, j)
    ensures var r := CheckNowFrom(k, vs, channelId, chatId, maxQuality, st, true, notify, count);
      var novel := Fresh(vs[k..], st.processed.Keys);
      && r.count == Err(notify(novel[j]).error)
      && r.jobs == JobsFor(novel[..j], Subscriber(chatId, maxQuality))
    decreases |vs| - k
  {
    var v := vs[k];
    FreshStep(vs, k, st.processed.Keys);
    if Seen(v, st.processed.Keys) {
      CheckNowStopsJobs(k + 1, vs, channelId, chatId, maxQuality, st, notify, count, j);
    } else {
      var marked := Store.MarkVideoProcessed(st, v.id, channelId, v.title, true).0;
      assert marked.processed.Keys == st.processed.Keys + IdOf(v);
      var rest := Fresh(vs[k + 1..], marked.processed.Keys);
      if j > 0 {
        FailsFirstTail(v, rest, notify, j);
        CheckNowStopsJobs(k + 1, vs, channelId, chatId, maxQuality, marked, notify, count + 1, j - 1);
        assert ([v] + rest)[..j] == [v] + rest[..j - 1];
        JobsForCons(v, rest[..j - 1], Subscriber(chatId, maxQuality));
      }
    }
  }

  lemma {:induction false} CheckNowStopsStore(k: nat, vs: seq<Downloader.Video>, channelId: string, chatId: int, maxQuality: int,
                                              st: Store.Store, notify: Downloader.Video -> Result<()>, count: nat, j: nat)
    requires k <= |vs|
    requires FailsFirstAt(Fresh(vs[k..], st.processed.Keys), notify, j)
    ensures CheckNowFrom(k, vs, channelId, chatId, maxQuality, st, true, notify, count).store.processed.Keys
      == st.processed.Keys + Ids(Fresh(vs[k..], st.processed.Keys)[..j + 1])
    decreases |vs| - k
  {
    var v := vs[k];
    FreshStep(vs, k, st.processed.Keys);
    if Seen(v, st.processed.Keys) {
      CheckNowStopsStore(k + 1, vs, channelId, chatId, maxQuality, st, notify, count, j);
    } else {
      var marked := Store.MarkVideoProcessed(st, v.id, channelId, v.title, true).0;
      assert marked.processed.Keys == st.processed.Keys + IdOf(v);
      var rest := Fresh(vs[k + 1..], marked.processed.Keys);
      if j == 0 {
        assert ([v] + rest)[..1] == [v] + [];
        IdsCons(v, []);
      } else {
        FailsFirstTail(v, rest, notify, j);
        CheckNowStopsStore(k + 1, vs, channelId, chatId, maxQuality, marked, notify, count + 1, j - 1);
        assert ([v] + rest)[..j + 1] == [v] + rest[..j];
        IdsCons(v, rest[..j]);
      }
    }
  }
}

=== FILE: text.dfy ===
/** The handful of Python string operations the bot relies on, written out
    over `seq<char>`: `in`, `startswith`, `lower`, `split`, `strip`,
    `int()`, `str()` of an integer and `os.path.splitext`. */
module Text {
  import opened Wrappers

  /** Python `s.startswith(p)`. */
  predicate StartsWith(s: string, p: string) {
    |p| <= |s| && s[..|p|] == p
  }

  /** `needle` sits in `hay` starting at index `i`. */
  ghost predicate OccursAt(hay: string, needle: string, i: int) {
    0 <= i && i + |needle| <= |hay| && hay[i..i + |needle|] == needle
  }

  ghost predicate IsSubstring(needle: string, hay: string) {
    exists i :: OccursAt(hay, needle, i)
  }

  /** Python `needle in hay`, computed by trying every start position. */
  function Contains(hay: string, needle: string): bool
    decreases |hay|
  {
    if StartsWith(hay, needle) then true
    else if |hay| == 0 then false
    else Contains(hay[1..], needle)
  }

  /** The scan finds `needle` exactly when it occurs somewhere in `hay`. */
  lemma {:induction false} ContainsIsSubstring(hay: string, needle: string)
    ensures Contains(hay, needle) <==> IsSubstring(needle, hay)
    decreases |hay|
  {
    if StartsWith(hay, needle) {
      assert OccursAt(hay, needle, 0);
    } else if |hay| > 0 {
      ContainsIsSubstring(hay[1..], needle);
      if Contains(hay[1..], needle) {
        var j :| OccursAt(hay[1..], needle, j);
        assert hay[1..][j..j + |needle|] == hay[j + 1..j + 1 + |needle|];
        assert OccursAt(hay, needle, j + 1);
      }
      if IsSubstring(needle, hay) {
        var i :| OccursAt(hay, needle, i);
        assert i != 0 by {
          assert hay[0..|needle|] == hay[..|needle|];
        }
        assert hay[1..][i - 1..i - 1 + |needle|] == hay[i..i + |needle|];
        assert OccursAt(hay[1..], needle, i - 1);
      }
    }
  }

  /** Every character of `needle` reappears in any `hay` containing it; so a
      character of `needle` missing from `hay` rules the occurrence out. */
  lemma SubstringCarriesChars(needle: string, hay: string, c: char)
    requires c in needle
    ensures IsSubstring(needle, hay) ==> c in hay
  {
    if IsSubstring(needle, hay) {
      var k :| 0 <= k < |needle| && needle[k] == c;
      var i :| OccursAt(hay, needle, i);
      assert hay[i..i + |needle|][k] == hay[i + k];
    }
  }

  /** Python `str.lower()` restricted to ASCII letters. */
  function LowerChar(c: char): char {
    if 'A' <= c <= 'Z' then (c as int - 'A' as int + 'a' as int) as char else c
  }

  function Lower(s: string): string {
    seq(|s|, i requires 0 <= i < |s| => LowerChar(s[i]))
  }

  /** Lower-casing both sides keeps an occurrence where it was. */
  lemma LowerKeepsOccurrence(needle: string, hay: string, i: int)
    requires OccursAt(hay, needle, i)
    ensures OccursAt(Lower(hay), Lower(needle), i)
  {
    assert Lower(hay)[i..i + |needle|] == Lower(needle) by {
      forall k | 0 <= k < |needle|
        ensures Lower(hay)[i..i + |needle|][k] == Lower(needle)[k]
      {
        assert hay[i..i + |needle|][k] == needle[k];
      }
    }
  }

  /** Python `str.isspace()` for one character. */
  predicate IsSpace(c: char) {
    || c == ' '
    || '\t' <= c <= '\r'
    || '\U{1C}' <= c <= '\U{1F}'
    || c == '\U{85}' || c == '\U{A0}' || c == '\U{1680}'
    || '\U{2000}' <= c <= '\U{200A}'
    || c == '\U{2028}' || c == '\U{2029}' || c == '\U{202F}' || c == '\U{205F}' || c == '\U{3000}'
  }

  function TrimStart(s: string): string
    decreases |s|
  {
    if |s| > 0 && IsSpace(s[0]) then TrimStart(s[1..]) else s
  }

  function TrimEnd(s: string): string
    decreases |s|
  {
    if |s| > 0 && IsSpace(s[|s| - 1]) then TrimEnd(s[..|s| - 1]) else s
  }

  /** Python `s.strip()`. */
  function Strip(s: string): string {
    TrimEnd(TrimStart(s))
  }

  /** Python `s.split(sep)` for a one-character separator: never empty. */
  function Split(s: string, sep: char): (parts: seq<string>)
    ensures |parts| >= 1
    decreases |s|
  {
    if |s| == 0 then [""]
    else
      var rest := Split(s[1..], sep);
      if s[0] == sep then [""] + rest
      else [[s[0]] + rest[0]] + rest[1..]
  }

  /** Python `sep.join(parts)`. */
  function Join(parts: seq<string>, sep: char): string
    decreases |parts|
  {
    if |parts| == 0 then ""
    else if |parts| == 1 then parts[0]
    else parts[0] + [sep] + Join(parts[1..], sep)
  }

  /** Splitting loses nothing: joining the pieces back gives the input,
      and no piece contains the separator. */
  lemma {:induction false} SplitJoin(s: string, sep: char)
    ensures Join(Split(s, sep), sep) == s
    ensures forall k :: 0 <= k < |Split(s, sep)| ==> sep !in Split(s, sep)[k]
    decreases |s|
  {
    if |s| > 0 {
      var rest := Split(s[1..], sep);
      SplitJoin(s[1..], sep);
      if s[0] == sep {
        assert ([""] + rest)[1..] == rest;
        assert Join([""] + rest, sep) == [sep] + Join(rest, sep);
        assert [sep] + s[1..] == s;
      } else {
        var parts := [[s[0]] + rest[0]] + rest[1..];
        assert parts[1..] == rest[1..];
        if |rest| == 1 {
          assert Join(parts, sep) == [s[0]] + rest[0];
        } else {
          assert Join(rest, sep) == rest[0] + [sep] + Join(rest[1..], sep);
          assert Join(parts, sep) == [s[0]] + rest[0] + [sep] + Join(rest[1..], sep);
        }
        assert [s[0]] + s[1..] == s;
        forall k | 0 <= k < |parts|
          ensures sep !in parts[k]
        {
          if k > 0 {
            assert parts[k] == rest[k];
          }
        }
      }
    }
  }

  lemma {:induction false} SplitWithoutSep(a: string, sep: char)
    requires sep !in a
    ensures Split(a, sep) == [a]
    decreases |a|
  {
    if |a| > 0 {
      SplitWithoutSep(a[1..], sep);
      assert [a[0]] + a[1..] == a;
    }
  }

  lemma {:induction false} SplitAfterSep(a: string, b: string, sep: char)
    requires sep !in a
    ensures Split(a + [sep] + b, sep) == [a] + Split(b, sep)
    decreases |a|
  {
    var s := a + [sep] + b;
    if |a| == 0 {
      assert s[1..] == b;
    } else {
      assert s[1..] == a[1..] + [sep] + b;
      SplitAfterSep(a[1..], b, sep);
      assert [a[0]] + a[1..] == a;
    }
  }

  /** Joining pieces that do not contain the separator and splitting the
      result gives the pieces back. */
  lemma {:induction false} SplitOfJoin(parts: seq<string>, sep: char)
    requires |parts| >= 1
    requires forall k :: 0 <= k < |parts| ==> sep !in parts[k]
    ensures Split(Join(parts, sep), sep) == parts
    decreases |parts|
  {
    if |parts| == 1 {
      SplitWithoutSep(parts[0], sep);
    } else {
      SplitOfJoin(parts[1..], sep);
      SplitAfterSep(parts[0], Join(parts[1..], sep), sep);
      assert [parts[0]] + parts[1..] == parts;
    }
  }

  predicate IsDigit(c: char) {
    '0' <= c <= '9'
  }

  predicate AllDigits(s: string) {
    |s| > 0 && forall i :: 0 <= i < |s| ==> IsDigit(s[i])
  }

  function DigitValue(c: char): nat
    requires IsDigit(c)
  {
    c as int - '0' as int
  }

  /** The value of a run of decimal digits. */
  function DigitsValue(s: string): nat
    requires forall i :: 0 <= i < |s| ==> IsDigit(s[i])
    decreases |s|
  {
    if |s| == 0 then 0
    else DigitsValue(s[..|s| - 1]) * 10 + DigitValue(s[|s| - 1])
  }

  function DigitChar(d: nat): char
    requires d < 10
  {
    ('0' as int + d) as char
  }

  /** Python `str(n)` for a non-negative integer. */
  function NatToString(n: nat): string
    decreases n
  {
    if n < 10 then [DigitChar(n)] else NatToString(n / 10) + [DigitChar(n % 10)]
  }

  /** Python `str(i)` for any integer. */
  function IntToString(i: int): string {
    if i < 0 then "-" + NatToString(-i) else NatToString(i)
  }

  /** Python `int(s)`: optional surrounding whitespace, an optional sign
      and ASCII digits; anything else raises `ValueError` (here `None`). */
  function ParseInt(s: string): Option<int> {
    var t := Strip(s);
    if |t| > 0 && (t[0] == '-' || t[0] == '+') then
      if AllDigits(t[1..]) then
        var v: int := DigitsValue(t[1..]);
        Some(if t[0] == '-' then -v else v)
      else None
    else if AllDigits(t) then Some(DigitsValue(t))
    else None
  }

  lemma {:induction false} NatToStringDigits(n: nat)
    ensures AllDigits(NatToString(n))
    ensures DigitsValue(NatToString(n)) == n
    decreases n
  {
    if n >= 10 {
      NatToStringDigits(n / 10);
      var s := NatToString(n);
      assert s[..|s| - 1] == NatToString(n / 10);
    }
  }

  /** `int(str(i)) == i`: rendering an integer and parsing it back is the
      identity, which is what every encoded number in callback data and
      task identifiers relies on. */
  lemma ParseIntRoundTrip(i: int)
    ensures ParseInt(IntToString(i)) == Some(i)
  {
    var n: nat := if i < 0 then -i else i;
    NatToStringDigits(n);
    var s := IntToString(i);
    assert Strip(s) == s by {
      assert TrimStart(s) == s;
      assert TrimEnd(s) == s;
    }
    if i < 0 {
      assert s[1..] == NatToString(n);
    }
  }

  /** Index of the last `c` in `s`, or -1 (Python `s.rfind(c)`). */
  function LastIndexOf(s: string, c: char): (k: int)
    ensures -1 <= k < |s|
    ensures k >= 0 ==> s[k] == c
    ensures forall j :: k < j < |s| ==> s[j] != c
    decreases |s|
  {
    if |s| == 0 then -1
    else if s[|s| - 1] == c then |s| - 1
    else LastIndexOf(s[..|s| - 1], c)
  }

  /** Some character of `p[lo..hi]` is not a dot. */
  predicate HasNonDot(p: string, lo: int, hi: int)
    requires 0 <= lo <= hi <= |p|
  {
    exists k :: lo <= k < hi && p[k] != '.'
  }

  /** Python `os.path.splitext` (POSIX): the extension starts at the last
      dot of the final path component, unless everything before that dot
      in the component is dots. */
  function SplitExt(p: string): (string, string) {
    var sepIndex := LastIndexOf(p, '/');
    var dotIndex := LastIndexOf(p, '.');
    if dotIndex > sepIndex && HasNonDot(p, sepIndex + 1, dotIndex) then
      (p[..dotIndex], p[dotIndex..])
    else (p, "")
  }

  /** A dot followed by characters that are neither dots nor slashes. */
  predicate IsExtension(ext: string) {
    |ext| >= 1 && ext[0] == '.' && forall i :: 1 <= i < |ext| ==> ext[i] != '.' && ext[i] != '/'
  }

  /** The last path component of `root` has a character other than a dot. */
  predicate HasStem(root: string) {
    HasNonDot(root, LastIndexOf(root, '/') + 1, |root|)
  }

  /** `splitext` always splits `p` into a prefix and an extension that is
      empty or a proper extension. */
  lemma SplitExtParts(p: string)
    ensures SplitExt(p).0 + SplitExt(p).1 == p
    ensures SplitExt(p).1 == "" || IsExtension(SplitExt(p).1)
  {
    var sepIndex := LastIndexOf(p, '/');
    var dotIndex := LastIndexOf(p, '.');
    if dotIndex > sepIndex && HasNonDot(p, sepIndex + 1, dotIndex) {
      assert p[..dotIndex] + p[dotIndex..] == p;
    }
  }

  /** `splitext` undoes appending an extension to a path with a stem. */
  lemma SplitExtOfJoin(root: string, ext: string)
    requires HasStem(root) && IsExtension(ext)
    ensures SplitExt(root + ext) == (root, ext)
  {
    var p := root + ext;
    var sepRoot := LastIndexOf(root, '/');
    LastIndexIs(p, '.', |root|);
    forall j | sepRoot < j < |p|
      ensures p[j] != '/'
    {
      if j >= |root| {
        assert p[j] == ext[j - |root|];
      }
    }
    LastIndexIs(p, '/', sepRoot);
    var k :| sepRoot + 1 <= k < |root| && root[k] != '.';
    assert p[k] != '.';
    assert p[..|root|] == root;
  }

  lemma LastIndexIs(s: string, c: char, k: int)
    requires -1 <= k < |s|
    requires k >= 0 ==> s[k] == c
    requires forall j :: k < j < |s| ==> s[j] != c
    ensures LastIndexOf(s, c) == k
  {
  }

  /** `needle` starts at index `i` of `s` exactly when `s[i..]` starts with it. */
  lemma StartsWithAt(s: string, needle: string, i: nat)
    requires i <= |s|
    ensures StartsWith(s[i..], needle) <==> OccursAt(s, needle, i)
  {
    if i + |needle| <= |s| {
      assert s[i..][..|needle|] == s[i..i + |needle|];
    }
  }

  /** The first index at or after `i` where `needle` occurs (Python `s.find(needle, i)`). */
  function FindFrom(s: string, needle: string, i: nat): (r: Option<nat>)
    requires i <= |s|
    ensures r.Some? ==> i <= r.value && OccursAt(s, needle, r.value)
    ensures forall j :: i <= j && (r.None? || j < r.value) ==> !OccursAt(s, needle, j)
    decreases |s| - i
  {
    StartsWithAt(s, needle, i);
    if StartsWith(s[i..], needle) then Some(i)
    else if i == |s| then None
    else FindFrom(s, needle, i + 1)
  }

  /** An occurrence inside a prefix is an occurrence in the whole. */
  lemma OccursInPrefix(s: string, needle: string, i: nat)
    requires i <= |s|
    ensures forall j :: OccursAt(s[..i], needle, j) ==> OccursAt(s, needle, j)
  {
    forall j | OccursAt(s[..i], needle, j)
      ensures OccursAt(s, needle, j)
    {
      assert s[..i][j..j + |needle|] == s[j..j + |needle|];
    }
  }

  /** Python `s.split(needle)[0]` for a non-empty `needle`: the text before
      its first occurrence, or all of `s`. */
  function BeforeFirst(s: string, needle: string): (r: string)
    ensures StartsWith(s, r)
    ensures |needle| > 0 ==> forall j :: 0 <= j && j + |needle| <= |r| ==> !OccursAt(r, needle, j)
    ensures |r| < |s| ==> OccursAt(s, needle, |r|)
  {
    match FindFrom(s, needle, 0)
    case Some(i) =>
      OccursInPrefix(s, needle, i);
      assert s[..i][..i] == s[..i];
      s[..i]
    case None => s
  }

  /** Python `s.split(needle)[1]`: the text between the first and the
      second occurrence of `needle`, or to the end; `None` when `needle`
      does not occur (an `IndexError` in Python). */
  function AfterFirst(s: string, needle: string): (r: Option<string>)
    ensures r.Some? <==> IsSubstring(needle, s)
  {
    match FindFrom(s, needle, 0)
    case Some(i) => Some(BeforeFirst(s[i + |needle|..], needle))
    case None => None
  }

  function Pow10(n: nat): (p: nat)
    ensures p >= 1
  {
    if n == 0 then 1 else 10 * Pow10(n - 1)
  }

  /** The digits of `s` are all decimal digits (the empty string included). */
  predicate DigitRun(s: string) {
    forall i :: 0 <= i < |s| ==> IsDigit(s[i])
  }

  /** Python `float(s)` for plain decimals: surrounding whitespace, an
      optional sign, digits with at most one point and at least one digit. */
  function ParseDecimal(s: string): Option<real> {
    var t := Strip(s);
    var negative := |t| > 0 && t[0] == '-';
    var body := if |t| > 0 && (t[0] == '-' || t[0] == '+') then t[1..] else t;
    var point := FindFrom(body, ".", 0);
    var whole := if point.Some? then body[..point.value] else body;
    var fraction := if point.Some? then body[point.value + 1..] else "";
    if DigitRun(whole) && DigitRun(fraction) && |whole| + |fraction| > 0 then
      var v := DigitsValue(whole) as real + DigitsValue(fraction) as real / Pow10(|fraction|) as real;
      Some(if negative then -v else v)
    else None
  }
}

=== FILE: uploader.dfy ===
/** The size-based splitter: which upload limit applies, how many parts
    a file is cut into, how the duration is read from the transcoder's
    banner, how parts are named and which of them are kept. The transcoder
    runs are oracles: `exitOk(c)` says whether the command `c` of the
    segment plan exited with status 0, `files` which paths exist
    afterwards. */
module Uploader {
  import opened Wrappers
  import opened Text
  import opened Config

  /** A custom Bot API server is configured: a non-empty URL that is not
      the public endpoint. */
  predicate IsLocalApi(apiUrl: string) {
    apiUrl != "" && !Contains(apiUrl, "api.telegram.org")
  }

  /** The upload size limit for the configured API URL. */
  function SizeLimit(apiUrl: string): (limit: nat)
    ensures limit > 0
  {
    if IsLocalApi(apiUrl) then LocalApiLimit else StandardApiLimit
  }

  /** The local limit applies exactly when the URL is non-empty and does
      not mention the public endpoint anywhere; otherwise the standard one. */
  lemma SizeLimitSpec(apiUrl: string)
    ensures SizeLimit(apiUrl) == LocalApiLimit <==> apiUrl != "" && !IsSubstring("api.telegram.org", apiUrl)
    ensures SizeLimit(apiUrl) == StandardApiLimit <==> apiUrl == "" || IsSubstring("api.telegram.org", apiUrl)
  {
    ContainsIsSubstring(apiUrl, "api.telegram.org");
  }

  /** The number of parts: whole multiples of the limit, plus one. */
  function PartCount(size: nat, limit: nat): (n: nat)
    requires limit > 0
    ensures n >= 1
  {
    size / limit + 1
  }

  /** An oversized file is cut into at least two parts, and the parts,
      each at most `limit` long on average, cover the whole file; one part
      fewer would not. */
  lemma PartCountSpec(size: nat, limit: nat)
    requires limit > 0 && size > limit
    ensures PartCount(size, limit) >= 2
    ensures PartCount(size, limit) * limit > size
    ensures (PartCount(size, limit) - 1) * limit <= size
  {
  }

  /** The transcoder banner line holding the duration: the first line
      containing "Duration:". */
  function FirstLineWith(lines: seq<string>, needle: string): Option<string>
    decreases |lines|
  {
    if |lines| == 0 then None
    else if Contains(lines[0], needle) then Some(lines[0])
    else FirstLineWith(lines[1..], needle)
  }

  lemma {:induction false} FirstLineWithSpec(lines: seq<string>, needle: string)
    ensures FirstLineWith(lines, needle).None? <==> forall k :: 0 <= k < |lines| ==> !IsSubstring(needle, lines[k])
    ensures FirstLineWith(lines, needle).Some? ==>
      exists k :: 0 <= k < |lines| && lines[k] == FirstLineWith(lines, needle).value && IsSubstring(needle, lines[k])
        && forall j :: 0 <= j < k ==> !IsSubstring(needle, lines[j])
    decreases |lines|
  {
    if |lines| > 0 {
      ContainsIsSubstring(lines[0], needle);
      FirstLineWithSpec(lines[1..], needle);
      if !Contains(lines[0], needle) {
        assert forall k :: 1 <= k < |lines| ==> lines[1..][k - 1] == lines[k];
        if FirstLineWith(lines, needle).Some? {
          var k :| 0 <= k < |lines[1..]| && lines[1..][k] == FirstLineWith(lines, needle).value
            && IsSubstring(needle, lines[1..][k]) && forall j :: 0 <= j < k ==> !IsSubstring(needle, lines[1..][j]);
          assert lines[k + 1] == lines[1..][k];
          assert forall j :: 1 <= j < k + 1 ==> lines[j] == lines[1..][j - 1];
        }
      }
    }
  }

  /** On the first line of `text` mentioning `marker`, what follows the
      marker up to the next `stop` (or the marker's next occurrence),
      stripped. */
  function FieldAfter(text: string, marker: string, stop: string): Option<string> {
    match FirstLineWith(Split(text, '\n'), marker)
    case None => None
    case Some(line) =>
      match AfterFirst(line, marker)
      case None => None
      case Some(after) => Some(Strip(BeforeFirst(after, stop)))
  }

  /** The duration text from the transcoder banner. */
  function DurationText(stderr: string): Option<string> {
    FieldAfter(stderr, "Duration:", ",")
  }

  /** There is a field exactly when some line mentions the marker. */
  lemma FieldAfterFound(text: string, marker: string, stop: string)
    ensures FieldAfter(text, marker, stop).None? ==>
      forall k :: 0 <= k < |Split(text, '\n')| ==> !IsSubstring(marker, Split(text, '\n')[k])
    ensures (forall k :: 0 <= k < |Split(text, '\n')| ==> !IsSubstring(marker, Split(text, '\n')[k])) ==>
      FieldAfter(text, marker, stop).None?
  {
    var lines := Split(text, '\n');
    FirstLineWithSpec(lines, marker);
    if FirstLineWith(lines, marker).Some? {
      var line := FirstLineWith(lines, marker).value;
      var k :| 0 <= k < |lines| && lines[k] == line && IsSubstring(marker, lines[k]);
      assert AfterFirst(line, marker).Some?;
      assert FieldAfter(text, marker, stop).Some?;
      assert !(forall k :: 0 <= k < |Split(text, '\n')| ==> !IsSubstring(marker, Split(text, '\n')[k]));
    } else {
      assert FieldAfter(text, marker, stop).None?;
    }
  }

  /** The field never carries the one-character `stop`. */
  lemma FieldAfterAvoidsStop(text: string, marker: string, stop: char)
    ensures FieldAfter(text, marker, [stop]).Some? ==> stop !in FieldAfter(text, marker, [stop]).value
  {
    var lines := Split(text, '\n');
    if FirstLineWith(lines, marker).Some? {
      var line := FirstLineWith(lines, marker).value;
      if AfterFirst(line, marker).Some? {
        var before := BeforeFirst(AfterFirst(line, marker).value, [stop]);
        NoStopInBefore(before, stop);
        StripKeepsAbsence(before, stop);
      }
    }
  }

  /** The duration text never carries a comma. */
  lemma DurationTextNoComma(stderr: string)
    ensures DurationText(stderr).Some? ==> ',' !in DurationText(stderr).value
  {
    FieldAfterAvoidsStop(stderr, "Duration:", ',');
  }

  /** Without a banner line mentioning "Duration:" there is no duration text. */
  lemma DurationTextMissing(stderr: string)
    requires forall k :: 0 <= k < |Split(stderr, '\n')| ==> !IsSubstring("Duration:", Split(stderr, '\n')[k])
    ensures DurationText(stderr).None?
  {
    FieldAfterFound(stderr, "Duration:", ",");
  }

  lemma NoStopInBefore(r: string, stop: char)
    requires forall j :: 0 <= j && j + 1 <= |r| ==> !OccursAt(r, [stop], j)
    ensures stop !in r
  {
    forall j | 0 <= j < |r|
      ensures r[j] != stop
    {
      assert !OccursAt(r, [stop], j);
      assert r[j..j + 1] == [r[j]];
    }
  }

  lemma {:induction false} StripKeepsAbsence(s: string, c: char)
    requires c !in s
    ensures c !in Strip(s)
  {
    TrimStartIsSuffix(s);
    TrimEndIsPrefix(TrimStart(s));
  }

  lemma {:induction false} TrimStartIsSuffix(s: string)
    ensures forall c :: c in TrimStart(s) ==> c in s
    decreases |s|
  {
    if |s| > 0 && IsSpace(s[0]) {
      TrimStartIsSuffix(s[1..]);
    }
  }

  lemma {:induction false} TrimEndIsPrefix(s: string)
    ensures forall c :: c in TrimEnd(s) ==> c in s
    decreases |s|
  {
    if |s| > 0 && IsSpace(s[|s| - 1]) {
      TrimEndIsPrefix(s[..|s| - 1]);
    }
  }

  /** Hours, minutes and seconds of `HH:MM:SS.ss` as seconds, evaluated
      left to right as Python does: a field that does not parse raises
      before a later field is looked up, and a missing field raises when
      it is reached (here `Err`). */
  function ParseDuration(d: string): Result<real> {
    var fields := Split(d, ':');
    match ParseInt(fields[0])
    case None => Err("invalid literal for int()")
    case Some(h) =>
      if |fields| < 2 then Err("list index out of range")
      else match ParseInt(fields[1])
        case None => Err("invalid literal for int()")
        case Some(m) =>
          if |fields| < 3 then Err("list index out of range")
          else match ParseDecimal(fields[2])
            case None => Err("could not convert string to float")
            case Some(sec) => Ok((h * 3600 + m * 60) as real + sec)
  }

  /** One transcoder command: cut `length` seconds from `start` into `output`. */
  datatype Cut = Cut(start: real, length: real, output: string)

  /** Part `index` (1-based) of `filePath`: the suffix `_part<index>` goes
      before the extension. */
  function PartName(filePath: string, index: nat): string {
    var (base, ext) := SplitExt(filePath);
    base + "_part" + NatToString(index) + ext
  }

  /** The commands for `count` equal windows of a `total`-second file. */
  function SegmentPlan(filePath: string, total: real, count: nat): (plan: seq<Cut>)
    requires count > 0
    ensures |plan| == count
  {
    var segment := total / count as real;
    seq(count, i requires 0 <= i < count => Cut(i as real * segment, segment, PartName(filePath, i + 1)))
  }

  /** The windows start at 0, have equal length, follow each other
      without gap or overlap and together end at `total`. */
  lemma SegmentPlanSpec(filePath: string, total: real, count: nat)
    requires count > 0
    ensures SegmentPlan(filePath, total, count)[0].start == 0.0
    ensures forall i :: 0 <= i < count ==> SegmentPlan(filePath, total, count)[i].length * count as real == total
    ensures forall i :: 0 <= i < count - 1 ==>
      SegmentPlan(filePath, total, count)[i + 1].start == SegmentPlan(filePath, total, count)[i].start + SegmentPlan(filePath, total, count)[i].length
    ensures SegmentPlan(filePath, total, count)[count - 1].start + SegmentPlan(filePath, total, count)[count - 1].length == total
    ensures forall i :: 0 <= i < count ==> SegmentPlan(filePath, total, count)[i].output == PartName(filePath, i + 1)
  {
    WindowLengths(filePath, total, count);
    WindowsAdjoin(filePath, total, count);
    WindowsEnd(filePath, total, count);
  }

  lemma WindowLengths(filePath: string, total: real, count: nat)
    requires count > 0
    ensures forall i :: 0 <= i < count ==> SegmentPlan(filePath, total, count)[i].length * count as real == total
  {
    PlanWindows(filePath, total, count);
    DivTimes(total, count as real);
  }

  lemma WindowsAdjoin(filePath: string, total: real, count: nat)
    requires count > 0
    ensures forall i :: 0 <= i < count - 1 ==>
      SegmentPlan(filePath, total, count)[i + 1].start == SegmentPlan(filePath, total, count)[i].start + SegmentPlan(filePath, total, count)[i].length
  {
    var plan := SegmentPlan(filePath, total, count);
    var segment := total / count as real;
    PlanWindows(filePath, total, count);
    forall i | 0 <= i < count - 1
      ensures plan[i + 1].start == plan[i].start + plan[i].length
    {
      NextWindow(i, segment);
    }
  }

  lemma WindowsEnd(filePath: string, total: real, count: nat)
    requires count > 0
    ensures SegmentPlan(filePath, total, count)[count - 1].start + SegmentPlan(filePath, total, count)[count - 1].length == total
  {
    var segment := total / count as real;
    PlanWindows(filePath, total, count);
    DivTimes(total, count as real);
    LastWindow(count, segment, total);
  }

  /** Window `i` starts at `i` segments and is one segment long. */
  lemma PlanWindows(filePath: string, total: real, count: nat)
    requires count > 0
    ensures forall i :: 0 <= i < count ==>
      SegmentPlan(filePath, total, count)[i].start == i as real * (total / count as real)
      && SegmentPlan(filePath, total, count)[i].length == total / count as real
  {
  }

  lemma DivTimes(total: real, c: real)
    requires c > 0.0
    ensures (total / c) * c == total
  {
  }

  lemma LastWindow(count: nat, segment: real, total: real)
    requires count > 0 && segment * count as real == total
    ensures (count - 1) as real * segment + segment == total
  {
    NextWindow(count - 1, segment);
  }

  lemma NextWindow(i: nat, segment: real)
    ensures (i + 1) as real * segment == i as real * segment + segment
  {
  }

  /** Command `i` of the plan writes part `i + 1`. */
  predicate WritesParts(filePath: string, plan: seq<Cut>) {
    forall i :: 0 <= i < |plan| ==> plan[i].output == PartName(filePath, i + 1)
  }

  /** Whether part `i` (1-based) was produced: the plan's command `i - 1`
      exited cleanly and its output exists. */
  function Produced(plan: seq<Cut>, exitOk: Cut -> bool, files: set<string>): nat -> bool {
    (i: nat) => 1 <= i <= |plan| && exitOk(plan[i - 1]) && plan[i - 1].output in files
  }

  /** The part numbers among `1..count` that were produced, in increasing order. */
  function Made(count: nat, produced: nat -> bool): (made: seq<nat>)
    ensures forall k :: 0 <= k < |made| ==> 1 <= made[k] <= count
    decreases count
  {
    if count == 0 then []
    else Made(count - 1, produced) + (if produced(count) then [count] else [])
  }

  /** A part number is kept exactly when it was produced. */
  lemma {:induction false} MadeMembers(count: nat, produced: nat -> bool)
    ensures forall i: nat :: i in Made(count, produced) <==> 1 <= i <= count && produced(i)
    decreases count
  {
    if count > 0 {
      MadeMembers(count - 1, produced);
      var init := Made(count - 1, produced);
      var tail := if produced(count) then [count] else [];
      assert Made(count, produced) == init + tail;
      forall i: nat
        ensures i in init + tail <==> 1 <= i <= count && produced(i)
      {
        assert i in init + tail <==> i in init || i in tail;
      }
    }
  }

  /** Kept part numbers are strictly increasing. */
  lemma {:induction false} MadeIncreasing(count: nat, produced: nat -> bool)
    ensures forall a, b :: 0 <= a < b < |Made(count, produced)| ==> Made(count, produced)[a] < Made(count, produced)[b]
    decreases count
  {
    if count > 0 {
      MadeIncreasing(count - 1, produced);
      var init := Made(count - 1, produced);
      var made := init + (if produced(count) then [count] else []);
      assert Made(count, produced) == made;
      forall a, b | 0 <= a < b < |made|
        ensures made[a] < made[b]
      {
        if b < |init| {
          assert made[a] == init[a] && made[b] == init[b];
        } else {
          assert made[a] == init[a] && made[b] == count;
        }
      }
    }
  }

  /** A strictly increasing run of numbers in `1..bound` has at most `bound` members. */
  lemma {:induction false} IncreasingBound(made: seq<nat>, bound: nat)
    requires forall k :: 0 <= k < |made| ==> 1 <= made[k] <= bound
    requires forall a, b :: 0 <= a < b < |made| ==> made[a] < made[b]
    ensures |made| <= bound
    decreases bound
  {
    if |made| > 0 {
      var last := made[|made| - 1];
      IncreasingBound(made[..|made| - 1], last - 1);
    }
  }

  /** The names of the given part numbers. */
  function Names(filePath: string, made: seq<nat>): (names: seq<string>)
    ensures |names| == |made|
  {
    seq(|made|, k requires 0 <= k < |made| => PartName(filePath, made[k]))
  }

  /** The result of `split_video`: the file itself when it fits; otherwise
      the plan's commands are run and the parts they produced are kept, or
      the file itself when the duration is unknown or no part was
      produced; a malformed duration raises. */
  function SplitVideo(filePath: string, apiUrl: string, size: nat, stderr: string,
                      exitOk: Cut -> bool, files: set<string>): Result<seq<string>>
  {
    var limit := SizeLimit(apiUrl);
    if size <= limit then Ok([filePath])
    else
      match DurationText(stderr)
      case None => Ok([filePath])
      case Some(d) =>
        if d == "" then Ok([filePath])
        else match ParseDuration(d)
          case Err(e) => Err(e)
          case Ok(total) =>
            var count := PartCount(size, limit);
            var made := Made(count, Produced(SegmentPlan(filePath, total, count), exitOk, files));
            if |made| == 0 then Ok([filePath]) else Ok(Names(filePath, made))
  }

  /** A file within the limit is uploaded whole, and so is one whose
      duration the banner does not show. */
  lemma SplitVideoWhole(filePath: string, apiUrl: string, size: nat, stderr: string, exitOk: Cut -> bool, files: set<string>)
    requires size <= SizeLimit(apiUrl) || DurationText(stderr).None? || DurationText(stderr) == Some("")
    ensures SplitVideo(filePath, apiUrl, size, stderr, exitOk, files) == Ok([filePath])
  {
  }

  /** The segment plan names its outputs part by part. */
  lemma PlanWritesParts(filePath: string, total: real, count: nat)
    requires count > 0
    ensures WritesParts(filePath, SegmentPlan(filePath, total, count))
  {
  }

  /** The kept names are exactly the parts whose window's command
      succeeded and whose file exists, all existing, in increasing part
      order, at most one per command. */
  lemma NamesSpec(filePath: string, plan: seq<Cut>, exitOk: Cut -> bool, files: set<string>)
    requires WritesParts(filePath, plan)
    ensures var names := Names(filePath, Made(|plan|, Produced(plan, exitOk, files)));
      && |names| <= |plan|
      && (forall k :: 0 <= k < |names| ==> names[k] in files)
      && (forall i :: 1 <= i <= |plan| ==> (PartName(filePath, i) in names <==> exitOk(plan[i - 1]) && plan[i - 1].output in files))
      && InPartOrder(filePath, names, |plan|)
  {
    NamesExist(filePath, plan, exitOk, files);
    NamesExactly(filePath, plan, exitOk, files);
    NamesInOrder(filePath, |plan|, Produced(plan, exitOk, files));
  }

  lemma NamesExist(filePath: string, plan: seq<Cut>, exitOk: Cut -> bool, files: set<string>)
    requires WritesParts(filePath, plan)
    ensures var names := Names(filePath, Made(|plan|, Produced(plan, exitOk, files)));
      && |names| <= |plan|
      && (forall k :: 0 <= k < |names| ==> names[k] in files)
  {
    var made := Made(|plan|, Produced(plan, exitOk, files));
    var names := Names(filePath, made);
    MadeMembers(|plan|, Produced(plan, exitOk, files));
    MadeIncreasing(|plan|, Produced(plan, exitOk, files));
    IncreasingBound(made, |plan|);
    forall k | 0 <= k < |names|
      ensures names[k] in files
    {
      assert made[k] in made;
      assert plan[made[k] - 1].output == PartName(filePath, made[k]);
    }
  }

  lemma NamesExactly(filePath: string, plan: seq<Cut>, exitOk: Cut -> bool, files: set<string>)
    requires WritesParts(filePath, plan)
    ensures var names := Names(filePath, Made(|plan|, Produced(plan, exitOk, files)));
      forall i :: 1 <= i <= |plan| ==> (PartName(filePath, i) in names <==> exitOk(plan[i - 1]) && plan[i - 1].output in files)
  {
    var made := Made(|plan|, Produced(plan, exitOk, files));
    var names := Names(filePath, made);
    MadeMembers(|plan|, Produced(plan, exitOk, files));
    forall i | 1 <= i <= |plan|
      ensures PartName(filePath, i) in names <==> exitOk(plan[i - 1]) && plan[i - 1].output in files
    {
      if exitOk(plan[i - 1]) && plan[i - 1].output in files {
        assert Produced(plan, exitOk, files)(i);
        var k :| 0 <= k < |made| && made[k] == i;
        assert names[k] == PartName(filePath, i);
      }
      if PartName(filePath, i) in names {
        var k :| 0 <= k < |names| && names[k] == PartName(filePath, i);
        PartNameInjective(filePath, made[k], i);
        assert made[k] in made;
      }
    }
  }

  /** Each earlier name is a part with a smaller number than each later one. */
  predicate InPartOrder(filePath: string, names: seq<string>, count: nat) {
    forall a, b :: 0 <= a < b < |names| ==> PartsInOrder(filePath, names[a], names[b], count)
  }

  /** `x` and `y` are parts of `filePath` among `1..count`, `x` the earlier. */
  predicate PartsInOrder(filePath: string, x: string, y: string, count: nat) {
    exists i, j :: 1 <= i < j <= count && x == PartName(filePath, i) && y == PartName(filePath, j)
  }

  lemma NamesInOrder(filePath: string, count: nat, produced: nat -> bool)
    ensures InPartOrder(filePath, Names(filePath, Made(count, produced)), count)
  {
    var made := Made(count, produced);
    var names := Names(filePath, made);
    MadeIncreasing(count, produced);
    forall a, b | 0 <= a < b < |names|
      ensures PartsInOrder(filePath, names[a], names[b], count)
    {
      var i, j := made[a], made[b];
      assert 1 <= i < j <= count && names[a] == PartName(filePath, i) && names[b] == PartName(filePath, j);
    }
  }

  /** The cut branch of `SplitVideo` runs the segment plan for the parsed
      duration. */
  lemma SplitVideoCuts(filePath: string, apiUrl: string, size: nat, stderr: string, d: string, total: real,
                       exitOk: Cut -> bool, files: set<string>)
    requires size > SizeLimit(apiUrl)
    requires DurationText(stderr) == Some(d) && d != ""
    requires ParseDuration(d) == Ok(total)
    ensures var plan := SegmentPlan(filePath, total, PartCount(size, SizeLimit(apiUrl)));
      var names := Names(filePath, Made(|plan|, Produced(plan, exitOk, files)));
      SplitVideo(filePath, apiUrl, size, stderr, exitOk, files) == Ok(if |names| == 0 then [filePath] else names)
  {
  }

  /** `p` is the file itself, or one of its part files that exists. */
  ghost predicate OwnPart(filePath: string, p: string, files: set<string>) {
    p == filePath || (p in files && exists i: nat :: 1 <= i && p == PartName(filePath, i))
  }

  /** Whatever `split_video` returns, it is a non-empty list of the file
      itself or its existing part files. */
  lemma SplitVideoOwnParts(filePath: string, apiUrl: string, size: nat, stderr: string, exitOk: Cut -> bool, files: set<string>)
    ensures var r := SplitVideo(filePath, apiUrl, size, stderr, exitOk, files);
      r.Ok? ==> |r.value| >= 1 && forall k :: 0 <= k < |r.value| ==> OwnPart(filePath, r.value[k], files)
  {
    var limit := SizeLimit(apiUrl);
    if size > limit && DurationText(stderr).Some? && DurationText(stderr).value != "" && ParseDuration(DurationText(stderr).value).Ok? {
      var d := DurationText(stderr).value;
      var total := ParseDuration(d).value;
      var plan := SegmentPlan(filePath, total, PartCount(size, limit));
      var made := Made(|plan|, Produced(plan, exitOk, files));
      SplitVideoCuts(filePath, apiUrl, size, stderr, d, total, exitOk, files);
      SplitVideoParts(filePath, apiUrl, size, stderr, d, total, exitOk, files);
      var r := SplitVideo(filePath, apiUrl, size, stderr, exitOk, files);
      if |made| > 0 {
        forall k | 0 <= k < |r.value|
          ensures OwnPart(filePath, r.value[k], files)
        {
          assert r.value[k] == PartName(filePath, made[k]);
        }
      }
    }
  }

  /** When the file is cut, the result is never empty and never longer
      than the plan: either the original file alone, or existing part
      files in increasing part order, one per window at most. */
  lemma SplitVideoParts(filePath: string, apiUrl: string, size: nat, stderr: string, d: string, total: real,
                        exitOk: Cut -> bool, files: set<string>)
    requires size > SizeLimit(apiUrl)
    requires DurationText(stderr) == Some(d) && d != ""
    requires ParseDuration(d) == Ok(total)
    ensures var plan := SegmentPlan(filePath, total, PartCount(size, SizeLimit(apiUrl)));
      var r := SplitVideo(filePath, apiUrl, size, stderr, exitOk, files);
      && r.Ok? && 1 <= |r.value| <= |plan|
      && (r.value == [filePath] ||
          ((forall k :: 0 <= k < |r.value| ==> r.value[k] in files) && InPartOrder(filePath, r.value, |plan|)))
  {
    var plan := SegmentPlan(filePath, total, PartCount(size, SizeLimit(apiUrl)));
    SplitVideoCuts(filePath, apiUrl, size, stderr, d, total, exitOk, files);
    PlanWritesParts(filePath, total, |plan|);
    NamesSpec(filePath, plan, exitOk, files);
  }

  /** Part `i` of a cut file is among the results exactly when the command
      for window `i` of the plan (`SegmentPlanSpec`) exited cleanly and
      wrote its file; the original file is the only result exactly when no
      command produced its part. */
  lemma SplitVideoKeeps(filePath: string, apiUrl: string, size: nat, stderr: string, d: string, total: real,
                        exitOk: Cut -> bool, files: set<string>, i: nat)
    requires size > SizeLimit(apiUrl)
    requires DurationText(stderr) == Some(d) && d != ""
    requires ParseDuration(d) == Ok(total)
    requires 1 <= i <= PartCount(size, SizeLimit(apiUrl))
    ensures var plan := SegmentPlan(filePath, total, PartCount(size, SizeLimit(apiUrl)));
      var r := SplitVideo(filePath, apiUrl, size, stderr, exitOk, files);
      && r.Ok?
      && (PartName(filePath, i) in r.value <==> exitOk(plan[i - 1]) && plan[i - 1].output in files)
      && (r.value == [filePath] <==> forall j :: 0 <= j < |plan| ==> !(exitOk(plan[j]) && plan[j].output in files))
  {
    var plan := SegmentPlan(filePath, total, PartCount(size, SizeLimit(apiUrl)));
    SplitVideoCuts(filePath, apiUrl, size, stderr, d, total, exitOk, files);
    PlanWritesParts(filePath, total, |plan|);
    KeptParts(filePath, plan, exitOk, files, i);
  }

  /** The kept list, falling back to the original file, holds part `i`
      exactly when that part was produced, and is the original file alone
      exactly when nothing was. */
  lemma KeptParts(filePath: string, plan: seq<Cut>, exitOk: Cut -> bool, files: set<string>, i: nat)
    requires WritesParts(filePath, plan)
    requires 1 <= i <= |plan|
    ensures var names := Names(filePath, Made(|plan|, Produced(plan, exitOk, files)));
      var r := if |names| == 0 then [filePath] else names;
      && (PartName(filePath, i) in r <==> exitOk(plan[i - 1]) && plan[i - 1].output in files)
      && (r == [filePath] <==> forall j :: 0 <= j < |plan| ==> !(exitOk(plan[j]) && plan[j].output in files))
  {
    var made := Made(|plan|, Produced(plan, exitOk, files));
    var names := Names(filePath, made);
    NamesExactly(filePath, plan, exitOk, files);
    MadeMembers(|plan|, Produced(plan, exitOk, files));
    PartNameLonger(filePath, i);
    if |names| > 0 {
      PartNameLonger(filePath, made[0]);
      assert names[0] == PartName(filePath, made[0]);
      assert made[0] in made;
    } else {
      forall j | 0 <= j < |plan|
        ensures !(exitOk(plan[j]) && plan[j].output in files)
      {
        assert !Produced(plan, exitOk, files)(j + 1);
      }
    }
  }

  /** A part name is longer than the file it is cut from. */
  lemma PartNameLonger(filePath: string, i: nat)
    ensures |PartName(filePath, i)| > |filePath|
  {
    SplitExtParts(filePath);
  }

  /** Different part numbers give different part names. */
  lemma PartNameInjective(filePath: string, i: nat, j: nat)
    requires PartName(filePath, i) == PartName(filePath, j)
    ensures i == j
  {
    var (base, ext) := SplitExt(filePath);
    var a := NatToString(i);
    var b := NatToString(j);
    var p := base + "_part";
    assert p + a + ext == p + b + ext;
    assert |a| == |b|;
    assert a == (p + a + ext)[|p|..|p| + |a|];
    assert b == (p + b + ext)[|p|..|p| + |b|];
    ParseIntRoundTrip(i);
    ParseIntRoundTrip(j);
  }

  /** The unit tests' scenarios: a 10 MiB file goes up whole, and a
      120 MiB file against the public endpoint is cut into three parts
      named `dummy_part1.mp4` to `dummy_part3.mp4`. */
  lemma SplitVideoExamples()
    ensures SizeLimit("https://api.telegram.org/bot") == StandardApiLimit
    ensures PartCount(120 * 1024 * 1024, StandardApiLimit) == 3
    ensures PartName("dummy.mp4", 1) == "dummy_part1.mp4"
    ensures PartName("dummy.mp4", 2) == "dummy_part2.mp4"
    ensures PartName("dummy.mp4", 3) == "dummy_part3.mp4"
  {
    StandardUrlExample();
    ThreePartsExample();
    DummyPartName(1);
    DummyPartName(2);
    DummyPartName(3);
  }

  lemma ThreePartsExample()
    ensures PartCount(120 * 1024 * 1024, StandardApiLimit) == 3
  {
    assert 120 * 1024 * 1024 == 2 * StandardApiLimit + 22 * 1024 * 1024;
  }

  lemma DummyPartName(i: nat)
    requires 1 <= i <= 9
    ensures PartName("dummy.mp4", i) == "dummy_part" + [DigitChar(i)] + ".mp4"
  {
    DummySplit();
  }

  lemma StandardUrlExample()
    ensures SizeLimit("https://api.telegram.org/bot") == StandardApiLimit
  {
    var url := "https://api.telegram.org/bot";
    assert OccursAt(url, "api.telegram.org", 8);
    ContainsIsSubstring(url, "api.telegram.org");
  }

  lemma DummySplit()
    ensures SplitExt("dummy.mp4") == ("dummy", ".mp4")
  {
    LastIndexIs("dummy", '/', -1);
    assert "dummy"[0] != '.';
    assert "dummy" + ".mp4" == "dummy.mp4";
    SplitExtOfJoin("dummy", ".mp4");
  }
}

=== FILE: worker.dfy ===
/** `process_queue`: the worker that takes single-video jobs off the
    request queue, runs the pre-flight checks, downloads and hands the file
    to the upload. The clock, the configuration, the probes, the
    cancellation set and every external outcome of one job are inputs. */
module Worker {
  import opened Wrappers
  import opened Text
  import Config
  import Downloader
  import Delivery

  /** A queued job: chat, URL, the message to reply to (absent for jobs
      the subscription monitor queues) and, for four-field jobs, the
      requested height, -1 meaning audio only. */
  datatype Job = Job(chatId: int, url: string, messageId: Option<int>, maxHeight: Option<int>)

  datatype Decoded = Decoded(chatId: int, url: string, messageId: Option<int>, height: int, audioOnly: bool)

  const DefaultHeight: int := 1080
  const AudioSentinel: int := -1

  /** Three-field jobs get the default height; the audio sentinel turns
      into an audio-only job at the default height. */
  function Decode(job: Job): (d: Decoded)
    ensures d.chatId == job.chatId && d.url == job.url && d.messageId == job.messageId
    ensures d.audioOnly <==> job.maxHeight == Some(AudioSentinel)
    ensures d.height != AudioSentinel
    ensures job.maxHeight.Some? && !d.audioOnly ==> d.height == job.maxHeight.value
    ensures job.maxHeight.None? || d.audioOnly ==> d.height == DefaultHeight
  {
    var requested := job.maxHeight.GetOr(DefaultHeight);
    var audioOnly := requested == AudioSentinel;
    Decoded(job.chatId, job.url, job.messageId, if audioOnly then DefaultHeight else requested, audioOnly)
  }

  /** Python `int(x)` on a float: truncation towards zero. */
  function Truncate(x: real): int {
    if x >= 0.0 then x.Floor else -((-x).Floor)
  }

  /** How an optional message id renders in an f-string. */
  function MessageText(messageId: Option<int>): string {
    match messageId
    case Some(m) => IntToString(m)
    case None => "None"
  }

  /** The task identifier `chat_message_seconds`. */
  function TaskId(chatId: int, messageId: Option<int>, seconds: int): string {
    Join([IntToString(chatId), MessageText(messageId), IntToString(seconds)], '_')
  }

  lemma IntTextHasNoUnderscore(i: int)
    ensures '_' !in IntToString(i)
  {
    var n: nat := if i < 0 then -i else i;
    NatToStringDigits(n);
    var s := IntToString(i);
    if i < 0 {
      assert s == "-" + NatToString(n);
      assert forall k :: 1 <= k < |s| ==> s[k] == NatToString(n)[k - 1];
    }
  }

  /** Task identifiers are unambiguous: the chat, the message and the
      second can be read back from one, so two jobs share an identifier
      only when all three agree. */
  lemma TaskIdDecodes(chatId: int, messageId: Option<int>, seconds: int)
    ensures var parts := Split(TaskId(chatId, messageId, seconds), '_');
      && |parts| == 3
      && ParseInt(parts[0]) == Some(chatId)
      && (messageId.Some? ==> ParseInt(parts[1]) == Some(messageId.value))
      && (messageId.None? ==> parts[1] == "None")
      && ParseInt(parts[2]) == Some(seconds)
  {
    IntTextHasNoUnderscore(chatId);
    IntTextHasNoUnderscore(seconds);
    if messageId.Some? {
      IntTextHasNoUnderscore(messageId.value);
      ParseIntRoundTrip(messageId.value);
    }
    var parts := [IntToString(chatId), MessageText(messageId), IntToString(seconds)];
    SplitOfJoin(parts, '_');
    ParseIntRoundTrip(chatId);
    ParseIntRoundTrip(seconds);
  }

  lemma NoneIsNotAnInt()
    ensures ParseInt("None") == None
  {
    assert TrimStart("None") == "None";
    assert TrimEnd("None") == "None";
  }

  lemma TaskIdInjective(c1: int, m1: Option<int>, s1: int, c2: int, m2: Option<int>, s2: int)
    requires TaskId(c1, m1, s1) == TaskId(c2, m2, s2)
    ensures c1 == c2 && m1 == m2 && s1 == s2
  {
    TaskIdDecodes(c1, m1, s1);
    TaskIdDecodes(c2, m2, s2);
    NoneIsNotAnInt();
  }

  /** The worker's status lines (their wording is left out). */
  datatype Status =
    | Processing(url: string)
    | CheckingInfo
    | LowDisk(neededGb: real, remainingGb: real)
    | CancelledBeforeDownload
    | DownloadFailed(error: string)
    | Uploading(stage: Delivery.Status)
    | Completed

  /** What the worker does towards the chat: status updates through the
      rate-limited reporter, the upload's own messages, and the
      unretried error report of the outer handler. */
  datatype Event =
    | StatusUpdate(status: Status, force: bool, showCancel: bool)
    | Chat(message: Delivery.Event)
    | ErrorReport(error: string)

  /** Everything outside the worker that one job meets: the clock reading
      at dequeue, the disk quota and usage, the size probe, the
      cancellation set at the pre-flight check, the routes with their
      download outcomes, the files on disk after the download, the upload's
      outcomes and the outer error report. */
  datatype JobWorld = JobWorld(
    now: real,
    maxDiskGb: real,
    usageGb: real,
    probe: Result<Downloader.VideoInfo>,
    cancelled: set<string>,
    routes: seq<Config.Route>,
    attempt: nat -> Downloader.Attempt<Downloader.Fetched>,
    files: set<string>,
    upload: Delivery.World,
    errorReport: Result<()>)

  /** The result of one job: its identifier, the events, the cancellation
      set and files afterwards, whether the downloader ran and whether the
      upload ran, and the exception that ends the worker when even the
      error report fails. */
  datatype Outcome = Outcome(
    taskId: string,
    events: seq<Event>,
    cancelled: set<string>,
    files: set<string>,
    fetched: bool,
    uploaded: bool,
    crashed: Option<string>)

  /** The upload's status lines go through the worker's reporter, forced
      and without a cancel button. */
  function LiftEvent(ev: Delivery.Event): Event {
    if ev.Reported? then StatusUpdate(Uploading(ev.status), true, false) else Chat(ev)
  }

  /** The pre-flight disk check stops the job: a quota is set, the probe
      worked and gave a positive estimate, and the download would not fit. */
  predicate DiskBlocks(w: JobWorld) {
    && w.maxDiskGb > 0.0
    && w.probe.Ok?
    && w.probe.value.filesizeMb > 0.0
    && !Config.CheckDiskSpace(w.maxDiskGb, w.usageGb, w.probe.value.filesizeMb).allowed
  }

  const UnpackError := "too many values to unpack (expected 3)"

  /** The worker's unpacking of the downloader's result. As written, the
      call site takes three values from a four-value result, so every
      success raises; the corrected call site takes the media path and
      title from the four. */
  function Unpack(asWritten: bool, download: Result<Downloader.Download>): Result<Downloader.Download> {
    if asWritten && download.Ok? then Err(UnpackError) else download
  }

  /** One job of `process_queue`; `asWritten` selects the call site's
      unpacking as written or corrected. */
  function ProcessJob(job: Job, w: JobWorld, asWritten: bool): (o: Outcome)
    ensures o.taskId == TaskId(job.chatId, job.messageId, Truncate(w.now))
    ensures |o.events| >= 1 && o.events[0] == StatusUpdate(Processing(job.url), true, true)
    ensures forall i :: 0 <= i < |o.events| && o.events[i].StatusUpdate? ==> o.events[i].force
    ensures o.uploaded ==> o.fetched
    ensures !o.uploaded ==> o.files == w.files && o.crashed.None?
  {
    var d := Decode(job);
    var id := TaskId(d.chatId, d.messageId, Truncate(w.now));
    var start := [StatusUpdate(Processing(d.url), true, true)];
    var checking := if w.maxDiskGb > 0.0 then [StatusUpdate(CheckingInfo, true, true)] else [];
    if DiskBlocks(w) then
      var check := Config.CheckDiskSpace(w.maxDiskGb, w.usageGb, w.probe.value.filesizeMb);
      Outcome(id, start + checking + [StatusUpdate(LowDisk(w.probe.value.filesizeMb / 1024.0, check.remainingGb), true, false)],
              w.cancelled, w.files, false, false, None)
    else if id in w.cancelled then
      Outcome(id, start + checking + [StatusUpdate(CancelledBeforeDownload, true, false)], w.cancelled - {id}, w.files, false, false, None)
    else
      match Unpack(asWritten, Downloader.DownloadContent(w.routes, w.attempt, d.audioOnly, w.files))
      case Err(e) =>
        Outcome(id, start + checking + [StatusUpdate(DownloadFailed(e), true, false)], w.cancelled, w.files, true, false, None)
      case Ok(dl) =>
        var up := Delivery.HandleUpload(dl.path, dl.title, d.url, d.audioOnly, true, w.files, w.upload);
        var events := start + checking + Config.MapSeq(LiftEvent, up.events);
        match up.raised
        case None => Outcome(id, events + [StatusUpdate(Completed, true, false)], w.cancelled, up.files, true, true, None)
        case Some(e) =>
          match w.errorReport
          case Ok(_) => Outcome(id, events + [ErrorReport(e)], w.cancelled, up.files, true, true, None)
          case Err(e2) => Outcome(id, events, w.cancelled, up.files, true, true, Some(e2))
  }

  /** Pre-flight: the downloader runs exactly when the disk check does not
      block and the task was not cancelled before it; a task found in the
      cancellation set is reported, removed from the set and never fetched;
      otherwise the set is left alone. */
  lemma PreflightSpec(job: Job, w: JobWorld, asWritten: bool)
    ensures var o := ProcessJob(job, w, asWritten);
      && (o.fetched <==> !DiskBlocks(w) && o.taskId !in w.cancelled)
      && (!DiskBlocks(w) && o.taskId in w.cancelled ==>
            o.cancelled == w.cancelled - {o.taskId} && o.events[|o.events| - 1] == StatusUpdate(CancelledBeforeDownload, true, false))
      && (DiskBlocks(w) || o.taskId !in w.cancelled ==> o.cancelled == w.cancelled)
  {
  }

  /** The disk usage is consulted only when a quota is set and the probe
      gave a positive estimate: otherwise the job does the same whatever
      the usage, and a failed probe never stops it. */
  lemma DiskUsageIgnored(job: Job, w: JobWorld, usage: real, asWritten: bool)
    requires w.maxDiskGb <= 0.0 || w.probe.Err? || w.probe.value.filesizeMb <= 0.0
    ensures ProcessJob(job, w, asWritten) == ProcessJob(job, w.(usageGb := usage), asWritten)
    ensures !DiskBlocks(w)
  {
  }

  /** As written: no job ever reaches the upload. A download that worked
      is reported as failed with the unpacking error and its file stays on
      disk. */
  lemma AsWrittenNeverUploads(job: Job, w: JobWorld)
    ensures var o := ProcessJob(job, w, true);
      && !o.uploaded
      && (o.fetched && Downloader.DownloadContent(w.routes, w.attempt, Decode(job).audioOnly, w.files).Ok? ==>
            o.events[|o.events| - 1] == StatusUpdate(DownloadFailed(UnpackError), true, false) && o.files == w.files)
  {
  }

  /** Corrected: a download that worked is handed to the upload with its
      media path and title, and, unless the upload raised, the job ends
      with the completion status, whatever happened to single parts. */
  lemma CorrectedUploads(job: Job, w: JobWorld)
    requires !DiskBlocks(w) && TaskId(job.chatId, job.messageId, Truncate(w.now)) !in w.cancelled
    requires Downloader.DownloadContent(w.routes, w.attempt, Decode(job).audioOnly, w.files).Ok?
    ensures var o := ProcessJob(job, w, false);
      var dl := Downloader.DownloadContent(w.routes, w.attempt, Decode(job).audioOnly, w.files).value;
      var up := Delivery.HandleUpload(dl.path, dl.title, job.url, Decode(job).audioOnly, true, w.files, w.upload);
      && o.uploaded
      && o.files == up.files
      && (up.raised.None? ==> o.events[|o.events| - 1] == StatusUpdate(Completed, true, false) && o.crashed.None?)
      && (up.raised.Some? && w.errorReport.Err? ==> o.crashed == Some(w.errorReport.error))
  {
  }

  /** The queue loop over the jobs from `k` on, each paired with what it
      meets: each dequeued job gets its outcome (and its one `task_done`);
      an exception that escapes a job ends the loop. */
  function Drain<J>(jobs: seq<J>, run: J -> Outcome, k: nat): seq<Outcome>
    requires k <= |jobs|
    decreases |jobs| - k
  {
    if k == |jobs| then []
    else
      var o := run(jobs[k]);
      if o.crashed.Some? then [o] else [o] + Drain(jobs, run, k + 1)
  }

  /** Jobs are handled one at a time in queue order, each exactly once; the
      loop handles all of them unless a job's exception escapes, and then
      that job is the last one handled. */
  lemma {:induction false} DrainSpec<J>(jobs: seq<J>, run: J -> Outcome, k: nat)
    requires k <= |jobs|
    ensures var r := Drain(jobs, run, k);
      && |r| <= |jobs| - k
      && (forall i :: 0 <= i < |r| ==> r[i] == run(jobs[k + i]))
      && (forall i :: 0 <= i < |r| - 1 ==> r[i].crashed.None?)
      && (|r| < |jobs| - k ==> |r| > 0 && r[|r| - 1].crashed.Some?)
    decreases |jobs| - k
  {
    if k < |jobs| {
      var o := run(jobs[k]);
      if o.crashed.None? {
        DrainSpec(jobs, run, k + 1);
        var rest := Drain(jobs, run, k + 1);
        assert Drain(jobs, run, k) == [o] + rest;
        assert forall i :: 1 <= i < |rest| + 1 ==> ([o] + rest)[i] == rest[i - 1];
      }
    }
  }

  /** `process_queue` over a run of jobs, each with what it meets. */
  function ProcessQueue(jobs: seq<(Job, JobWorld)>, asWritten: bool): seq<Outcome> {
    Drain(jobs, (p: (Job, JobWorld)) => ProcessJob(p.0, p.1, asWritten), 0)
  }
}

=== FILE: wrappers.dfy ===
/** Failure-carrying values shared by the whole model: Python's `None`
    becomes `Option`, a raised exception becomes the `Err` arm of `Result`. */
module Wrappers {

  datatype Option<+T> = None | Some(value: T) {

    /** The value, or `default` when absent (Python's `d.get(key, default)`). */
    function GetOr(default: T): T {
      match this
      case Some(v) => v
      case None => default
    }
  }

  /** The outcome of a Python call that either returns a value or raises
      an exception whose `str()` is `error`. */
  datatype Result<+R> = Ok(value: R) | Err(error: string) {

    predicate IsFailure() {
      Err?
    }

    function PropagateFailure<U>(): Result<U>
      requires Err?
    {
      Err(error)
    }

    function Extract(): R
      requires Ok?
    {
      value
    }
  }
}
